=== FILE: README.md ===
# Gradient-descent SARSA(λ) with tile coding — a Dafny model

This project models the reinforcement-learning core of the library in
`src/rl/`. It covers:

- **Value types.** States are vectors of reals and actions have a name and
  a number. An environment outcome is the tuple (s, a, r, s', terminated).
- **Episodes.** An episode is a record of states, actions and rewards, with
  its discounted return.
- **Tile coding.** Tilings quantise a state vector into one tile per tiling.
  Each tile gets a feature id on first sight, from a counter shared by all
  tilings.
- **The cross-product feature map.** It re-maps every state feature id per
  action number, again from one shared counter.
- **The linear approximator.** It has lazily defaulted weights, `evaluate`,
  and `gradient` with its one-entry memo.
- **The SARSA(λ) learner.** It chooses actions epsilon-greedily, evaluates
  the next pair and computes the TD error. It then marks, applies, decays
  and retires eligibility traces, and runs one episode until the
  environment is terminal or the step budget runs out.

Everything is a value: objects that the source mutates through pointers
are threaded through pure functions and returned. The environment is a
record of pure functions over an abstract environment state `E`. The
learner's pseudo-random draws are an input stream `draws: nat -> real` of
uniform values read from a cursor; the tile coder's draws for each new
tiling are a vector with one value per active dimension. The number format used for printing is a
parameter `show`.

Modules follow the source files:

| module | file | source |
|---|---|---|
| `Wrappers` | wrappers.dfy | `Option`/`Result` |
| `Text` | text.dfy | joining with and splitting at a separator, used to state the printing formats |
| `States` | state.dfy | `state.hpp` |
| `Actions` | action.dfy | `action.hpp` |
| `Outcomes` | envoutcome.dfy | `envoutcome.hpp` |
| `Environment` | env.dfy | `env.hpp` |
| `Episodes` | episode.dfy | `episode.hpp`, `episode.cpp` |
| `IdAlloc` | idalloc.dfy | the get-or-create id tables of `tilecoding.cpp` and `linearfa.cpp` |
| `Tiles` | tilecoding.dfy | `tilecoding.hpp`, `tilecoding.cpp` |
| `Approximator` | linearfa.dfy | `linearfa.hpp`, `linearfa.cpp` |
| `Eligibility` | eligibility.dfy | the trace handling of `gdsarsalambda.cpp` |
| `Sarsa` | gdsarsalambda.dfy | `gdsarsalambda.hpp`, `gdsarsalambda.cpp` |

Some of the code's behaviour differs from its documentation. The model
follows the code and states the behaviour as it is:

- **`num_steps`** is documented as the number of steps taken. It returns the
  length of the state sequence, which on an episode seeded with its first
  state is one more than the number of transitions
  (`Episodes.NumStepsCountsStates`).
- **Tile lookup.** A tile is looked up in its tiling's table by `operator<`,
  which compares hashes only. Two different cells with the same hash
  therefore share a feature id (see Findings).
- **The gradient memo** matches the last pair by state value and by action
  name. It ignores the action number. A `gradient` call for an action that
  shares the name but has another number thus returns the features of the
  memoised action (`Approximator.MemoNameQuirk`).
- **Retired traces.** The list of traces marked for deletion is created once
  per episode and never cleared. An id retired once is erased after every
  later step of that episode, even after its gradient marks it again
  (`Eligibility.PrunedForever`). Its weight still receives that one step's
  update, because the weights move by the traces after marking, before the
  retirement (`Sarsa.Learn`; with replacing traces, `Sarsa.ReplacedMovesByRate`).

## Model

| member | source | states |
|---|---|---|
| States.SameIsEquivalence | src/rl/state.hpp:40-42 | state equality is an equivalence, and it holds exactly when the vectors are equal |
| States.Components | src/rl/state.hpp:45-51 | printing yields one field per component, each the number format applied to that component in order |
| States.FormatFields | src/rl/state.hpp:45-51 | splitting a printed state at commas gives back exactly its components, one per dimension |
| States.FormatAvoids | src/rl/state.hpp:45-51 | a character other than the comma that the number format never produces does not occur in a printed state |
| Actions.NameLessIrreflexive | src/rl/action.hpp:47-49 | no action name is below itself |
| Actions.NameLessTransitive | src/rl/action.hpp:47-49 | the name order is transitive |
| Actions.NameLessTrichotomy | src/rl/action.hpp:47-54 | two names are equal exactly when neither is below the other, and never both |
| Actions.SameIffIncomparable | src/rl/action.hpp:47-54 | `==` holds exactly when neither action is `<` the other; two actions equal under `==` can still differ in number |
| Outcomes.FormatFields | src/rl/envoutcome.hpp:52-56 | a printed outcome splits at `;` into 4 fields when terminated and 5 otherwise: the origin state, the action, the reward, the next state only when not terminated, then the flag |
| Environment.Applicable | src/rl/env.hpp:46-53 | the applicable actions are exactly the catalogue actions that pass the test, each with its catalogue multiplicity (duplicates kept, nothing else added), and they form a subsequence of the catalogue |
| Environment.DefaultKeepsCatalog | src/rl/env.hpp:46-53 | with the default test every action applies, so the whole catalogue is returned |
| Environment.EmptyWhenNoneApplies | src/rl/env.hpp:46-53 | when no action passes the test the list is empty |
| Episodes.Empty | src/rl/episode.cpp:22 | a default episode has no states, actions or rewards, so it is not aligned |
| Episodes.Seeded | src/rl/episode.cpp:24-27 | seeding records only the first state, which gives an aligned episode |
| Episodes.AddState | src/rl/episode.cpp:41-44 | appends one state and leaves the other sequences alone, so an aligned episode stops being aligned |
| Episodes.AddAction | src/rl/episode.cpp:46-49 | appends one action and leaves the other sequences alone |
| Episodes.AddReward | src/rl/episode.cpp:51-54 | appends one reward and leaves the other sequences alone |
| Episodes.Transition | src/rl/episode.cpp:56-61 | appends the next state, the action and the reward together, and keeps the episode aligned exactly when it was |
| Episodes.TransitionOutcome | src/rl/episode.cpp:63-68 | recording an outcome is the same as recording its action, next state and reward |
| Episodes.NumStepsCountsStates | src/rl/episode.cpp:70-73 | on an aligned episode `num_steps` is one more than the number of transitions taken |
| Episodes.DiscountedReturn | src/rl/episode.cpp:75-85 | the loop computes Σ γ^k r_k over the rewards, and this equals the recursive return r_0 + γ·(return of the rest) |
| Episodes.ReturnIsSeries | src/rl/episode.cpp:75-85 | the recursive return equals the power series Σ γ^k r_k |
| Episodes.UndiscountedIsSum | src/rl/episode.cpp:75-85 | with γ = 1 the return is the plain sum of the rewards |
| Episodes.HalfDiscountExample | src/rl/episode.cpp:75-85 | three unit rewards discounted by one half return 1.75 |
| IdAlloc.GetOrCreate | src/rl/linearfa.cpp:26-36 | a known key keeps its id and nothing changes; a new key gets the counter, which then advances by one; freshness is kept: ids lie below the counter and are pairwise distinct |
| IdAlloc.Unique | src/rl/linearfa.cpp:38-41 | in a family of tables sharing one counter, two entries with the same id are the same entry |
| IdAlloc.MintIn | src/rl/linearfa.cpp:38-41 | get-or-create in the table of one index (created empty if missing), minting from the shared counter; other tables are unchanged, no entry is lost, and ids stay distinct across tables |
| Tiles.HashIgnoresUnmasked | src/rl/tilecoding.cpp:30-37 | the tile hash depends only on the coordinates of active dimensions |
| Tiles.HashOfInactive | src/rl/tilecoding.cpp:30-37 | with every dimension masked out the hash is 0 |
| Tiles.HashCollision | src/rl/tilecoding.cpp:30-37 | the different cells [0, 31] and [1, 0] have the same hash, 31 |
| Tiles.TilesEqual | src/rl/tilecoding.cpp:46-55 | `==` on tiles holds exactly when the coordinate vectors are equal; the hash plays no part |
| Tiles.KeyIdentity | src/rl/tilecoding.cpp:41-44 | with keys compared by `<`, two tiles are one key exactly when their hashes agree; with coordinate keys, exactly when `==` holds |
| Tiles.AllActive | src/rl/tilecoding.cpp:59-63 | the two-argument tiling keeps widths and offset and activates every dimension |
| Tiles.CellContains | src/rl/tilecoding.cpp:75 | the coordinate floor((x − o)/w) is the cell that contains x: o + c·w ≤ x < o + (c+1)·w for w > 0, mirrored for w < 0 |
| Tiles.GetTileCells | src/rl/tilecoding.cpp:69-80 | `get_tile` gives 0 on inactive dimensions and the containing cell on active ones, and hashes the result under the tiling's mask |
| Tiles.GetTileIgnoresInactive | src/rl/tilecoding.cpp:69-80 | inputs that agree on the active dimensions fall in the same tile |
| Tiles.New | src/rl/tilecoding.cpp:110 | a new coder has no tilings and has issued no features |
| Tiles.NumFeaturesBound | src/rl/tilecoding.cpp:139-142 | every stored id is below `num_features`, and distinct entries in any tables have distinct ids |
| Tiles.RandOffset | src/rl/tilecoding.cpp:96-108 | takes one draw per active dimension and none for an inactive one; inactive offsets are 0, and an active offset lies within one tile width: [0, w) for w > 0, (w, 0] for w < 0 |
| Tiles.DrawsInOrder | src/rl/tilecoding.cpp:100-104 | the draws go to the active dimensions in dimension order: a later active dimension takes a strictly later draw, so no two share one |
| Tiles.RankBelow | src/rl/tilecoding.cpp:100-104 | every active dimension's draw index lies below the number of draws taken for the tiling |
| Tiles.AddTiling | src/rl/tilecoding.cpp:115-123 | adds `num_tilings` tilings, each with its own random offset drawn with one draw per active dimension, and an empty table; earlier tilings, their tables and the counter are unchanged |
| Tiles.AddOneValid | src/rl/tilecoding.cpp:119-121 | appending a well-formed tiling with an empty table keeps the coder consistent |
| Tiles.Step | src/rl/tilecoding.cpp:82-94 | one get-or-generate appends a unit feature whose id is the tile's stored id; a new tile gets the counter's current value and the counter advances by 1; a known tile gets its stored id and leaves the coder unchanged; only that tiling's table can change |
| Tiles.MintAll | src/rl/tilecoding.cpp:129-135 | the first n tilings each give one unit feature whose id is now stored for that tiling's tile; later tables are untouched; the counter advances by the number of new tiles |
| Tiles.StoredIdsDistinct | src/rl/tilecoding.cpp:82-94 | ids stored for the tiles of different tilings are pairwise distinct and below `num_features` |
| Tiles.PeekStable | src/rl/tilecoding.cpp:82-94 | once every tile of an input is stored, later growth of the coder keeps its ids |
| Tiles.StepPresent | src/rl/tilecoding.cpp:82-94 | looking up a stored tile only reads it and changes nothing |
| Tiles.Features | src/rl/tilecoding.cpp:125-137 | `features` gives one unit feature per tiling, with pairwise distinct ids below `num_features`, each the id stored for that tiling's tile; the counter advances by the number of unseen tiles |
| Tiles.FeaturesThenPresent | src/rl/tilecoding.cpp:125-137 | after `features`, every tile of the input is stored and reading them back gives the same features |
| Tiles.FeaturesWhenPresent | src/rl/tilecoding.cpp:125-137 | for an input whose tiles are all stored, `features` changes nothing and returns the stored ids |
| Tiles.FeaturesRepeat | src/rl/tilecoding.cpp:125-137 | asking twice for the same input gives the same features and the same coder |
| Tiles.SecondQuery | src/rl/tilecoding.cpp:125-137 | querying x and then y, the two queries receive the same id in a tiling exactly when their tiles there have the same key |
| Tiles.HashKeyingMergesTiles | src/rl/tilecoding.cpp:41-44 | with the source's `<` keying, a second input whose tile in some tiling has the same hash gets the first input's id in that tiling, even when the cells differ |
| Tiles.CollidingInputs | src/rl/tilecoding.cpp:30-37 | on a unit grid with no offset, the inputs [0.5, 31.5] and [1.5, 0.5] fall in the cells [0, 31] and [1, 0], which share the hash 31 |
| Tiles.CoordKeyingSeparatesTiles | src/rl/tilecoding.cpp:46-55 | keyed by coordinates as `==` intends, inputs in different cells of a tiling get different ids |
| Approximator.NewCross | src/rl/linearfa.cpp:43 | a new cross product wraps the coder, starts its counter at 0 and has every action table empty |
| Approximator.ActionFeature | src/rl/linearfa.cpp:38-41 | re-maps a state id in the table of the action's number, from the shared counter: a known id is returned unchanged; a new one gets the counter; other actions' tables are untouched |
| Approximator.Remap | src/rl/linearfa.cpp:54-57 | re-maps the first n state features in order, keeping each value; each result id is the id stored for its state id in the action's table; nothing changes when all were known |
| Approximator.Features | src/rl/linearfa.cpp:48-59 | per tiling one unit feature whose ids are pairwise distinct and below the counter; only the action's own table can change |
| Approximator.FeaturesThenPresent | src/rl/linearfa.cpp:48-59 | after `features(s, a)` the pair is fully stored and reading it back gives the same features |
| Approximator.FeaturesWhenPresent | src/rl/linearfa.cpp:48-59 | for a stored pair, `features` changes nothing and returns the stored ids |
| Approximator.FeaturesRepeat | src/rl/linearfa.cpp:48-59 | asking twice for the same pair gives the same features and the same map |
| Approximator.PeekStable | src/rl/linearfa.cpp:26-36 | once a pair is stored, later growth of the map keeps its ids |
| Approximator.ActionsDisjoint | src/rl/linearfa.cpp:38-41 | stored pairs of actions with different numbers never share an id, whatever their states |
| Approximator.OtherActionDisjoint | src/rl/linearfa.cpp:40 | the ids of a stored pair are disjoint from the ids `features` hands out for an action of another number |
| Approximator.NumFeaturesCovers | src/rl/linearfa.cpp:61-64 | with at least one tiling, every id `features` returns is below `num_features`, the product of the two counters |
| Approximator.NewApproxWith | src/rl/linearfa.cpp:70 | a new approximator reads every weight as the given default and has no memo |
| Approximator.NewApprox | src/rl/linearfa.cpp:68 | a new approximator reads every weight as 0 and has no memo |
| Approximator.GetWeight | src/rl/linearfa.cpp:118-125 | returns the stored weight, or the default for an unseen id, which is then stored; nothing else changes, and a stored id changes nothing at all |
| Approximator.GetWeightIdempotent | src/rl/linearfa.cpp:118-125 | reading the same weight twice gives the same value and leaves the approximator as the first read did |
| Approximator.WeighAll | src/rl/linearfa.cpp:76-79 | the loop sum is the dot product of the feature values with the weights read with the default; it stores exactly the unseen ids, at the default |
| Approximator.Evaluate | src/rl/linearfa.cpp:72-88 | `evaluate` returns Σ value·weight over the pair's features, reading unseen weights as the default, which it stores; it memoises the value, the features and the pair, and clears the gradient |
| Approximator.EvaluateThenKnown | src/rl/linearfa.cpp:72-88 | after `evaluate` the pair is stored, its Q value is the value returned, and the memoised features are the pair's |
| Approximator.EvaluateWhenKnown | src/rl/linearfa.cpp:72-88 | re-evaluating a known pair returns its Q value and changes neither the map nor the weights |
| Approximator.KnownStable | src/rl/linearfa.cpp:72-88 | growth that keeps every stored weight keeps a known pair known with the same Q value |
| Approximator.EvaluateMemoSound | src/rl/linearfa.cpp:80-85 | after `evaluate` the memo is consistent: its pair is stored and its features are that pair's |
| Approximator.GradientOf | src/rl/linearfa.cpp:101-103 | the gradient map has exactly the feature ids as keys |
| Approximator.GradientOfDistinct | src/rl/linearfa.cpp:101-103 | for pairwise distinct ids, each entry of the gradient is that feature's value |
| Approximator.GradientOfFeatures | src/rl/linearfa.cpp:101-103 | the gradient of a stored pair has the pair's ids as keys, each with value 1 |
| Approximator.Gradient | src/rl/linearfa.cpp:90-111 | on a memo hit with a cached gradient, that gradient is returned and nothing changes; on a hit without one, the cached features' gradient; on a miss, the gradient of freshly computed features; the weights are never touched |
| Approximator.GradientSound | src/rl/linearfa.cpp:90-111 | with a consistent memo that matches by number as well as by name, the gradient is the unit gradient of the pair's features, and the memo stays consistent |
| Approximator.MemoNameQuirk | src/rl/linearfa.cpp:94 | after evaluating (s, a1), the gradient of (s, a2), with the same name and another number, is a memo hit; it returns a1's features, none of which is an id of (s, a2) |
| Approximator.ResetParams | src/rl/linearfa.cpp:127-130 | after a reset no weight is stored and every weight reads as the default; nothing else changes |
| Eligibility.Mark | src/rl/gdsarsalambda.cpp:59-65 | marking adds the gradient's ids to the table; a marked trace becomes 1 when replacing, or its old value (0 when absent) plus 1 when accumulating; other traces are unchanged |
| Eligibility.MarkInAnyOrder | src/rl/gdsarsalambda.cpp:59-65 | marking the gradient's ids one by one, in any order, gives the same table |
| Eligibility.AccumulateAddsOne | src/rl/gdsarsalambda.cpp:63-64 | an accumulating mark adds exactly 1 to the id's previous trace, 0 if it had none |
| Eligibility.Update | src/rl/gdsarsalambda.cpp:67-68 | every weight, read with the default, moves by exactly the step size times its trace; untraced weights do not move |
| Eligibility.Decay | src/rl/gdsarsalambda.cpp:70 | every trace is multiplied by the factor, and no id is added or removed |
| Eligibility.Below | src/rl/gdsarsalambda.cpp:71-72 | the ids marked for deletion are exactly those whose trace is below the threshold |
| Eligibility.SweepInAnyOrder | src/rl/gdsarsalambda.cpp:67-73 | the id-by-id sweep, in any order, updates the weights, decays the traces and marks the low ids exactly as the whole-table definitions do |
| Eligibility.Erase | src/rl/gdsarsalambda.cpp:76-77 | erasing removes exactly the given ids and keeps the other traces unchanged |
| Eligibility.Retire | src/rl/gdsarsalambda.cpp:71-77 | the deletion list grows by the ids below the threshold; the traces left are exactly those not on the list; every trace left is at least the threshold |
| Eligibility.TraceStepPruned | src/rl/gdsarsalambda.cpp:59-77 | a trace step only grows the deletion list, only with ids that were traced or in the gradient, and leaves every trace at least the threshold |
| Eligibility.TraceStepKeys | src/rl/gdsarsalambda.cpp:59-77 | after a trace step the traced ids are exactly the previously traced and gradient ids that are not on the deletion list |
| Eligibility.TraceStepValues | src/rl/gdsarsalambda.cpp:59-70 | every trace left is its marked value (gradient ids) or its old value (others), times the decay factor |
| Eligibility.QuietDecay | src/rl/gdsarsalambda.cpp:70 | an id that no gradient marks for n steps and is still traced was traced at the start, and its trace has been multiplied by factorⁿ |
| Eligibility.RunSound | src/rl/gdsarsalambda.cpp:33 | along an episode's trace steps the deletion list only grows, and after every step no trace is below the threshold or on the list |
| Eligibility.PrunedForever | src/rl/gdsarsalambda.cpp:33 | an id on the deletion list is never traced again in that episode, because the list is never cleared |
| Eligibility.ReplacingBounded | src/rl/gdsarsalambda.cpp:61-62 | with replacing traces and a decay factor in [0, 1], every trace stays in [0, 1] for the whole episode |
| Sarsa.RoundIndexInRange | src/rl/gdsarsalambda.cpp:95 | round((n − 1)·u) is a valid index into n actions for every draw u in [0, 1] |
| Sarsa.FirstMaxSnoc | src/rl/gdsarsalambda.cpp:107-110 | replacing the best only on a strictly larger value keeps the first maximum |
| Sarsa.Query | src/rl/gdsarsalambda.cpp:106 | an evaluation leaves the pair known with the returned value as its Q value, and every weight reads as before |
| Sarsa.Greedy | src/rl/gdsarsalambda.cpp:100-113 | every action gets evaluated; the index returned is the first action of largest Q value; weights read as before; the memo is left on the last action of the list, evaluated last |
| Sarsa.PickExploit | src/rl/gdsarsalambda.cpp:91-92 | a draw above epsilon picks the greedy action and uses one draw |
| Sarsa.PickExplore | src/rl/gdsarsalambda.cpp:93-97 | otherwise a second draw picks the action at round((n − 1)·u), a valid index, and two draws are used |
| Sarsa.EGreedy | src/rl/gdsarsalambda.cpp:87-98 | fails only on an empty action list or an unquantisable state; otherwise it returns the epsilon-greedy pick among the applicable actions, all of them evaluated, the memo on the last of them, and every weight reads as before |
| Sarsa.Learn | src/rl/gdsarsalambda.cpp:58-77 | every weight, read with the default, moves by α·δ times its trace after marking; the traces take one step of marking, decay and retirement; with a consistent memo, the marking gradient is the unit gradient of the pair's features |
| Sarsa.UntracedUnchanged | src/rl/gdsarsalambda.cpp:67-68 | a weight whose id carries no trace after marking is not changed by the step |
| Sarsa.ReplacedMovesByRate | src/rl/gdsarsalambda.cpp:61-68 | with replacing traces, a weight in the current gradient moves by exactly α·δ |
| Sarsa.NoErrorNoChange | src/rl/gdsarsalambda.cpp:56-68 | a step with zero TD error leaves every weight reading as before |
| Sarsa.EvaluateCurrent | src/rl/gdsarsalambda.cpp:38-39 | evaluating the current pair and taking its gradient leaves it known, returns its Q value and changes no weight reading |
| Sarsa.LookAhead | src/rl/gdsarsalambda.cpp:45-48 | the next action is the epsilon-greedy pick in the state reached; the next value is its Q value, or 0 when the episode ended; the memo is left on the next pair, or on the last applicable action when the episode ended; it fails only where the choice does |
| Sarsa.Step | src/rl/gdsarsalambda.cpp:37-81 | one loop pass: the action is executed and recorded; δ = r + γ·Q(s', a') − Q(s, a), with both values read from unchanged weights; the weights and traces are updated as in Learn, starting from the memo the look-ahead left, which is consistent; the learner stays ready |
| Sarsa.StepGradientUnit | src/rl/gdsarsalambda.cpp:45-59 | the traces of a step are marked with the unit gradient of the current pair whenever the state reached has another vector, or no action applicable there shares the current action's name under another number |
| Sarsa.ProgressStart | src/rl/gdsarsalambda.cpp:28-35 | before the first step the episode holds only the first observation and the traces are empty |
| Sarsa.ProgressStep | src/rl/gdsarsalambda.cpp:36-81 | a step taken while the loop condition holds keeps the episode invariant and adds one trace step to the run; the environment trajectory gains the environment the execution led to, and the episode records that execution's action, next state and reward as its newest transition |
| Sarsa.TrajectorySnoc | src/rl/gdsarsalambda.cpp:36-53 | a step from a non-terminal environment within the budget extends the trajectory: every earlier transition still matches its execution, and the new one is the execution of the chosen action in the current environment |
| Sarsa.StepStuck | src/rl/gdsarsalambda.cpp:41-45 | a step fails only when the state the execution led to has no applicable action, or has some but cannot be quantised, with the matching error |
| Sarsa.Advance | src/rl/gdsarsalambda.cpp:36-81 | one loop pass: on success the episode invariant holds for the learner one step further, and the history gains that step, which executed the action, chose the next one ε-greedily, valued both pairs and updated the weights and traces by the TD error; on failure the execution from the current learner got stuck |
| Sarsa.HistorySnoc | src/rl/gdsarsalambda.cpp:36-81 | a step taken from the last learner as `Step` promises extends the history: every earlier step is kept, and the new one is added |
| Sarsa.Begin | src/rl/gdsarsalambda.cpp:28-35 | the first action is chosen exactly when the first state has an applicable action and can be quantised, with the matching error otherwise; on success the first action is the ε-greedy pick in the first state with the draws from 0 on, the learner holds it with empty traces and the seeded episode, and the episode invariant holds before any step |
| Sarsa.Drive | src/rl/gdsarsalambda.cpp:36-82 | the loop keeps the episode invariant and the history: every pass taken executed the action, chose the next one ε-greedily and updated the weights and traces by the TD error; it ends successfully only when the environment is terminal, the step budget or the fuel is spent, and fails only when a step from a learner that was allowed to go on got stuck |
| Sarsa.ProgressBounds | src/rl/gdsarsalambda.cpp:36-53 | throughout an episode the traces are sound; no more than `max_steps` steps are taken when it is not negative; none when the start is terminal or the budget is 0; replacing traces stay in [0, 1]; the trajectory starts at the first environment, ends at the current one, and each transition i of the episode is the execution of action i in environment i, which was not terminal and within the budget; the episode starts with the first observation |
| Sarsa.RunLearning | src/rl/gdsarsalambda.cpp:26-85 | fails at once, with no learner, exactly when the first state has no applicable action or cannot be quantised; otherwise it returns the learner after the last completed step, and fails only when the next execution from it led to a state without applicable actions or one that cannot be quantised; on success the loop ended in a terminal state, at the step bound or at the fuel bound; either way the learners before each step and the steps between them form the history: the first action is the ε-greedy pick from draw 0, and each step executed the learner's action, chose the next action ε-greedily with the following draws, valued both pairs on the weights it started from, and updated every traced weight by α·δ·trace and the traces by one trace step; the episode records, for every step, that execution in the environment then current, with sound traces, the step bound and bounded replacing traces as above |

## Left out

- Sarsa.RunLearning: the source loops for ever when `max_steps` is -1 and
  the environment never ends. The model stops after `fuel` steps, so its
  postcondition allows the fuel bound as a third way to stop.
- Sarsa.EGreedy: on an empty action list the source indexes `actions[0]`
  and `actions[-1]`, which is undefined behaviour. The model returns
  `Failure(NoApplicableAction)`. A state that some tiling cannot quantise
  is also undefined in the source and gives `Failure(Unquantisable)`.
- Sarsa.Greedy: requires a non-empty action list, because the source reads
  `actions[0]` unconditionally; `EGreedy` checks this before calling it.
- Sarsa.Learn: the fact that the marking gradient is the pair's unit
  gradient is stated only when the memo does not match the pair by name
  under another action number. In that case the source uses another
  action's features; `Approximator.MemoNameQuirk` states that case.
- Sarsa.Step: the gradient fact in its postcondition carries the same
  condition as `Sarsa.Learn`. The postcondition also pins the memo to the
  last pair the look-ahead evaluated, so the condition fails only when the
  state reached has the same vector as the current one and the last
  evaluated action has the current action's name under another number;
  `Sarsa.StepGradientUnit` states the unconditional cases.
- Sarsa.RunLearning: each step of its history carries `Step`'s facts, so
  the gradient of every step is the unit gradient except in that same
  case; `Sarsa.Drive` and `Sarsa.Advance` inherit it the same way.
- Sarsa.Uniform: the draws are any reals in [0, 1]. The source's
  `uniform_real_distribution<float>(0, 1)` nominally yields [0, 1), and
  float rounding can produce 1; the model allows 1.
- Tiles.RandOffset: requires the tile coder's draws to lie in [0, 1), so a
  draw of exactly 1, which `float` rounding in the source can produce, is
  not modelled; with it an active offset could equal a whole tile width.
- Tiles.HashOf: the hash is an unbounded integer. The source's 32-bit
  `int` wraps (strictly, signed overflow is undefined). More distinct cells
  can collide in the source than in the model.
- Approximator.NumFeatures: the product of the two counters is an
  unbounded integer. The source returns it as a 32-bit `int`, which
  overflows once the product passes 2^31 - 1; past that point
  `Approximator.NumFeaturesCovers` does not hold for the source.
- Tiles.Coordinate: the floor of the scaled, offset component is an
  unbounded integer. The source casts it to a 32-bit `int`, which is
  undefined behaviour for values out of that range; such states are not
  modelled differently from the others.
- States.Format: requires a non-empty vector. Printing an empty state in
  the source reads `v[size() - 1]` out of bounds.
- Approximator.Gradient: requires the approximator to have been evaluated
  or the state to be quantisable. Calling `gradient` before any `evaluate`
  dereferences the uninitialised memo pointers in the source; the model
  treats a missing memo as a miss.
- Real arithmetic: all `double` and `float` values are mathematical reals.
  Rounding, NaN and infinities are not modelled, and the order in which
  sums are accumulated does not matter.
- Number formatting: the text form of a number is the parameter `show`.
- Pseudo-random engines: the Mersenne-Twister state and seeding are
  replaced by draw parameters: a stream with a cursor for the learner, and
  one vector per new tiling for the tile coder. The learner takes one draw
  per ε-greedy choice and a second one when it explores; the tile coder
  takes one draw per active dimension of each new tiling.
- Memory management: pointers, ownership, destructors and copy
  constructors are replaced by value semantics. This includes the memo's
  pointer to the last state, which is compared by value as the source
  does.
- Persistence: the stream operators `<<` and `>>` that save and load
  features, tiles, tilings, tile coders, feature maps and approximators
  are not modelled. Only the printing of states and outcomes is.
- Environment: `reset_env` is not modelled, and `curr_obs` is read once per
  episode. `exec_act`, `is_terminal` and `curr_obs` are oracles, given as
  functions over the environment state.
- `ann.cpp`, `ann.h` and `rl_env.h` are not part of this model.

## Findings

| source | as written | input that shows it | evidently intended | confidence | as-written member | corrected member |
|---|---|---|---|---|---|---|
| src/rl/tilecoding.cpp:41-44 | `Tile::operator<` compares hashes only, so the per-tiling `std::map<Tile, int>` treats tiles with equal hashes as one key | a tiling with unit widths, zero offset and both dimensions active; inputs [0.5, 31.5] and [1.5, 0.5] fall in cells [0, 31] and [1, 0], both hashing to 31, so the second input receives the first one's feature id | different cells get different feature ids, as `operator==` on the coordinates (lines 46-55) intends | not executed; high | Tiles.HashKeyingMergesTiles | Tiles.CoordKeyingSeparatesTiles |

The tile coder is generic in its keying (`Tiles.KeyMode`): `ByHash`
reproduces the source, and `ByCoords` is the corrected keying. Every other
property of the coder, the cross product, the approximator and the
learner holds for both.

=== FILE: action.dfy ===
/**
 An agent action: a name and a number (action.hpp:42). Equality and order
 look at the name only (action.hpp:47-54); the number keys the per-action
 feature tables of the approximator.
 */
module Actions {
  import States

  datatype Action = Action(name: string, num: int)

  /** Action equality: the names are equal; the numbers are not compared. */
  predicate Same(a: Action, b: Action) {
    a.name == b.name
  }

  /** Action order: the names in lexicographic order of their characters. */
  predicate Less(a: Action, b: Action) {
    NameLess(a.name, b.name)
  }

  /** `std::string::compare(...) < 0`: a proper prefix is smaller, otherwise the first differing character decides. */
  predicate NameLess(x: string, y: string)
    decreases |x|
  {
    if |x| == 0 then |y| > 0
    else if |y| == 0 then false
    else if x[0] != y[0] then x[0] < y[0]
    else NameLess(x[1..], y[1..])
  }

  /** The applicability test every action inherits unless it overrides it. */
  function DefaultApplicable(a: Action, s: States.State): bool {
    true
  }

  lemma {:induction false} NameLessIrreflexive(x: string)
    ensures !NameLess(x, x)
    decreases |x|
  {
    if |x| > 0 {
      NameLessIrreflexive(x[1..]);
    }
  }

  lemma {:induction false} NameLessTransitive(x: string, y: string, z: string)
    requires NameLess(x, y) && NameLess(y, z)
    ensures NameLess(x, z)
    decreases |x|
  {
    if |x| > 0 && x[0] == y[0] && y[0] == z[0] {
      NameLessTransitive(x[1..], y[1..], z[1..]);
    }
  }

  /** Exactly one of `x < y`, `x == y`, `y < x` holds. */
  lemma {:induction false} NameLessTrichotomy(x: string, y: string)
    ensures x == y <==> !NameLess(x, y) && !NameLess(y, x)
    ensures !(NameLess(x, y) && NameLess(y, x))
    decreases |x|
  {
    if |x| > 0 && |y| > 0 && x[0] == y[0] {
      NameLessTrichotomy(x[1..], y[1..]);
      assert x == [x[0]] + x[1..];
      assert y == [y[0]] + y[1..];
    }
  }

  /** Two actions are equal exactly when neither is smaller than the other, numbers aside. */
  lemma SameIffIncomparable(a: Action, b: Action)
    ensures Same(a, b) <==> !Less(a, b) && !Less(b, a)
    ensures Same(a, b) && a.num != b.num ==> a != b
  {
    NameLessTrichotomy(a.name, b.name);
  }
}

=== FILE: eligibility.dfy ===
/**
 Eligibility traces and the weight sweep of one SARSA(λ) step
 (gdsarsalambda.cpp:58-77). A trace table maps feature ids to reals; ids
 whose decayed trace falls below the threshold are marked for deletion,
 and the marks accumulate over the whole episode: every later step erases
 every id ever marked.
 */
module Eligibility {
  import Approximator
  import Episodes

  /** The trace of an id, 0 when it has none (`std::map::operator[]` inserts a zero). */
  function TraceOf(t: map<int, real>, id: int): real {
    if id in t then t[id] else 0.0
  }

  /** The trace a gradient id receives: 1 when traces are replaced, one more than before when they accumulate. */
  function Marked(t: map<int, real>, id: int, replace: bool): real {
    if replace then 1.0 else TraceOf(t, id) + 1.0
  }

  /** The trace an id carries into the decay: its marked value when it is in the gradient `g`, its old one otherwise. */
  function Carried(t: map<int, real>, g: map<int, real>, id: int, replace: bool): real {
    if id in g then Marked(t, id, replace) else TraceOf(t, id)
  }

  /** The trace table after marking every id of the gradient `g`. */
  function Mark(t: map<int, real>, g: map<int, real>, replace: bool): (r: map<int, real>)
    ensures r.Keys == t.Keys + g.Keys
    ensures forall id :: id in r ==> r[id] == if id in g then Marked(t, id, replace) else t[id]
  {
    map id | id in t.Keys + g.Keys :: if id in g then Marked(t, id, replace) else t[id]
  }

  /** The marking loop run over `ids` in the order given, one id at a time. */
  function MarkSeq(t: map<int, real>, replace: bool, ids: seq<int>): map<int, real>
    decreases |ids|
  {
    if |ids| == 0 then t
    else
      var r := MarkSeq(t, replace, ids[..|ids| - 1]);
      var id := ids[|ids| - 1];
      r[id := if replace then 1.0 else TraceOf(r, id) + 1.0]
  }

  /** No id occurs twice. */
  predicate Distinct(ids: seq<int>) {
    forall i, j :: 0 <= i < j < |ids| ==> ids[i] != ids[j]
  }

  /** `r` is `t` with exactly the ids in `done` marked. */
  ghost predicate MarkedOnly(t: map<int, real>, replace: bool, r: map<int, real>, done: set<int>) {
    && r.Keys == t.Keys + done
    && (forall id :: id in r ==> r[id] == if id in done then Marked(t, id, replace) else t[id])
  }

  /** The ids listed in `xs`. */
  function Elems(xs: seq<int>): set<int> {
    set x | x in xs
  }

  lemma ElemsSnoc(xs: seq<int>, x: int)
    ensures Elems(xs + [x]) == Elems(xs) + {x}
  {
    assert forall y :: y in xs + [x] <==> y in xs || y == x;
  }

  /** Marking one more id, not marked before. */
  lemma MarkOne(t: map<int, real>, replace: bool, r: map<int, real>, done: set<int>, id: int)
    requires MarkedOnly(t, replace, r, done) && id !in done
    ensures MarkedOnly(t, replace, r[id := if replace then 1.0 else TraceOf(r, id) + 1.0], done + {id})
  {
    assert TraceOf(r, id) == TraceOf(t, id);
  }

  /** Running the marking loop over distinct ids marks each of them once, whatever their order. */
  lemma {:induction false} MarkSeqMarks(t: map<int, real>, replace: bool, ids: seq<int>)
    requires Distinct(ids)
    ensures MarkedOnly(t, replace, MarkSeq(t, replace, ids), Elems(ids))
    decreases |ids|
  {
    if |ids| > 0 {
      var n := |ids| - 1;
      var front := ids[..n];
      assert Distinct(front);
      MarkSeqMarks(t, replace, front);
      assert ids == front + [ids[n]];
      ElemsSnoc(front, ids[n]);
      MarkOne(t, replace, MarkSeq(t, replace, front), Elems(front), ids[n]);
    }
  }

  /**
   The marking loop of the source, visiting the gradient's ids in ascending
   order (or in any other order listing each once), produces `Mark`.
   */
  lemma MarkInAnyOrder(t: map<int, real>, g: map<int, real>, replace: bool, ids: seq<int>)
    requires Distinct(ids) && Elems(ids) == g.Keys
    ensures MarkSeq(t, replace, ids) == Mark(t, g, replace)
  {
    MarkSeqMarks(t, replace, ids);
    var r := MarkSeq(t, replace, ids);
    var m := Mark(t, g, replace);
    assert r.Keys == m.Keys;
    forall id | id in r
      ensures r[id] == m[id]
    {
    }
  }

  /**
   The weights after adding `step` times the trace to the weight of every
   traced id, an unseen id starting from the default weight: every weight,
   read with the default, moves by exactly `step` times its trace.
   */
  function Update(weights: map<int, real>, defaultWeight: real, t: map<int, real>, step: real): (w: map<int, real>)
    ensures w.Keys == weights.Keys + t.Keys
    ensures forall id :: Approximator.WeightOf(w, defaultWeight, id)
                         == Approximator.WeightOf(weights, defaultWeight, id) + step * TraceOf(t, id)
  {
    map id | id in weights.Keys + t.Keys ::
      if id in t then Approximator.WeightOf(weights, defaultWeight, id) + step * t[id] else weights[id]
  }

  /** Every trace multiplied by `factor`. */
  function Decay(t: map<int, real>, factor: real): (r: map<int, real>)
    ensures r.Keys == t.Keys
    ensures forall id :: id in t ==> r[id] == t[id] * factor
  {
    map id | id in t :: t[id] * factor
  }

  /** The ids whose trace is below `min`. */
  function Below(t: map<int, real>, min: real): (r: set<int>)
    ensures forall id :: id in r <==> id in t && t[id] < min
  {
    set id | id in t && t[id] < min
  }

  /** Weights, traces and newly marked ids during the sweep. */
  datatype Swept = Swept(weights: map<int, real>, traces: map<int, real>, low: set<int>)

  /** One iteration of the sweep: update the weight of `id` with its trace, decay the trace, mark it if too small. */
  function SweepId(r: Swept, defaultWeight: real, step: real, factor: real, min: real, id: int): Swept {
    var w := r.weights[id := Approximator.WeightOf(r.weights, defaultWeight, id) + step * TraceOf(r.traces, id)];
    var d := r.traces[id := TraceOf(r.traces, id) * factor];
    Swept(w, d, if d[id] < min then r.low + {id} else r.low)
  }

  /** The sweep run over `ids` in the order given, one id at a time. */
  function SweepSeq(weights: map<int, real>, defaultWeight: real, t: map<int, real>, step: real,
                    factor: real, min: real, ids: seq<int>): Swept
    decreases |ids|
  {
    if |ids| == 0 then Swept(weights, t, {})
    else SweepId(SweepSeq(weights, defaultWeight, t, step, factor, min, ids[..|ids| - 1]),
                 defaultWeight, step, factor, min, ids[|ids| - 1])
  }

  /** After sweeping exactly the ids in `done`: the traces part. */
  ghost predicate TracesSwept(t: map<int, real>, factor: real, r: Swept, done: set<int>) {
    && done <= t.Keys && r.traces.Keys == t.Keys
    && forall id :: id in r.traces ==> r.traces[id] == if id in done then t[id] * factor else t[id]
  }

  /** After sweeping exactly the ids in `done`: the weights part. */
  ghost predicate WeightsSwept(weights: map<int, real>, defaultWeight: real, t: map<int, real>, step: real,
                               r: Swept, done: set<int>) {
    && done <= t.Keys && r.weights.Keys == weights.Keys + done
    && forall id :: id in r.weights ==>
         r.weights[id] == if id in done then Approximator.WeightOf(weights, defaultWeight, id) + step * t[id]
                          else weights[id]
  }

  /** After sweeping exactly the ids in `done`. */
  ghost predicate SweptOnly(weights: map<int, real>, defaultWeight: real, t: map<int, real>, step: real,
                            factor: real, min: real, r: Swept, done: set<int>) {
    && TracesSwept(t, factor, r, done)
    && WeightsSwept(weights, defaultWeight, t, step, r, done)
    && (forall id :: id in r.low <==> id in done && r.traces[id] < min)
  }

  /** Sweeping one more id decays its trace and nothing else. */
  lemma SweepOneTraces(t: map<int, real>, defaultWeight: real, step: real, factor: real, min: real,
                       r: Swept, done: set<int>, id: int)
    requires TracesSwept(t, factor, r, done) && id in t && id !in done
    ensures TracesSwept(t, factor, SweepId(r, defaultWeight, step, factor, min, id), done + {id})
  {
    assert TraceOf(r.traces, id) == t[id];
  }

  /** Sweeping one more id moves its weight by `step` times its trace and nothing else. */
  lemma SweepOneWeights(weights: map<int, real>, defaultWeight: real, t: map<int, real>, step: real,
                        factor: real, min: real, r: Swept, done: set<int>, id: int)
    requires TracesSwept(t, factor, r, done) && WeightsSwept(weights, defaultWeight, t, step, r, done)
    requires id in t && id !in done
    ensures WeightsSwept(weights, defaultWeight, t, step, SweepId(r, defaultWeight, step, factor, min, id), done + {id})
  {
    assert TraceOf(r.traces, id) == t[id];
    assert Approximator.WeightOf(r.weights, defaultWeight, id) == Approximator.WeightOf(weights, defaultWeight, id);
  }

  /** Sweeping one more id of `t`, not swept before. */
  lemma SweepOne(weights: map<int, real>, defaultWeight: real, t: map<int, real>, step: real,
                 factor: real, min: real, r: Swept, done: set<int>, id: int)
    requires SweptOnly(weights, defaultWeight, t, step, factor, min, r, done) && id in t && id !in done
    ensures SweptOnly(weights, defaultWeight, t, step, factor, min,
                      SweepId(r, defaultWeight, step, factor, min, id), done + {id})
  {
    SweepOneTraces(t, defaultWeight, step, factor, min, r, done, id);
    SweepOneWeights(weights, defaultWeight, t, step, factor, min, r, done, id);
  }

  /** Sweeping distinct ids of `t` updates, decays and marks each once, whatever their order. */
  lemma {:induction false} SweepSeqSweeps(weights: map<int, real>, defaultWeight: real, t: map<int, real>,
                                          step: real, factor: real, min: real, ids: seq<int>)
    requires Distinct(ids) && forall i :: 0 <= i < |ids| ==> ids[i] in t
    ensures SweptOnly(weights, defaultWeight, t, step, factor, min,
                      SweepSeq(weights, defaultWeight, t, step, factor, min, ids), Elems(ids))
    decreases |ids|
  {
    if |ids| > 0 {
      var n := |ids| - 1;
      var front := ids[..n];
      assert Distinct(front);
      SweepSeqSweeps(weights, defaultWeight, t, step, factor, min, front);
      assert ids == front + [ids[n]];
      ElemsSnoc(front, ids[n]);
      SweepOne(weights, defaultWeight, t, step, factor, min,
               SweepSeq(weights, defaultWeight, t, step, factor, min, front), Elems(front), ids[n]);
    }
  }

  /** Once every traced id is swept, the weights are those of `Update`. */
  lemma SweptWeights(weights: map<int, real>, defaultWeight: real, t: map<int, real>, step: real,
                     factor: real, min: real, r: Swept)
    requires SweptOnly(weights, defaultWeight, t, step, factor, min, r, t.Keys)
    ensures r.weights == Update(weights, defaultWeight, t, step)
  {
    var u := Update(weights, defaultWeight, t, step);
    assert r.weights.Keys == u.Keys;
    forall id | id in u
      ensures r.weights[id] == u[id]
    {
    }
  }

  /** Once every traced id is swept, the traces are those of `Decay`. */
  lemma SweptTraces(weights: map<int, real>, defaultWeight: real, t: map<int, real>, step: real,
                    factor: real, min: real, r: Swept)
    requires SweptOnly(weights, defaultWeight, t, step, factor, min, r, t.Keys)
    ensures r.traces == Decay(t, factor)
  {
    var d := Decay(t, factor);
    assert r.traces.Keys == d.Keys;
    forall id | id in d
      ensures r.traces[id] == d[id]
    {
    }
  }

  /** Once every traced id is swept, the marked ids are those whose decayed trace is below `min`. */
  lemma SweptLow(weights: map<int, real>, defaultWeight: real, t: map<int, real>, step: real,
                 factor: real, min: real, r: Swept)
    requires SweptOnly(weights, defaultWeight, t, step, factor, min, r, t.Keys)
    ensures r.low == Below(Decay(t, factor), min)
  {
    SweptTraces(weights, defaultWeight, t, step, factor, min, r);
    var b := Below(Decay(t, factor), min);
    forall id
      ensures id in r.low <==> id in b
    {
    }
  }

  /**
   The sweep loop of the source, visiting the traced ids in ascending
   order (or in any other order listing each once), produces `Update`,
   `Decay` and `Below` of the decayed table.
   */
  lemma SweepInAnyOrder(weights: map<int, real>, defaultWeight: real, t: map<int, real>, step: real,
                        factor: real, min: real, ids: seq<int>, r: Swept)
    requires Distinct(ids) && Elems(ids) == t.Keys
    requires r == SweepSeq(weights, defaultWeight, t, step, factor, min, ids)
    ensures r.weights == Update(weights, defaultWeight, t, step)
    ensures r.traces == Decay(t, factor)
    ensures r.low == Below(Decay(t, factor), min)
  {
    SweepSeqSweeps(weights, defaultWeight, t, step, factor, min, ids);
    SweptWeights(weights, defaultWeight, t, step, factor, min, r);
    SweptTraces(weights, defaultWeight, t, step, factor, min, r);
    SweptLow(weights, defaultWeight, t, step, factor, min, r);
  }

  /** The trace table without the ids in `gone`. */
  function Erase(t: map<int, real>, gone: set<int>): (r: map<int, real>)
    ensures r.Keys == t.Keys - gone
    ensures forall id :: id in r ==> r[id] == t[id]
  {
    map id | id in t && id !in gone :: t[id]
  }

  /** Every remaining trace is at least `min` and none of its ids is marked. */
  predicate Sound(t: map<int, real>, pruned: set<int>, min: real) {
    forall id :: id in t ==> id !in pruned && t[id] >= min
  }

  /** The trace table and the ids marked for deletion so far in the episode. */
  datatype Elig = Elig(traces: map<int, real>, pruned: set<int>)

  /**
   Marking the ids of the decayed table `d` that fell below `min`, then
   erasing every id marked so far. Whatever the table before, what remains
   is sound.
   */
  function Retire(d: map<int, real>, pruned: set<int>, min: real): (r: Elig)
    ensures r.pruned == pruned + Below(d, min)
    ensures Sound(r.traces, r.pruned, min)
    ensures forall id :: id in r.traces <==> id in d && id !in r.pruned
    ensures forall id :: id in r.traces ==> r.traces[id] == d[id]
  {
    var gone := pruned + Below(d, min);
    Elig(Erase(d, gone), gone)
  }

  /** The trace part of one step, for the gradient `g`: mark, decay, retire. */
  function TraceStep(el: Elig, g: map<int, real>, replace: bool, factor: real, min: real): Elig {
    Retire(Decay(Mark(el.traces, g, replace), factor), el.pruned, min)
  }

  /**
   After a step the marks only grow, each new mark is an id that was traced
   or in the gradient, and the table is sound whatever it was before.
   */
  lemma TraceStepPruned(el: Elig, g: map<int, real>, replace: bool, factor: real, min: real, r: Elig)
    requires r == TraceStep(el, g, replace, factor, min)
    ensures el.pruned <= r.pruned
    ensures Sound(r.traces, r.pruned, min)
    ensures forall id :: id in r.pruned - el.pruned ==> id in el.traces || id in g
  {
  }

  /** An id carries a trace after a step exactly when it was traced or in the gradient, and is not marked. */
  lemma TraceStepKeys(el: Elig, g: map<int, real>, replace: bool, factor: real, min: real, r: Elig)
    requires r == TraceStep(el, g, replace, factor, min)
    ensures forall id :: id in r.traces <==> (id in el.traces || id in g) && id !in r.pruned
  {
  }

  /** A surviving trace is its marked value (a gradient id) or its old value (any other id), times `factor`. */
  lemma TraceStepValues(el: Elig, g: map<int, real>, replace: bool, factor: real, min: real, r: Elig)
    requires r == TraceStep(el, g, replace, factor, min)
    ensures forall id :: id in r.traces ==> r.traces[id] == Carried(el.traces, g, id, replace) * factor
  {
    var m := Mark(el.traces, g, replace);
    var d := Decay(m, factor);
    forall id | id in r.traces
      ensures r.traces[id] == Carried(el.traces, g, id, replace) * factor
    {
      RetiredAt(d, el.pruned, min, r, id);
      MarkDecayAt(el.traces, g, replace, factor, m, d, id);
    }
  }

  /** A survivor of retiring keeps its decayed value. */
  lemma RetiredAt(d: map<int, real>, pruned: set<int>, min: real, r: Elig, id: int)
    requires r == Retire(d, pruned, min) && id in r.traces
    ensures id in d && r.traces[id] == d[id]
  {
  }

  /** One entry of a marked and decayed table. */
  lemma MarkDecayAt(t: map<int, real>, g: map<int, real>, replace: bool, factor: real,
                    m: map<int, real>, d: map<int, real>, id: int)
    requires m == Mark(t, g, replace) && d == Decay(m, factor) && id in d
    ensures d[id] == Carried(t, g, id, replace) * factor
  {
    assert id in m && m[id] == Carried(t, g, id, replace);
  }

  /**
   `els` lists the tables an episode passes through: each follows from the
   one before by a step with the matching gradient.
   */
  ghost predicate Run(els: seq<Elig>, gs: seq<map<int, real>>, replace: bool, factor: real, min: real) {
    && |els| == |gs| + 1
    && forall j :: 0 <= j < |gs| ==> els[j + 1] == TraceStep(els[j], gs[j], replace, factor, min)
  }

  /** A run followed by one more step is a run. */
  lemma RunSnoc(els: seq<Elig>, gs: seq<map<int, real>>, replace: bool, factor: real, min: real,
                g: map<int, real>, e: Elig)
    requires Run(els, gs, replace, factor, min)
    requires e == TraceStep(els[|els| - 1], g, replace, factor, min)
    ensures Run(els + [e], gs + [g], replace, factor, min)
  {
    var els', gs' := els + [e], gs + [g];
    forall j | 0 <= j < |gs'|
      ensures els'[j + 1] == TraceStep(els'[j], gs'[j], replace, factor, min)
    {
      if j < |gs| {
        assert els'[j + 1] == els[j + 1] && els'[j] == els[j] && gs'[j] == gs[j];
      }
    }
  }

  /** What one trace step guarantees, as a relation between the tables before and after it. */
  ghost predicate StepFacts(prev: Elig, g: map<int, real>, replace: bool, factor: real, min: real, cur: Elig) {
    && prev.pruned <= cur.pruned
    && Sound(cur.traces, cur.pruned, min)
    && (forall id :: id in cur.traces <==> (id in prev.traces || id in g) && id !in cur.pruned)
    && (forall id :: id in cur.traces ==>
          cur.traces[id] == Carried(prev.traces, g, id, replace) * factor)
  }

  /** A trace step has those guarantees. */
  lemma StepFactsHold(el: Elig, g: map<int, real>, replace: bool, factor: real, min: real, r: Elig)
    requires r == TraceStep(el, g, replace, factor, min)
    ensures StepFacts(el, g, replace, factor, min, r)
  {
    TraceStepPruned(el, g, replace, factor, min, r);
    TraceStepKeys(el, g, replace, factor, min, r);
    TraceStepValues(el, g, replace, factor, min, r);
  }

  /** Tables related step by step by `StepFacts`. */
  ghost predicate Chain(els: seq<Elig>, gs: seq<map<int, real>>, replace: bool, factor: real, min: real) {
    && |els| == |gs| + 1
    && forall j :: 0 <= j < |gs| ==> StepFacts(els[j], gs[j], replace, factor, min, els[j + 1])
  }

  /** The tables of an episode are related step by step by `StepFacts`. */
  lemma RunIsChain(els: seq<Elig>, gs: seq<map<int, real>>, replace: bool, factor: real, min: real)
    requires Run(els, gs, replace, factor, min)
    ensures Chain(els, gs, replace, factor, min)
  {
    forall j | 0 <= j < |gs|
      ensures StepFacts(els[j], gs[j], replace, factor, min, els[j + 1])
    {
      StepFactsHold(els[j], gs[j], replace, factor, min, els[j + 1]);
    }
  }

  /** A chain cut after its first n steps is a chain. */
  lemma ChainPrefix(els: seq<Elig>, gs: seq<map<int, real>>, replace: bool, factor: real, min: real, n: nat)
    requires Chain(els, gs, replace, factor, min) && n <= |gs|
    ensures Chain(els[..n + 1], gs[..n], replace, factor, min)
  {
    forall j | 0 <= j < n
      ensures StepFacts(els[..n + 1][j], gs[..n][j], replace, factor, min, els[..n + 1][j + 1])
    {
      assert StepFacts(els[j], gs[j], replace, factor, min, els[j + 1]);
    }
  }

  /** `e` multiplied by `factor` n times. */
  function Scaled(e: real, factor: real, n: nat): real
    decreases n
  {
    if n == 0 then e else Scaled(e, factor, n - 1) * factor
  }

  /** From c == p * f and p == e * f^n (n times), c == e * f^(n+1). */
  lemma ScaledChain(c: real, p: real, e: real, factor: real, n: nat)
    requires c == p * factor && p == Scaled(e, factor, n)
    ensures c == Scaled(e, factor, n + 1)
  {
  }

  /** Multiplying n times by `factor` is multiplying by factor^n. */
  lemma {:induction false} ScaledIsPow(e: real, factor: real, n: nat)
    ensures Scaled(e, factor, n) == e * Episodes.Pow(factor, n)
    decreases n
  {
    if n > 0 {
      ScaledIsPow(e, factor, n - 1);
      assert Episodes.Pow(factor, n) == factor * Episodes.Pow(factor, n - 1);
    }
  }

  /** Along a chain, a trace no gradient touches is its first value times factor, once per step. */
  lemma {:induction false} QuietChain(els: seq<Elig>, gs: seq<map<int, real>>, replace: bool, factor: real, min: real, id: int)
    requires Chain(els, gs, replace, factor, min)
    requires forall j :: 0 <= j < |gs| ==> id !in gs[j]
    ensures id in els[|gs|].traces ==>
              id in els[0].traces && els[|gs|].traces[id] == Scaled(els[0].traces[id], factor, |gs|)
    decreases |gs|
  {
    if |gs| > 0 {
      var n := |gs| - 1;
      ChainPrefix(els, gs, replace, factor, min, n);
      QuietChain(els[..n + 1], gs[..n], replace, factor, min, id);
      assert StepFacts(els[n], gs[n], replace, factor, min, els[n + 1]);
      if id in els[n + 1].traces {
        ScaledChain(els[n + 1].traces[id], els[n].traces[id], els[0].traces[id], factor, n);
      }
    }
  }

  /**
   A trace no gradient touches decays geometrically: if it survives n quiet
   steps it was there at the start and is now its initial value times
   factor^n.
   */
  lemma QuietDecay(els: seq<Elig>, gs: seq<map<int, real>>, replace: bool, factor: real, min: real, id: int)
    requires Run(els, gs, replace, factor, min)
    requires forall j :: 0 <= j < |gs| ==> id !in gs[j]
    ensures id in els[|gs|].traces ==>
              id in els[0].traces && els[|gs|].traces[id] == els[0].traces[id] * Episodes.Pow(factor, |gs|)
  {
    RunIsChain(els, gs, replace, factor, min);
    QuietChain(els, gs, replace, factor, min, id);
    if id in els[0].traces {
      ScaledIsPow(els[0].traces[id], factor, |gs|);
    }
  }

  /** Along a chain the marks only grow, and every table after the first is sound. */
  lemma {:induction false} ChainSound(els: seq<Elig>, gs: seq<map<int, real>>, replace: bool, factor: real, min: real)
    requires Chain(els, gs, replace, factor, min)
    ensures forall k :: 0 <= k < |els| ==> els[0].pruned <= els[k].pruned
    ensures forall k :: 0 < k < |els| ==> Sound(els[k].traces, els[k].pruned, min)
    decreases |gs|
  {
    if |gs| > 0 {
      var n := |gs| - 1;
      ChainPrefix(els, gs, replace, factor, min, n);
      ChainSound(els[..n + 1], gs[..n], replace, factor, min);
      assert StepFacts(els[n], gs[n], replace, factor, min, els[n + 1]);
      forall k | 0 <= k < |els|
        ensures els[0].pruned <= els[k].pruned
        ensures 0 < k ==> Sound(els[k].traces, els[k].pruned, min)
      {
        if k <= n {
          assert els[k] == els[..n + 1][k];
        }
      }
    }
  }

  /**
   Every table of an episode after the first is sound, and the marks only
   grow; so an id marked once stays marked and never carries a trace again,
   however often its feature is active afterwards.
   */
  lemma RunSound(els: seq<Elig>, gs: seq<map<int, real>>, replace: bool, factor: real, min: real)
    requires Run(els, gs, replace, factor, min)
    ensures forall k :: 0 < k < |els| ==> Sound(els[k].traces, els[k].pruned, min)
    ensures forall k :: 0 <= k < |els| ==> els[0].pruned <= els[k].pruned
  {
    RunIsChain(els, gs, replace, factor, min);
    ChainSound(els, gs, replace, factor, min);
  }

  /** An id marked at the start is never traced again in the episode. */
  lemma PrunedForever(els: seq<Elig>, gs: seq<map<int, real>>, replace: bool, factor: real, min: real, id: int)
    requires Run(els, gs, replace, factor, min)
    requires id in els[0].pruned && id !in els[0].traces
    ensures forall k :: 0 <= k < |els| ==> id in els[k].pruned && id !in els[k].traces
  {
    RunSound(els, gs, replace, factor, min);
  }

  /** Every trace lies in [0, 1]. */
  predicate UnitBounded(t: map<int, real>) {
    forall id :: id in t ==> 0.0 <= t[id] <= 1.0
  }

  /** One replacing step keeps every trace in [0, 1]. */
  lemma ReplacingStep(prev: Elig, g: map<int, real>, factor: real, min: real, cur: Elig)
    requires 0.0 <= factor <= 1.0 && UnitBounded(prev.traces)
    requires StepFacts(prev, g, true, factor, min, cur)
    ensures UnitBounded(cur.traces)
  {
    forall id | id in cur.traces
      ensures 0.0 <= cur.traces[id] <= 1.0
    {
      var x := if id in g then 1.0 else prev.traces[id];
      assert cur.traces[id] == x * factor;
      Bounded(x, factor);
    }
  }

  /** Along a replacing chain with a factor in [0, 1], traces stay in [0, 1]. */
  lemma {:induction false} ReplacingChain(els: seq<Elig>, gs: seq<map<int, real>>, factor: real, min: real)
    requires Chain(els, gs, true, factor, min)
    requires 0.0 <= factor <= 1.0 && UnitBounded(els[0].traces)
    ensures forall k :: 0 <= k < |els| ==> UnitBounded(els[k].traces)
    decreases |gs|
  {
    if |gs| > 0 {
      var n := |gs| - 1;
      ChainPrefix(els, gs, true, factor, min, n);
      ReplacingChain(els[..n + 1], gs[..n], factor, min);
      assert UnitBounded(els[..n + 1][n].traces);
      ReplacingStep(els[n], gs[n], factor, min, els[n + 1]);
      forall k | 0 <= k < |els|
        ensures UnitBounded(els[k].traces)
      {
        if k <= n {
          assert els[k] == els[..n + 1][k];
        }
      }
    }
  }

  /** With replacing traces and a factor in [0, 1], traces that start in [0, 1] stay there for the whole episode. */
  lemma ReplacingBounded(els: seq<Elig>, gs: seq<map<int, real>>, factor: real, min: real)
    requires Run(els, gs, true, factor, min)
    requires 0.0 <= factor <= 1.0 && UnitBounded(els[0].traces)
    ensures forall k :: 0 <= k < |els| ==> UnitBounded(els[k].traces)
  {
    RunIsChain(els, gs, true, factor, min);
    ReplacingChain(els, gs, factor, min);
  }

  lemma Bounded(x: real, f: real)
    requires 0.0 <= x <= 1.0 && 0.0 <= f <= 1.0
    ensures 0.0 <= x * f <= 1.0
  {
    NonNegative(x, f);
    NonNegative(1.0 - x, f);
    assert (1.0 - x) * f == f - x * f;
  }

  lemma NonNegative(a: real, b: real)
    requires a >= 0.0 && b >= 0.0
    ensures a * b >= 0.0
  {
  }

  /** With accumulating traces, a gradient id's trace goes up by exactly one before decaying. */
  lemma AccumulateAddsOne(t: map<int, real>, g: map<int, real>, id: int)
    requires id in g
    ensures Mark(t, g, false)[id] == TraceOf(t, id) + 1.0
  {
  }
}

=== FILE: env.dfy ===
/**
 The environment seen as an oracle (env.hpp): its own state is an abstract
 type `E`, and each capability of the interface is a function over it.
 Only `applicable_actions` has a body in the source (env.hpp:46-53).
 */
module Environment {
  import States
  import Actions
  import Outcomes

  /** The environment state after executing an action, and the outcome reported. */
  datatype Executed<E> = Executed(env: E, outcome: Outcomes.EnvOutcome)

  /**
   The capabilities the learner uses: the action catalog, each action's
   applicability test, the current observation, the terminal test and
   action execution. Resetting is the caller's business and is not needed.
   */
  datatype Env<!E> = Env(
    catalog: E -> seq<Actions.Action>,
    applicable: (Actions.Action, States.State) -> bool,
    observe: E -> States.State,
    isTerminal: E -> bool,
    execute: (E, Actions.Action) -> Executed<E>)

  /** `xs` can be obtained from `ys` by deleting elements, keeping the order. */
  predicate Subsequence<T(==)>(xs: seq<T>, ys: seq<T>)
    decreases |ys|
  {
    if |xs| == 0 then true
    else if |ys| == 0 then false
    else if xs[0] == ys[0] then Subsequence(xs[1..], ys[1..])
    else Subsequence(xs, ys[1..])
  }

  /** The catalog filtered by the applicability test, in catalog order. */
  function Applicable(catalog: seq<Actions.Action>, applicable: (Actions.Action, States.State) -> bool,
                      s: States.State): (r: seq<Actions.Action>)
    ensures |r| <= |catalog|
    ensures forall a :: a in r <==> a in catalog && applicable(a, s)
    ensures Subsequence(r, catalog)
    ensures forall a :: multiset(r)[a] == if applicable(a, s) then multiset(catalog)[a] else 0
    decreases |catalog|
  {
    assert |catalog| > 0 ==> catalog == [catalog[0]] + catalog[1..];
    if |catalog| == 0 then []
    else if applicable(catalog[0], s) then [catalog[0]] + Applicable(catalog[1..], applicable, s)
    else Applicable(catalog[1..], applicable, s)
  }

  /** `applicable_actions(state)` for the environment in state `e`. */
  function ApplicableActions<E>(env: Env<E>, e: E, s: States.State): seq<Actions.Action> {
    Applicable(env.catalog(e), env.applicable, s)
  }

  /** With the inherited always-true test, every catalog action is applicable, in order. */
  lemma {:induction false} DefaultKeepsCatalog(catalog: seq<Actions.Action>, s: States.State)
    ensures Applicable(catalog, Actions.DefaultApplicable, s) == catalog
    decreases |catalog|
  {
    if |catalog| > 0 {
      DefaultKeepsCatalog(catalog[1..], s);
      assert [catalog[0]] + catalog[1..] == catalog;
    }
  }

  /** Nothing prevents an empty result: an action set none of whose members applies gives none. */
  lemma EmptyWhenNoneApplies(catalog: seq<Actions.Action>, applicable: (Actions.Action, States.State) -> bool,
                             s: States.State)
    requires forall i :: 0 <= i < |catalog| ==> !applicable(catalog[i], s)
    ensures Applicable(catalog, applicable, s) == []
  {
  }
}

=== FILE: envoutcome.dfy ===
/**
 The record of one environment transition (envoutcome.hpp:39-40): the state
 acted from, the action, the state reached, the reward and whether the
 episode ended. Copying keeps all five fields (envoutcome.hpp:46-47), which
 value semantics gives for free.
 */
module Outcomes {
  import Text
  import States
  import Actions

  datatype EnvOutcome = EnvOutcome(
    from: States.State,
    action: Actions.Action,
    next: States.State,
    reward: real,
    terminated: bool)

  /** A `bool` written to a stream without `boolalpha`. */
  function FlagText(b: bool): string {
    if b then "1" else "0"
  }

  /** The printable form is defined when the printed states have components. */
  predicate Printable(eo: EnvOutcome) {
    |eo.from.vec| > 0 && (!eo.terminated ==> |eo.next.vec| > 0)
  }

  /**
   The printed fields: from;action;reward;flag for a final transition, and
   from;action;reward;next;flag otherwise (envoutcome.hpp:53-55).
   */
  function Fields(eo: EnvOutcome, show: real -> string): seq<string>
    requires Printable(eo)
  {
    if eo.terminated then
      [States.Format(eo.from, show), eo.action.name, show(eo.reward), FlagText(true)]
    else
      [States.Format(eo.from, show), eo.action.name, show(eo.reward),
       States.Format(eo.next, show), FlagText(false)]
  }

  function Format(eo: EnvOutcome, show: real -> string): string
    requires Printable(eo)
  {
    Text.Join(Fields(eo, show), ';')
  }

  /**
   When neither the number format nor the action name uses ';', the printed
   outcome reads back as four fields for a final transition and five
   otherwise; the next state appears only in the latter.
   */
  lemma FormatFields(eo: EnvOutcome, show: real -> string)
    requires Printable(eo)
    requires forall x :: ';' !in show(x)
    requires ';' !in eo.action.name
    ensures Text.Split(Format(eo, show), ';') == Fields(eo, show)
    ensures |Text.Split(Format(eo, show), ';')| == if eo.terminated then 4 else 5
    ensures Text.Split(Format(eo, show), ';')[0] == States.Format(eo.from, show)
    ensures Text.Split(Format(eo, show), ';')[2] == show(eo.reward)
    ensures !eo.terminated ==> Text.Split(Format(eo, show), ';')[3] == States.Format(eo.next, show)
    ensures Text.Split(Format(eo, show), ';')[|Fields(eo, show)| - 1] == FlagText(eo.terminated)
  {
    States.FormatAvoids(eo.from, show, ';');
    if !eo.terminated {
      States.FormatAvoids(eo.next, show, ';');
    }
    var r := eo.reward;
    assert ';' !in show(r);
    var fs := Fields(eo, show);
    assert Text.NoSeparator(fs, ';');
    Text.SplitJoin(fs, ';');
  }
}

=== FILE: episode.dfy ===
/**
 One recorded run: three sequences of states, actions and rewards
 (episode.hpp:33-35), and its discounted return (episode.cpp:75-85).
 */
module Episodes {
  import States
  import Actions
  import Outcomes

  datatype Episode = Episode(states: seq<States.State>, actions: seq<Actions.Action>, rewards: seq<real>)

  /** One more state than actions, and one reward per action. */
  predicate Aligned(e: Episode) {
    |e.states| == |e.actions| + 1 && |e.actions| == |e.rewards|
  }

  /** The default constructor: all three sequences empty. */
  function Empty(): (e: Episode)
    ensures |e.states| == 0 && |e.actions| == 0 && |e.rewards| == 0
    ensures !Aligned(e)
  {
    Episode([], [], [])
  }

  /** The seeding constructor: the initial state is recorded, nothing else. */
  function Seeded(init: States.State): (e: Episode)
    ensures e.states == [init] && e.actions == [] && e.rewards == []
    ensures Aligned(e)
  {
    AddState(Empty(), init)
  }

  /** Appends a state only; alignment may break. */
  function AddState(e: Episode, s: States.State): (r: Episode)
    ensures r.states == e.states + [s]
    ensures r.actions == e.actions && r.rewards == e.rewards
    ensures Aligned(e) ==> !Aligned(r)
  {
    e.(states := e.states + [s])
  }

  /** Appends an action only; alignment may break. */
  function AddAction(e: Episode, a: Actions.Action): (r: Episode)
    ensures r.actions == e.actions + [a]
    ensures r.states == e.states && r.rewards == e.rewards
    ensures Aligned(e) ==> !Aligned(r)
  {
    e.(actions := e.actions + [a])
  }

  /** Appends a reward only; alignment may break. */
  function AddReward(e: Episode, x: real): (r: Episode)
    ensures r.rewards == e.rewards + [x]
    ensures r.states == e.states && r.actions == e.actions
    ensures Aligned(e) ==> !Aligned(r)
  {
    e.(rewards := e.rewards + [x])
  }

  /**
   Records one step taken from the last recorded state: the action, the
   state reached and the reward, each at the end of its own sequence.
   */
  function Transition(e: Episode, a: Actions.Action, next: States.State, x: real): (r: Episode)
    ensures r.states == e.states + [next]
    ensures r.actions == e.actions + [a]
    ensures r.rewards == e.rewards + [x]
    ensures Aligned(e) <==> Aligned(r)
  {
    Episode(e.states + [next], e.actions + [a], e.rewards + [x])
  }

  /** The transition read off an environment outcome. */
  function TransitionOutcome(e: Episode, eo: Outcomes.EnvOutcome): (r: Episode)
    ensures r == Transition(e, eo.action, eo.next, eo.reward)
    ensures r.states[|r.states| - 1] == eo.next
  {
    Episode(e.states + [eo.next], e.actions + [eo.action], e.rewards + [eo.reward])
  }

  /** The length of the state sequence, as `num_steps` returns it. */
  function NumSteps(e: Episode): int {
    |e.states|
  }

  /** On an aligned episode the state count is one more than the number of transitions. */
  lemma NumStepsCountsStates(e: Episode)
    requires Aligned(e)
    ensures NumSteps(e) == |e.actions| + 1
    ensures NumSteps(e) == |e.rewards| + 1
  {
  }

  function Pow(x: real, n: nat): real
    decreases n
  {
    if n == 0 then 1.0 else x * Pow(x, n - 1)
  }

  /** The first n terms of the series Σ_i gamma^i * rs[i]. */
  function Series(rs: seq<real>, gamma: real, n: nat): real
    requires n <= |rs|
    decreases n
  {
    if n == 0 then 0.0 else Series(rs, gamma, n - 1) + Pow(gamma, n - 1) * rs[n - 1]
  }

  /** The sum of the first n rewards. */
  function Sum(rs: seq<real>, n: nat): real
    requires n <= |rs|
    decreases n
  {
    if n == 0 then 0.0 else Sum(rs, n - 1) + rs[n - 1]
  }

  /** The return from step k on, read from the front: the reward at k plus the discounted return from k + 1. */
  function Return(rs: seq<real>, gamma: real, k: nat): real
    requires k <= |rs|
    decreases |rs| - k
  {
    if k == |rs| then 0.0 else rs[k] + gamma * Return(rs, gamma, k + 1)
  }

  /**
   `discounted_return(gamma)`: runs through the rewards with a running
   discount that starts at 1 and is multiplied by gamma after each reward.
   The result is the series Σ_i gamma^i * rewards[i], and also the return
   from the first step.
   */
  method DiscountedReturn(e: Episode, gamma: real) returns (sum: real)
    ensures sum == Series(e.rewards, gamma, |e.rewards|)
    ensures sum == Return(e.rewards, gamma, 0)
  {
    var rs := e.rewards;
    var discount := 1.0;
    sum := 0.0;
    var i := 0;
    while i < |rs|
      invariant 0 <= i <= |rs|
      invariant discount == Pow(gamma, i)
      invariant sum == Series(rs, gamma, i)
    {
      sum := sum + discount * rs[i];
      discount := discount * gamma;
      i := i + 1;
    }
    ReturnIsSeries(rs, gamma);
  }

  /** The first n terms plus gamma^n times the return from step n give the whole return. */
  lemma {:induction false} SeriesPlusTail(rs: seq<real>, gamma: real, n: nat)
    requires n <= |rs|
    ensures Series(rs, gamma, n) + Pow(gamma, n) * Return(rs, gamma, n) == Return(rs, gamma, 0)
  {
    if n > 0 {
      SeriesPlusTail(rs, gamma, n - 1);
      Regroup(Series(rs, gamma, n - 1), Pow(gamma, n - 1), rs[n - 1], gamma, Return(rs, gamma, n));
    }
  }

  lemma Regroup(s: real, d: real, x: real, g: real, t: real)
    ensures s + d * (x + g * t) == (s + d * x) + (g * d) * t
  {
  }

  /** The return from the first step is the whole series. */
  lemma ReturnIsSeries(rs: seq<real>, gamma: real)
    ensures Return(rs, gamma, 0) == Series(rs, gamma, |rs|)
  {
    SeriesPlusTail(rs, gamma, |rs|);
  }

  /** Without discounting the series is the plain sum of the rewards. */
  lemma {:induction false} UndiscountedIsSum(rs: seq<real>, n: nat)
    requires n <= |rs|
    ensures Series(rs, 1.0, n) == Sum(rs, n)
  {
    if n > 0 {
      UndiscountedIsSum(rs, n - 1);
      PowOne(n - 1);
    }
  }

  lemma {:induction false} PowOne(n: nat)
    ensures Pow(1.0, n) == 1.0
  {
    if n > 0 {
      PowOne(n - 1);
    }
  }

  /** Three unit rewards discounted by one half return 1 + 0.5 + 0.25. */
  lemma HalfDiscountExample()
    ensures Return([1.0, 1.0, 1.0], 0.5, 0) == 1.75
  {
  }
}

=== FILE: gdsarsalambda.dfy ===
/**
 Gradient-descent SARSA(λ) over the linear approximator (gdsarsalambda.cpp,
 gdsarsalambda.hpp). One episode is a state transformer: the approximator,
 the trace table and the set of pruned ids are threaded through each step;
 the environment is an oracle and the uniform draws are an input stream.
 */
module Sarsa {
  import opened Wrappers
  import Tiles
  import States
  import Actions
  import Outcomes
  import Environment
  import Episodes
  import Approximator
  import Eligibility

  type State = States.State
  type Action = Actions.Action
  type LinearFA = Approximator.LinearFA

  /** Learning rate, trace decay, discount, exploration rate, smallest kept trace, trace replacement. */
  datatype Params = Params(
    alpha: real,
    lambda: real,
    gamma: real,
    epsilon: real,
    minLambda: real,
    replaceTraces: bool)

  /** The factor every trace decays by in a step: lambda times gamma. */
  function Factor(p: Params): real {
    p.lambda * p.gamma
  }

  /** Why a step could not be taken: no action applies, or the tilings cannot quantise the state. */
  datatype Error = NoApplicableAction | Unquantisable

  /** A stream of uniform draws in [0, 1]. */
  ghost predicate Uniform(draws: nat -> real) {
    forall n :: 0.0 <= draws(n) <= 1.0
  }

  // ---------------------------------------------------------------- action choice

  /** `round` for a non-negative argument: to the nearest integer, halves upward. */
  function Round(x: real): int {
    (x + 0.5).Floor
  }

  /** The exploring index `round((n - 1) * u)` is a valid position for n >= 1 and u in [0, 1]. */
  lemma RoundIndexInRange(n: int, u: real)
    requires n >= 1 && 0.0 <= u <= 1.0
    ensures 0 <= Round((n - 1) as real * u) < n
  {
    var m := (n - 1) as real;
    assert 0.0 <= m * u <= m by {
      MulBetween(m, u);
    }
  }

  lemma MulBetween(m: real, u: real)
    requires m >= 0.0 && 0.0 <= u <= 1.0
    ensures 0.0 <= m * u <= m
  {
    assert m * u <= m * 1.0;
  }

  /** The state can be quantised and every action is known there. */
  ghost predicate AllKnown(fa: LinearFA, s: State, acts: seq<Action>)
    requires Approximator.Valid(fa.cp) && Tiles.Accepts(fa.cp.tiles, s.vec)
  {
    forall j :: 0 <= j < |acts| ==> Approximator.Known(fa, s, acts[j])
  }

  /** `acts[k]` has the largest Q value, and every action before it a strictly smaller one. */
  ghost predicate FirstBest(fa: LinearFA, s: State, acts: seq<Action>, k: int)
    requires Approximator.Valid(fa.cp) && Tiles.Accepts(fa.cp.tiles, s.vec) && AllKnown(fa, s, acts)
    requires 0 <= k < |acts|
  {
    && (forall j :: 0 <= j < |acts| ==> Approximator.QValue(fa, s, acts[j]) <= Approximator.QValue(fa, s, acts[k]))
    && (forall j :: 0 <= j < k ==> Approximator.QValue(fa, s, acts[j]) < Approximator.QValue(fa, s, acts[k]))
  }

  /** `qs` holds the Q values of the first |qs| actions, all known. */
  ghost predicate Values(fa: LinearFA, s: State, acts: seq<Action>, qs: seq<real>) {
    && |qs| <= |acts|
    && Approximator.Valid(fa.cp) && Tiles.Accepts(fa.cp.tiles, s.vec)
    && forall j :: 0 <= j < |qs| ==> Approximator.Known(fa, s, acts[j]) && Approximator.QValue(fa, s, acts[j]) == qs[j]
  }

  /** `qs[k]` is the largest value, `best`, and every value before it is strictly smaller. */
  predicate FirstMax(qs: seq<real>, k: int, best: real) {
    && 0 <= k < |qs| && qs[k] == best
    && (forall j :: 0 <= j < |qs| ==> qs[j] <= best)
    && (forall j :: 0 <= j < k ==> qs[j] < best)
  }

  /** Scanning one more value keeps the first maximum, or replaces it when the new value is strictly larger. */
  lemma FirstMaxSnoc(qs: seq<real>, k: int, best: real, v: real)
    requires FirstMax(qs, k, best)
    ensures v > best ==> FirstMax(qs + [v], |qs|, v)
    ensures v <= best ==> FirstMax(qs + [v], k, best)
  {
    assert forall j :: 0 <= j < |qs| ==> (qs + [v])[j] == qs[j];
  }

  /** Recording the value of the next action. */
  lemma ValuesSnoc(fa: LinearFA, s: State, acts: seq<Action>, qs: seq<real>, v: real)
    requires Values(fa, s, acts, qs) && |qs| < |acts|
    requires Approximator.Known(fa, s, acts[|qs|]) && Approximator.QValue(fa, s, acts[|qs|]) == v
    ensures Values(fa, s, acts, qs + [v])
  {
  }

  /** Growing the approximator keeps the recorded values. */
  lemma ValuesStable(fa: LinearFA, fa': LinearFA, s: State, acts: seq<Action>, qs: seq<real>)
    requires Values(fa, s, acts, qs) && Approximator.Valid(fa'.cp) && Approximator.Grown(fa, fa')
    ensures Values(fa', s, acts, qs)
  {
    KnownStableAll(fa, fa', s, acts);
  }

  /** Every action known before growth is known after it, with the same Q value. */
  lemma KnownStableAll(fa: LinearFA, fa': LinearFA, s: State, acts: seq<Action>)
    requires Approximator.Valid(fa.cp) && Approximator.Valid(fa'.cp) && Approximator.Grown(fa, fa')
    requires Tiles.Accepts(fa.cp.tiles, s.vec)
    ensures Tiles.Accepts(fa'.cp.tiles, s.vec)
    ensures forall j :: 0 <= j < |acts| && Approximator.Known(fa, s, acts[j]) ==>
              Approximator.Known(fa', s, acts[j])
              && Approximator.QValue(fa', s, acts[j]) == Approximator.QValue(fa, s, acts[j])
  {
    Tiles.PeekStable(fa.cp.tiles, fa'.cp.tiles, s.vec);
    forall j | 0 <= j < |acts| && Approximator.Known(fa, s, acts[j])
      ensures Approximator.Known(fa', s, acts[j])
      ensures Approximator.QValue(fa', s, acts[j]) == Approximator.QValue(fa, s, acts[j])
    {
      Approximator.KnownStable(fa, fa', s, acts[j]);
    }
  }

  /** Recorded values for every action, with a first maximum, give the greedy postcondition. */
  lemma ValuesFirstBest(fa: LinearFA, s: State, acts: seq<Action>, qs: seq<real>, k: int, best: real)
    requires Values(fa, s, acts, qs) && |qs| == |acts| && FirstMax(qs, k, best)
    ensures AllKnown(fa, s, acts) && FirstBest(fa, s, acts, k)
  {
  }

  /** Every weight reads the same in `fa'` as in `fa`, an absent id as the default weight. */
  ghost predicate Reads(fa: LinearFA, fa': LinearFA) {
    && fa'.defaultWeight == fa.defaultWeight
    && forall id :: Approximator.WeightOf(fa'.weights, fa'.defaultWeight, id) == Approximator.WeightOf(fa.weights, fa.defaultWeight, id)
  }

  /** `evaluate` stores the default weight for the ids it meets first, so every weight reads as before. */
  lemma EvaluateReads(fa: LinearFA, s: State, a: Action, r: Approximator.Evaluated)
    requires Approximator.Valid(fa.cp) && Tiles.Accepts(fa.cp.tiles, s.vec)
    requires r == Approximator.Evaluate(fa, s, a)
    ensures Reads(fa, r.fa)
  {
  }

  /**
   `evaluate(s, a)` as the learner sees it: afterwards the pair is known,
   the value returned is its Q value, nothing known before changes, and
   the memo holds the pair with its features and an empty gradient.
   */
  method Query(fa: LinearFA, s: State, a: Action) returns (value: real, fa': LinearFA)
    requires Approximator.Valid(fa.cp) && Tiles.Accepts(fa.cp.tiles, s.vec)
    ensures Approximator.Valid(fa'.cp) && Approximator.Grown(fa, fa') && Tiles.Accepts(fa'.cp.tiles, s.vec)
    ensures Approximator.Known(fa', s, a) && Approximator.QValue(fa', s, a) == value
    ensures Approximator.MemoSound(fa') && fa'.last == Some(Approximator.MemoKey(s, a))
    ensures fa'.gradient == map[] && fa'.features == Approximator.Peek(fa'.cp, s, a)
    ensures Reads(fa, fa')
  {
    var r := Approximator.Evaluate(fa, s, a);
    EvaluateReads(fa, s, a, r);
    Approximator.EvaluateThenKnown(fa, s, a);
    Approximator.EvaluateMemoSound(fa, s, a);
    value, fa' := r.value, r.fa;
  }

  /**
   `greedy_action`: evaluates the first action, then every action in order,
   keeping the first one whose value is strictly larger than the best so
   far. The index returned is that of the first action of largest Q value,
   measured by the approximator afterwards, in which every action is known.
   */
  method Greedy(fa: LinearFA, s: State, acts: seq<Action>) returns (k: nat, fa': LinearFA)
    requires Approximator.Valid(fa.cp) && Tiles.Accepts(fa.cp.tiles, s.vec) && |acts| > 0
    ensures k < |acts|
    ensures Approximator.Valid(fa'.cp) && Approximator.Grown(fa, fa') && Tiles.Accepts(fa'.cp.tiles, s.vec)
    ensures AllKnown(fa', s, acts) && FirstBest(fa', s, acts, k)
    ensures Approximator.MemoSound(fa') && Reads(fa, fa')
    ensures fa'.last == Some(Approximator.MemoKey(s, acts[|acts| - 1]))
  {
    var best;
    best, fa' := Query(fa, s, acts[0]);
    k := 0;
    ghost var qs: seq<real> := [];
    ghost var j := 0;
    var i := 0;
    while i < |acts|
      invariant Scanned(fa, fa', s, acts, qs, i, k, best)
      invariant 0 <= j < |acts| && fa'.last == Some(Approximator.MemoKey(s, acts[j])) && (i > 0 ==> j == i - 1)
    {
      var v, next := Query(fa', s, acts[i]);
      var k', best' := k, best;
      if v > best {
        k', best' := i, v;
      }
      ScanOne(fa, fa', next, s, acts, qs, i, k, best, v, k', best');
      fa', qs, k, best, i, j := next, qs + [v], k', best', i + 1, i;
    }
    LastIndex(acts, j);
    ValuesFirstBest(fa', s, acts, qs, k, best);
  }

  /** The action at the last index, named by `j`: kept apart so that `Greedy`'s proof needs no index arithmetic on actions. */
  lemma LastIndex(acts: seq<Action>, j: int)
    requires 0 <= j < |acts| && j + 1 == |acts|
    ensures acts[j] == acts[|acts| - 1]
  {
  }

  /**
   The state of the greedy scan after `i` actions: `qs` holds their values,
   `k` and `best` the first maximum among them (the first action before the
   scan starts), and the approximator has only grown.
   */
  ghost predicate Scanned(fa: LinearFA, fa': LinearFA, s: State, acts: seq<Action>, qs: seq<real>,
                          i: int, k: int, best: real) {
    && 0 <= i <= |acts| && |qs| == i && 0 <= k < |acts|
    && Values(fa', s, acts, qs)
    && (i == 0 ==> k == 0 && Approximator.Known(fa', s, acts[0]) && Approximator.QValue(fa', s, acts[0]) == best)
    && (i > 0 ==> FirstMax(qs, k, best))
    && Approximator.Grown(fa, fa') && Approximator.MemoSound(fa') && Reads(fa, fa')
  }

  /** One more action scanned: its value recorded, the first maximum kept or replaced by a strictly larger one. */
  lemma ScanOne(fa: LinearFA, fa': LinearFA, next: LinearFA, s: State, acts: seq<Action>, qs: seq<real>,
                i: int, k: int, best: real, v: real, k': int, best': real)
    requires Scanned(fa, fa', s, acts, qs, i, k, best) && i < |acts|
    requires Approximator.Valid(next.cp) && Approximator.Grown(fa', next) && Tiles.Accepts(next.cp.tiles, s.vec)
    requires Approximator.Known(next, s, acts[i]) && Approximator.QValue(next, s, acts[i]) == v
    requires Approximator.MemoSound(next) && Reads(fa', next)
    requires (k', best') == if v > best then (i, v) else (k, best)
    ensures Scanned(fa, next, s, acts, qs + [v], i + 1, k', best')
  {
    ValuesStable(fa', next, s, acts, qs);
    ValuesSnoc(next, s, acts, qs, v);
    if i == 0 {
      Approximator.KnownStable(fa', next, s, acts[0]);
    } else {
      FirstMaxSnoc(qs, k, best, v);
    }
    Approximator.GrownTransitive(fa, fa', next);
  }

  // ---------------------------------------------------------------- epsilon-greedy choice

  /** The exploring index `round((n - 1) * u)`. */
  function ExploreIndex(n: int, u: real): int {
    Round((n - 1) as real * u)
  }

  /** An action chosen from the list, the approximator after the choice, and the first unused draw. */
  datatype Choice = Choice(index: nat, action: Action, fa: LinearFA, cursor: nat)

  /**
   The epsilon-greedy rule, with the draws read from `cursor` on: a first
   draw above epsilon exploits, taking the first action of largest Q value
   and using one draw; otherwise a second draw `u` picks the action at
   `round((n - 1) * u)`, using two draws.
   */
  ghost predicate Picks(fa: LinearFA, s: State, acts: seq<Action>, draws: nat -> real, cursor: nat, epsilon: real,
                        index: nat, cursor': nat)
    requires Approximator.Valid(fa.cp) && Tiles.Accepts(fa.cp.tiles, s.vec) && AllKnown(fa, s, acts)
  {
    && index < |acts|
    && if draws(cursor) > epsilon then cursor' == cursor + 1 && FirstBest(fa, s, acts, index)
       else cursor' == cursor + 2 && index == ExploreIndex(|acts|, draws(cursor + 1))
  }

  /** The pick is unaffected by growth that keeps every action known with its Q value. */
  lemma PicksStable(fa: LinearFA, fa': LinearFA, s: State, acts: seq<Action>, draws: nat -> real, cursor: nat,
                    epsilon: real, index: nat, cursor': nat)
    requires Approximator.Valid(fa.cp) && Tiles.Accepts(fa.cp.tiles, s.vec) && AllKnown(fa, s, acts)
    requires Approximator.Valid(fa'.cp) && Approximator.Grown(fa, fa')
    requires Picks(fa, s, acts, draws, cursor, epsilon, index, cursor')
    ensures Tiles.Accepts(fa'.cp.tiles, s.vec) && AllKnown(fa', s, acts)
    ensures Picks(fa', s, acts, draws, cursor, epsilon, index, cursor')
  {
    KnownStableAll(fa, fa', s, acts);
  }

  /** A draw above epsilon exploits: the first action of largest Q value, one draw used. */
  lemma PickExploit(fa: LinearFA, s: State, acts: seq<Action>, draws: nat -> real, cursor: nat, epsilon: real, k: nat)
    requires Approximator.Valid(fa.cp) && Tiles.Accepts(fa.cp.tiles, s.vec) && AllKnown(fa, s, acts)
    requires k < |acts| && FirstBest(fa, s, acts, k) && draws(cursor) > epsilon
    ensures Picks(fa, s, acts, draws, cursor, epsilon, k, cursor + 1)
  {
  }

  /** Otherwise a second uniform draw gives a valid index, two draws used. */
  lemma PickExplore(fa: LinearFA, s: State, acts: seq<Action>, draws: nat -> real, cursor: nat, epsilon: real)
    requires Approximator.Valid(fa.cp) && Tiles.Accepts(fa.cp.tiles, s.vec) && AllKnown(fa, s, acts)
    requires |acts| > 0 && draws(cursor) <= epsilon && 0.0 <= draws(cursor + 1) <= 1.0
    ensures 0 <= ExploreIndex(|acts|, draws(cursor + 1)) < |acts|
    ensures Picks(fa, s, acts, draws, cursor, epsilon, ExploreIndex(|acts|, draws(cursor + 1)), cursor + 2)
  {
    RoundIndexInRange(|acts|, draws(cursor + 1));
  }

  /**
   What a successful choice guarantees: the approximator has only grown,
   every weight reads as before, every applicable action is known, and the
   action is the one the epsilon-greedy rule picks.
   */
  ghost predicate Chosen(fa: LinearFA, s: State, acts: seq<Action>, draws: nat -> real, cursor: nat, epsilon: real,
                         c: Choice) {
    && Approximator.Valid(c.fa.cp) && Approximator.Grown(fa, c.fa) && Reads(fa, c.fa)
    && Tiles.Accepts(c.fa.cp.tiles, s.vec) && Approximator.MemoSound(c.fa) && AllKnown(c.fa, s, acts)
    && Picks(c.fa, s, acts, draws, cursor, epsilon, c.index, c.cursor)
    && c.index < |acts| && c.action == acts[c.index]
    && c.fa.last == Some(Approximator.MemoKey(s, acts[|acts| - 1]))
  }

  /**
   `egreedy_action`: the greedy action is computed first, so every
   applicable action gets evaluated, whichever way the draw goes; then the
   epsilon-greedy rule picks. An empty action list, on which the source
   would index out of bounds, and a state the tilings cannot quantise are
   reported as errors.
   */
  method EGreedy<E>(env: Environment.Env<E>, e: E, fa: LinearFA, s: State, draws: nat -> real, cursor: nat,
                    epsilon: real) returns (r: Result<Choice, Error>)
    requires Approximator.Valid(fa.cp) && Uniform(draws)
    ensures var acts := Environment.ApplicableActions(env, e, s);
            && (|acts| == 0 ==> r == Failure(NoApplicableAction))
            && (|acts| > 0 && !Tiles.Accepts(fa.cp.tiles, s.vec) ==> r == Failure(Unquantisable))
            && (|acts| > 0 && Tiles.Accepts(fa.cp.tiles, s.vec) ==> r.Success?)
    ensures r.Success? ==> Chosen(fa, s, Environment.ApplicableActions(env, e, s), draws, cursor, epsilon, r.value)
  {
    var acts := Environment.ApplicableActions(env, e, s);
    if |acts| == 0 {
      return Failure(NoApplicableAction);
    }
    if !Tiles.Accepts(fa.cp.tiles, s.vec) {
      return Failure(Unquantisable);
    }
    var best, fa' := Greedy(fa, s, acts);
    if draws(cursor) > epsilon {
      PickExploit(fa', s, acts, draws, cursor, epsilon, best);
      r := Success(Choice(best, acts[best], fa', cursor + 1));
    } else {
      PickExplore(fa', s, acts, draws, cursor, epsilon);
      var index := ExploreIndex(|acts|, draws(cursor + 1));
      r := Success(Choice(index, acts[index], fa', cursor + 2));
    }
  }

  // ---------------------------------------------------------------- one learning step

  /** The gradient taken, the approximator after the weight update, and the trace table after the step. */
  datatype Learned = Learned(gradient: map<int, real>, fa: LinearFA, elig: Eligibility.Elig)

  /**
   The learning part of a step (gdsarsalambda.cpp:58-77): the gradient of
   (s, a) marks the traces; every traced weight, an unseen one starting
   from the default, moves by alpha * delta times its trace; then the traces
   decay by lambda * gamma and those below the threshold are retired. The
   gradient is the unit gradient of the pair's features unless the memo
   matches (s, a) by name only, under another number.
   */
  function Learn(fa: LinearFA, el: Eligibility.Elig, s: State, a: Action, delta: real, p: Params): (r: Learned)
    requires Approximator.Valid(fa.cp) && Tiles.Accepts(fa.cp.tiles, s.vec)
    ensures Approximator.Valid(r.fa.cp) && Approximator.Grows(fa.cp, r.fa.cp) && r.fa.defaultWeight == fa.defaultWeight
    ensures forall id :: Approximator.WeightOf(r.fa.weights, fa.defaultWeight, id)
                         == Approximator.WeightOf(fa.weights, fa.defaultWeight, id)
                            + Shift(p.alpha, delta, Eligibility.TraceOf(Eligibility.Mark(el.traces, r.gradient, p.replaceTraces), id))
    ensures Eligibility.StepFacts(el, r.gradient, p.replaceTraces, Factor(p), p.minLambda, r.elig)
    ensures r.elig == Eligibility.TraceStep(el, r.gradient, p.replaceTraces, Factor(p), p.minLambda)
    ensures Approximator.MemoSound(fa) && (Approximator.Hit(fa, s, a) ==> fa.last.value.action.num == a.num) ==>
              && Tiles.Accepts(r.fa.cp.tiles, s.vec) && Approximator.Present(r.fa.cp, s, a)
              && r.gradient.Keys == Approximator.Ids(Approximator.Peek(r.fa.cp, s, a))
              && (forall id :: id in r.gradient ==> r.gradient[id] == 1.0)
  {
    var g := Approximator.Gradient(fa, s, a);
    var marked := Eligibility.Mark(el.traces, g.gradient, p.replaceTraces);
    var elig := Eligibility.TraceStep(el, g.gradient, p.replaceTraces, Factor(p), p.minLambda);
    Eligibility.StepFactsHold(el, g.gradient, p.replaceTraces, Factor(p), p.minLambda, elig);
    LearnGradient(fa, s, a, g);
    var weights := Eligibility.Update(g.fa.weights, fa.defaultWeight, marked, StepSize(p.alpha, delta));
    Moves(fa.weights, g.fa.weights, weights, fa.defaultWeight, marked, p.alpha, delta);
    Learned(g.gradient, g.fa.(weights := weights), elig)
  }

  /** The TD error of a step: the reward, plus the discounted value of the next pair, minus the value of the current one. */
  function TdError(reward: real, gamma: real, nextQ: real, currQ: real): real {
    reward + gamma * nextQ - currQ
  }

  /** The step size of the weight update: the learning rate times the TD error. */
  function StepSize(alpha: real, delta: real): real {
    alpha * delta
  }

  /** The change a weight receives in a step: the learning rate times the TD error times the weight's trace. */
  function Shift(alpha: real, delta: real, trace: real): real {
    alpha * delta * trace
  }

  /**
   Weights that read as `w0` and are then updated by `alpha * delta` times
   the traces `t` read as `w0` shifted by exactly that much.
   */
  lemma Moves(w0: map<int, real>, w1: map<int, real>, w2: map<int, real>, dw: real, t: map<int, real>,
              alpha: real, delta: real)
    requires forall id :: Approximator.WeightOf(w1, dw, id) == Approximator.WeightOf(w0, dw, id)
    requires w2 == Eligibility.Update(w1, dw, t, StepSize(alpha, delta))
    ensures forall id :: Approximator.WeightOf(w2, dw, id)
                         == Approximator.WeightOf(w0, dw, id) + Shift(alpha, delta, Eligibility.TraceOf(t, id))
  {
  }

  /** The gradient facts of `Learn`, from those of `gradient`. */
  lemma LearnGradient(fa: LinearFA, s: State, a: Action, g: Approximator.Graded)
    requires Approximator.Valid(fa.cp) && Tiles.Accepts(fa.cp.tiles, s.vec)
    requires g == Approximator.Gradient(fa, s, a)
    ensures Approximator.MemoSound(fa) && (Approximator.Hit(fa, s, a) ==> fa.last.value.action.num == a.num) ==>
              && Tiles.Accepts(g.fa.cp.tiles, s.vec) && Approximator.Present(g.fa.cp, s, a)
              && g.gradient.Keys == Approximator.Ids(Approximator.Peek(g.fa.cp, s, a))
              && (forall id :: id in g.gradient ==> g.gradient[id] == 1.0)
  {
    if Approximator.MemoSound(fa) && (Approximator.Hit(fa, s, a) ==> fa.last.value.action.num == a.num) {
      Approximator.GradientSound(fa, s, a, g);
    }
  }

  // ---------------------------------------------------------------- the step

  /**
   The learner between steps: the environment, the current state, the
   action about to be taken, the approximator, the traces, the episode so
   far, the next unused draw and the number of steps taken.
   */
  datatype Agent<E> = Agent(env: E, state: State, action: Action, fa: LinearFA, elig: Eligibility.Elig,
                            episode: Episodes.Episode, cursor: nat, steps: nat)

  /** The approximator is well formed and can quantise the current state. */
  ghost predicate Ready<E>(ag: Agent<E>) {
    Approximator.Valid(ag.fa.cp) && Tiles.Accepts(ag.fa.cp.tiles, ag.state.vec)
  }

  /**
   One step's result: the learner afterwards, the outcome of the action,
   the index of the next action among the applicable ones, the two Q
   values and the TD error, the gradient that marked the traces, and the
   approximator just before its weights were updated.
   */
  datatype Stepped<E> = Stepped(agent: Agent<E>, outcome: Outcomes.EnvOutcome, index: nat, currQ: real, nextQ: real,
                                delta: real, gradient: map<int, real>, before: LinearFA)

  /** The environment executed the action, and the episode recorded the transition. */
  ghost predicate Moved<E>(env: Environment.Env<E>, ag: Agent<E>, st: Stepped<E>) {
    var ex := env.execute(ag.env, ag.action);
    && st.outcome == ex.outcome
    && st.agent.env == ex.env && st.agent.state == ex.outcome.next
    && st.agent.episode == Episodes.Transition(ag.episode, ag.action, ex.outcome.next, ex.outcome.reward)
    && st.agent.steps == ag.steps + 1
  }

  /**
   The TD error of the step: the reward, plus gamma times the Q value of
   the next pair (0 when the transition ended the episode), minus the Q
   value of the current pair, both read from weights equal to those the
   step started with. The next action is the epsilon-greedy pick among the
   actions applicable in the next state.
   */
  ghost predicate Valued<E>(env: Environment.Env<E>, ag: Agent<E>, p: Params, draws: nat -> real, st: Stepped<E>) {
    var acts := Environment.ApplicableActions(env, st.agent.env, st.agent.state);
    && Approximator.Valid(st.before.cp) && Approximator.Grown(ag.fa, st.before) && Reads(ag.fa, st.before)
    && Tiles.Accepts(st.before.cp.tiles, ag.state.vec) && Approximator.Known(st.before, ag.state, ag.action)
    && Tiles.Accepts(st.before.cp.tiles, st.agent.state.vec) && AllKnown(st.before, st.agent.state, acts)
    && Picks(st.before, st.agent.state, acts, draws, ag.cursor, p.epsilon, st.index, st.agent.cursor)
    && st.index < |acts| && st.agent.action == acts[st.index]
    && st.currQ == Approximator.QValue(st.before, ag.state, ag.action)
    && st.nextQ == (if st.outcome.terminated then 0.0 else Approximator.QValue(st.before, st.agent.state, st.agent.action))
    && st.delta == TdError(st.outcome.reward, p.gamma, st.nextQ, st.currQ)
    && Approximator.MemoSound(st.before)
    && st.before.last == Some(Approximator.MemoKey(st.agent.state, if st.outcome.terminated then acts[|acts| - 1]
                                                                  else st.agent.action))
  }

  /**
   The update of the step: every weight, read with the default, shifted by
   alpha * delta times its trace after marking; the traces took one step
   of marking, decay and retirement. The gradient that marked them is the
   unit gradient of the current pair's features, unless the memo matched
   the pair by name under another number.
   */
  ghost predicate Updated<E>(ag: Agent<E>, p: Params, st: Stepped<E>) {
    && Approximator.Valid(st.agent.fa.cp) && Approximator.Valid(st.before.cp)
    && Approximator.Grows(st.before.cp, st.agent.fa.cp) && st.agent.fa.defaultWeight == ag.fa.defaultWeight
    && Shifted(ag, p, st)
    && st.agent.elig == Eligibility.TraceStep(ag.elig, st.gradient, p.replaceTraces, Factor(p), p.minLambda)
    && Eligibility.StepFacts(ag.elig, st.gradient, p.replaceTraces, Factor(p), p.minLambda, st.agent.elig)
    && Tiles.Accepts(st.agent.fa.cp.tiles, ag.state.vec)
    && ((Approximator.Hit(st.before, ag.state, ag.action) ==> st.before.last.value.action.num == ag.action.num) ==>
          && Approximator.Present(st.agent.fa.cp, ag.state, ag.action)
          && st.gradient.Keys == Approximator.Ids(Approximator.Peek(st.agent.fa.cp, ag.state, ag.action))
          && (forall id :: id in st.gradient ==> st.gradient[id] == 1.0))
  }

  /**
   Every weight, read with the default, shifted by alpha * delta times its
   trace after marking with the step's gradient.
   */
  ghost predicate Shifted<E>(ag: Agent<E>, p: Params, st: Stepped<E>) {
    var marked := Eligibility.Mark(ag.elig.traces, st.gradient, p.replaceTraces);
    forall id :: Approximator.WeightOf(st.agent.fa.weights, ag.fa.defaultWeight, id)
                 == Approximator.WeightOf(ag.fa.weights, ag.fa.defaultWeight, id)
                    + Shift(p.alpha, st.delta, Eligibility.TraceOf(marked, id))
  }

  /** A weight whose id carries no trace after marking keeps its value (gdsarsalambda.cpp:67-68 touch traced ids only). */
  lemma UntracedUnchanged<E>(ag: Agent<E>, p: Params, st: Stepped<E>, id: int)
    requires Shifted(ag, p, st)
    requires id !in Eligibility.Mark(ag.elig.traces, st.gradient, p.replaceTraces)
    ensures Approximator.WeightOf(st.agent.fa.weights, ag.fa.defaultWeight, id)
            == Approximator.WeightOf(ag.fa.weights, ag.fa.defaultWeight, id)
  {
    assert Shift(p.alpha, st.delta, 0.0) == 0.0;
  }

  /** With replacing traces, the weight of every id of the gradient moves by exactly alpha * delta. */
  lemma ReplacedMovesByRate<E>(ag: Agent<E>, p: Params, st: Stepped<E>, id: int)
    requires Shifted(ag, p, st) && p.replaceTraces && id in st.gradient
    ensures Approximator.WeightOf(st.agent.fa.weights, ag.fa.defaultWeight, id)
            == Approximator.WeightOf(ag.fa.weights, ag.fa.defaultWeight, id) + p.alpha * st.delta
  {
    var trace := Eligibility.TraceOf(Eligibility.Mark(ag.elig.traces, st.gradient, p.replaceTraces), id);
    assert Approximator.WeightOf(st.agent.fa.weights, ag.fa.defaultWeight, id)
           == Approximator.WeightOf(ag.fa.weights, ag.fa.defaultWeight, id) + Shift(p.alpha, st.delta, trace);
    assert trace == 1.0;
    ShiftUnit(p.alpha, st.delta);
  }

  lemma ShiftUnit(alpha: real, delta: real)
    ensures Shift(alpha, delta, 1.0) == alpha * delta
  {
  }

  /** A step with no TD error leaves every weight reading as before, whatever the traces. */
  lemma NoErrorNoChange<E>(ag: Agent<E>, p: Params, st: Stepped<E>)
    requires Shifted(ag, p, st) && st.agent.fa.defaultWeight == ag.fa.defaultWeight && st.delta == 0.0
    ensures Reads(ag.fa, st.agent.fa)
  {
    forall x: real ensures Shift(p.alpha, st.delta, x) == 0.0 {
      assert p.alpha * st.delta == 0.0;
    }
  }

  lemma ReadsTransitive(a: LinearFA, b: LinearFA, c: LinearFA)
    requires Reads(a, b) && Reads(b, c)
    ensures Reads(a, c)
  {
  }

  /** Equal tilings quantise the same states. */
  lemma SameTilings(tc: Tiles.TileCoding, tc': Tiles.TileCoding, v: seq<real>)
    requires tc'.tilings == tc.tilings
    ensures Tiles.Accepts(tc', v) == Tiles.Accepts(tc, v)
  {
  }

  /**
   The current pair evaluated, then its gradient taken
   (gdsarsalambda.cpp:38-39): the pair is known afterwards, the value
   returned is its Q value, and every weight reads as before.
   */
  method EvaluateCurrent(fa: LinearFA, s: State, a: Action) returns (currQ: real, fa': LinearFA)
    requires Approximator.Valid(fa.cp) && Tiles.Accepts(fa.cp.tiles, s.vec)
    ensures Approximator.Valid(fa'.cp) && Approximator.Grown(fa, fa') && Reads(fa, fa')
    ensures Tiles.Accepts(fa'.cp.tiles, s.vec) && Approximator.Known(fa', s, a)
    ensures Approximator.QValue(fa', s, a) == currQ
  {
    var fa1;
    currQ, fa1 := Query(fa, s, a);
    var g := Approximator.Gradient(fa1, s, a);
    Approximator.KnownStable(fa1, g.fa, s, a);
    Approximator.GrownTransitive(fa, fa1, g.fa);
    ReadsTransitive(fa, fa1, g.fa);
    fa' := g.fa;
  }

  /** The next action, the value of the next pair, and the approximator after both. */
  datatype Lookahead = Lookahead(choice: Choice, nextQ: real, before: LinearFA)

  /**
   What looking ahead guarantees: the approximator has only grown, every
   weight reads as before, every applicable action is known, the next
   action is the epsilon-greedy pick, and the next value is its Q value,
   or 0 when the transition ended the episode.
   */
  ghost predicate Looked(fa: LinearFA, s: State, acts: seq<Action>, draws: nat -> real, cursor: nat, epsilon: real,
                         terminated: bool, lk: Lookahead) {
    var c := lk.choice;
    && Approximator.Valid(lk.before.cp) && Approximator.Grown(fa, lk.before) && Reads(fa, lk.before)
    && Approximator.MemoSound(lk.before)
    && Tiles.Accepts(lk.before.cp.tiles, s.vec) && AllKnown(lk.before, s, acts)
    && Picks(lk.before, s, acts, draws, cursor, epsilon, c.index, c.cursor)
    && c.index < |acts| && c.action == acts[c.index]
    && lk.nextQ == (if terminated then 0.0 else Approximator.QValue(lk.before, s, c.action))
    && lk.before.last == Some(Approximator.MemoKey(s, if terminated then acts[|acts| - 1] else c.action))
  }

  /**
   The next action chosen epsilon-greedily in the state reached, and the
   next pair evaluated unless the episode ended (gdsarsalambda.cpp:45-48).
   */
  method LookAhead<E>(env: Environment.Env<E>, e: E, fa: LinearFA, s: State, terminated: bool, draws: nat -> real,
                      cursor: nat, epsilon: real) returns (r: Result<Lookahead, Error>)
    requires Approximator.Valid(fa.cp) && Uniform(draws)
    ensures var acts := Environment.ApplicableActions(env, e, s);
            && (|acts| == 0 ==> r == Failure(NoApplicableAction))
            && (|acts| > 0 && !Tiles.Accepts(fa.cp.tiles, s.vec) ==> r == Failure(Unquantisable))
            && (|acts| > 0 && Tiles.Accepts(fa.cp.tiles, s.vec) ==> r.Success?)
    ensures r.Success? ==> Looked(fa, s, Environment.ApplicableActions(env, e, s), draws, cursor, epsilon, terminated, r.value)
  {
    var choice := EGreedy(env, e, fa, s, draws, cursor, epsilon);
    if choice.Failure? {
      return Failure(choice.error);
    }
    var c := choice.value;
    var acts := Environment.ApplicableActions(env, e, s);
    if terminated {
      r := Success(Lookahead(c, 0.0, c.fa));
    } else {
      var nextQ, before := Query(c.fa, s, c.action);
      Approximator.GrownTransitive(fa, c.fa, before);
      ReadsTransitive(fa, c.fa, before);
      PicksStable(c.fa, before, s, acts, draws, cursor, epsilon, c.index, c.cursor);
      r := Success(Lookahead(c, nextQ, before));
    }
  }

  /**
   One pass of the loop body of `run_learning` (gdsarsalambda.cpp:37-81):
   evaluate the current pair and take its gradient, execute the action,
   choose the next action epsilon-greedily in the state reached, evaluate
   the next pair unless the episode ended, record the transition, compute
   the TD error, then mark the traces with the current pair's gradient,
   update every traced weight, decay the traces and retire the small ones.
   The step fails only where the next choice does.
   */
  method Step<E>(env: Environment.Env<E>, ag: Agent<E>, p: Params, draws: nat -> real) returns (r: Result<Stepped<E>, Error>)
    requires Ready(ag) && Uniform(draws)
    ensures var ex := env.execute(ag.env, ag.action);
            var acts := Environment.ApplicableActions(env, ex.env, ex.outcome.next);
            && (|acts| == 0 ==> r == Failure(NoApplicableAction))
            && (|acts| > 0 && !Tiles.Accepts(ag.fa.cp.tiles, ex.outcome.next.vec) ==> r == Failure(Unquantisable))
            && (|acts| > 0 && Tiles.Accepts(ag.fa.cp.tiles, ex.outcome.next.vec) ==> r.Success?)
    ensures r.Success? ==> Moved(env, ag, r.value) && Valued(env, ag, p, draws, r.value) && Updated(ag, p, r.value)
    ensures r.Success? ==> Ready(r.value.agent)
  {
    var s, a := ag.state, ag.action;
    var currQ, mid := EvaluateCurrent(ag.fa, s, a);
    var ex := env.execute(ag.env, a);
    var next := ex.outcome.next;
    SameTilings(ag.fa.cp.tiles, mid.cp.tiles, next.vec);
    var look := LookAhead(env, ex.env, mid, next, ex.outcome.terminated, draws, ag.cursor, p.epsilon);
    if look.Failure? {
      return Failure(look.error);
    }
    var lk := look.value;
    var delta := TdError(ex.outcome.reward, p.gamma, lk.nextQ, currQ);
    var l := Learn(lk.before, ag.elig, s, a, delta, p);
    var agent := Agent(ex.env, next, lk.choice.action, l.fa, l.elig,
                       Episodes.Transition(ag.episode, a, next, ex.outcome.reward), lk.choice.cursor, ag.steps + 1);
    var st := Stepped(agent, ex.outcome, lk.choice.index, currQ, lk.nextQ, delta, l.gradient, lk.before);
    StepValued(env, ag, p, draws, st, mid, lk);
    StepUpdated(ag, p, st, l);
    r := Success(st);
  }

  /** The value facts of a step, from those of its two evaluations and of the choice. */
  lemma StepValued<E>(env: Environment.Env<E>, ag: Agent<E>, p: Params, draws: nat -> real, st: Stepped<E>,
                      mid: LinearFA, lk: Lookahead)
    requires Ready(ag)
    requires Approximator.Valid(mid.cp) && Approximator.Grown(ag.fa, mid) && Reads(ag.fa, mid)
    requires Tiles.Accepts(mid.cp.tiles, ag.state.vec) && Approximator.Known(mid, ag.state, ag.action)
    requires Approximator.QValue(mid, ag.state, ag.action) == st.currQ
    requires Looked(mid, st.agent.state, Environment.ApplicableActions(env, st.agent.env, st.agent.state), draws,
                    ag.cursor, p.epsilon, st.outcome.terminated, lk)
    requires st.before == lk.before && st.nextQ == lk.nextQ
    requires st.index == lk.choice.index && st.agent.action == lk.choice.action && st.agent.cursor == lk.choice.cursor
    requires st.delta == TdError(st.outcome.reward, p.gamma, st.nextQ, st.currQ)
    ensures Valued(env, ag, p, draws, st)
  {
    Approximator.GrownTransitive(ag.fa, mid, lk.before);
    ReadsTransitive(ag.fa, mid, lk.before);
    Approximator.KnownStable(mid, lk.before, ag.state, ag.action);
  }

  /** The update facts of a step, from those of `Learn`. */
  lemma StepUpdated<E>(ag: Agent<E>, p: Params, st: Stepped<E>, l: Learned)
    requires Approximator.Valid(st.before.cp) && Reads(ag.fa, st.before) && Approximator.MemoSound(st.before)
    requires Tiles.Accepts(st.before.cp.tiles, ag.state.vec) && Tiles.Accepts(st.before.cp.tiles, st.agent.state.vec)
    requires l == Learn(st.before, ag.elig, ag.state, ag.action, st.delta, p)
    requires st.agent.fa == l.fa && st.agent.elig == l.elig && st.gradient == l.gradient
    ensures Updated(ag, p, st)
    ensures Ready(st.agent)
  {
    Approximator.PeekStable(st.before.cp, l.fa.cp, ag.state, ag.action);
    Approximator.PeekStable(st.before.cp, l.fa.cp, st.agent.state, st.agent.action);
  }

  /**
   The memo `gradient(s, a)` meets in a step is the last pair the look-ahead
   evaluated, in the state reached. So the traces are marked with the unit
   gradient of the current pair whenever the state reached has another
   vector, or no action applicable there has the name of `a` under another
   number.
   */
  lemma StepGradientUnit<E>(env: Environment.Env<E>, ag: Agent<E>, p: Params, draws: nat -> real, st: Stepped<E>)
    requires Valued(env, ag, p, draws, st) && Updated(ag, p, st)
    requires var acts := Environment.ApplicableActions(env, st.agent.env, st.agent.state);
             || !States.Same(st.agent.state, ag.state)
             || forall b :: b in acts && Actions.Same(b, ag.action) ==> b.num == ag.action.num
    ensures Approximator.Present(st.agent.fa.cp, ag.state, ag.action)
    ensures st.gradient.Keys == Approximator.Ids(Approximator.Peek(st.agent.fa.cp, ag.state, ag.action))
    ensures forall id :: id in st.gradient ==> st.gradient[id] == 1.0
  {
    var acts := Environment.ApplicableActions(env, st.agent.env, st.agent.state);
    var b := if st.outcome.terminated then acts[|acts| - 1] else st.agent.action;
    assert b in acts;
  }

  // ---------------------------------------------------------------- the episode

  /** The loop of `run_learning` goes on while fewer than `maxSteps` steps were taken, or for ever when it is -1. */
  predicate Continues(steps: int, maxSteps: int) {
    steps < maxSteps || maxSteps == -1
  }

  /**
   Step `i` of an episode went as recorded: the environment was in
   `envs[i]`, not terminal, with the loop still going on; executing the
   episode's `i`-th action there led to `envs[i + 1]`, reporting the
   episode's next state and its `i`-th reward.
   */
  ghost predicate Executes<E>(env: Environment.Env<E>, maxSteps: int, envs: seq<E>, ep: Episodes.Episode, i: int) {
    && 0 <= i < |ep.actions| && i < |ep.rewards| && i + 1 < |ep.states| && i + 1 < |envs|
    && !env.isTerminal(envs[i]) && Continues(i, maxSteps)
    && var ex := env.execute(envs[i], ep.actions[i]);
       && ex.env == envs[i + 1]
       && ex.outcome.next == ep.states[i + 1]
       && ex.outcome.reward == ep.rewards[i]
  }

  /** The episode records the executions along the environment states `envs`, one per step. */
  ghost predicate Trajectory<E>(env: Environment.Env<E>, maxSteps: int, envs: seq<E>, ep: Episodes.Episode) {
    && Episodes.Aligned(ep) && |envs| == |ep.actions| + 1
    && forall i :: 0 <= i < |ep.actions| ==> Executes(env, maxSteps, envs, ep, i)
  }

  /**
   What holds after any number of steps of an episode started in `e0`:
   the learner is ready, its approximator has only grown, the episode
   starts with the first observation and records, step by step, the
   execution of each action along the environment states `envs`, ending in
   the learner's environment and state; the step count respects both
   bounds, and the traces passed through one trace step per step, starting
   empty.
   */
  ghost predicate Progress<E>(env: Environment.Env<E>, e0: E, fa: LinearFA, p: Params, maxSteps: int, fuel: nat,
                              ag: Agent<E>, els: seq<Eligibility.Elig>, gs: seq<map<int, real>>, envs: seq<E>) {
    && Ready(ag) && Approximator.Grows(fa.cp, ag.fa.cp) && ag.fa.defaultWeight == fa.defaultWeight
    && Episodes.Aligned(ag.episode) && ag.episode.states[0] == env.observe(e0) && |ag.episode.actions| == ag.steps
    && Trajectory(env, maxSteps, envs, ag.episode)
    && envs[0] == e0 && envs[ag.steps] == ag.env && ag.episode.states[ag.steps] == ag.state
    && ag.steps <= fuel
    && (ag.steps == 0 ==> ag.env == e0 && ag.episode == Episodes.Seeded(env.observe(e0)))
    && (ag.steps > 0 ==> Continues(ag.steps - 1, maxSteps) && !env.isTerminal(e0))
    && Eligibility.Run(els, gs, p.replaceTraces, Factor(p), p.minLambda)
    && els[0] == Eligibility.Elig(map[], {}) && els[|els| - 1] == ag.elig && |gs| == ag.steps
  }

  /** The episode before its first step: seeded with the first observation, traces empty. */
  lemma ProgressStart<E>(env: Environment.Env<E>, e0: E, fa: LinearFA, p: Params, maxSteps: int, fuel: nat,
                         draws: nat -> real, c: Choice, ag: Agent<E>)
    requires Chosen(fa, env.observe(e0), Environment.ApplicableActions(env, e0, env.observe(e0)), draws, 0, p.epsilon, c)
    requires ag == Agent(e0, env.observe(e0), c.action, c.fa, Eligibility.Elig(map[], {}),
                         Episodes.Seeded(env.observe(e0)), c.cursor, 0)
    ensures Progress(env, e0, fa, p, maxSteps, fuel, ag, [Eligibility.Elig(map[], {})], [], [e0])
  {
  }

  /**
   A step taken while the loop goes on keeps the episode's progress: the
   trajectory gains the environment the execution led to, and the episode
   the transition it reported.
   */
  lemma ProgressStep<E>(env: Environment.Env<E>, e0: E, fa: LinearFA, p: Params, maxSteps: int, fuel: nat,
                        draws: nat -> real, ag: Agent<E>, els: seq<Eligibility.Elig>, gs: seq<map<int, real>>,
                        envs: seq<E>, st: Stepped<E>)
    requires Progress(env, e0, fa, p, maxSteps, fuel, ag, els, gs, envs)
    requires ag.steps < fuel && !env.isTerminal(ag.env) && Continues(ag.steps, maxSteps)
    requires Moved(env, ag, st) && Valued(env, ag, p, draws, st) && Updated(ag, p, st) && Ready(st.agent)
    ensures Progress(env, e0, fa, p, maxSteps, fuel, st.agent, els + [st.agent.elig], gs + [st.gradient],
                     envs + [st.agent.env])
  {
    Approximator.GrowsTransitive(fa.cp, ag.fa.cp, st.before.cp);
    Approximator.GrowsTransitive(fa.cp, st.before.cp, st.agent.fa.cp);
    Eligibility.RunSnoc(els, gs, p.replaceTraces, Factor(p), p.minLambda, st.gradient, st.agent.elig);
    TrajectorySnoc(env, maxSteps, envs, ag, st);
  }

  /** The trajectory of a step: the old executions stay recorded, and the new one is added. */
  lemma TrajectorySnoc<E>(env: Environment.Env<E>, maxSteps: int, envs: seq<E>, ag: Agent<E>, st: Stepped<E>)
    requires Trajectory(env, maxSteps, envs, ag.episode) && |ag.episode.actions| == ag.steps
    requires envs[ag.steps] == ag.env && !env.isTerminal(ag.env) && Continues(ag.steps, maxSteps)
    requires Moved(env, ag, st)
    ensures Trajectory(env, maxSteps, envs + [st.agent.env], st.agent.episode)
  {
    var envs', ep, ep' := envs + [st.agent.env], ag.episode, st.agent.episode;
    forall i | 0 <= i < |ep'.actions| ensures Executes(env, maxSteps, envs', ep', i) {
      if i < ag.steps {
        assert Executes(env, maxSteps, envs, ep, i);
        assert envs'[i] == envs[i] && envs'[i + 1] == envs[i + 1];
        assert ep'.actions[i] == ep.actions[i] && ep'.states[i + 1] == ep.states[i + 1] && ep'.rewards[i] == ep.rewards[i];
      } else {
        assert envs'[i] == ag.env && envs'[i + 1] == st.agent.env && ep'.actions[i] == ag.action;
      }
    }
  }

  /**
   How an episode started in `e0` began: the first action `c0` is the
   epsilon-greedy pick in the first observation with the draws from 0 on,
   and the learner holds it with empty traces and the seeded episode.
   */
  ghost predicate Started<E>(env: Environment.Env<E>, e0: E, fa: LinearFA, p: Params, draws: nat -> real,
                             c0: Choice, ag0: Agent<E>) {
    var s0 := env.observe(e0);
    && Chosen(fa, s0, Environment.ApplicableActions(env, e0, s0), draws, 0, p.epsilon, c0)
    && ag0 == Agent(e0, s0, c0.action, c0.fa, Eligibility.Elig(map[], {}), Episodes.Seeded(s0), c0.cursor, 0)
  }

  /** The step `st` from `ag` went as `Step` promises: executed, valued and updated. */
  ghost predicate Took<E>(env: Environment.Env<E>, p: Params, draws: nat -> real, ag: Agent<E>, st: Stepped<E>) {
    Moved(env, ag, st) && Valued(env, ag, p, draws, st) && Updated(ag, p, st)
  }

  /**
   Step `i` of the learners `ags` is the step `sts[i]`: it went from
   learner `i` as `Took` says, marked the traces with `gs[i]`, and led to
   learner `i + 1`.
   */
  ghost predicate StepAt<E>(env: Environment.Env<E>, p: Params, draws: nat -> real, ags: seq<Agent<E>>,
                            sts: seq<Stepped<E>>, gs: seq<map<int, real>>, i: int) {
    && 0 <= i < |sts| && i + 1 < |ags| && i < |gs|
    && Took(env, p, draws, ags[i], sts[i]) && sts[i].agent == ags[i + 1] && gs[i] == sts[i].gradient
  }

  /** Every step of the learners `ags` went as `StepAt` says. */
  ghost predicate Steps<E>(env: Environment.Env<E>, p: Params, draws: nat -> real, ags: seq<Agent<E>>,
                           sts: seq<Stepped<E>>, gs: seq<map<int, real>>) {
    && |ags| == |sts| + 1 && |gs| == |sts|
    && forall i :: 0 <= i < |sts| ==> StepAt(env, p, draws, ags, sts, gs, i)
  }

  /**
   The learning history of an episode started in `e0`: `ags` are the
   learners before each step and after the last, starting as `Started`
   says and ending in `ag`, and `sts` the steps between them, each going
   as `StepAt` says.
   */
  ghost predicate History<E>(env: Environment.Env<E>, e0: E, fa: LinearFA, p: Params, draws: nat -> real,
                             c0: Choice, ag: Agent<E>, ags: seq<Agent<E>>, sts: seq<Stepped<E>>,
                             gs: seq<map<int, real>>) {
    && |ags| == |sts| + 1 && |gs| == |sts| && |sts| == ag.steps
    && ags[|sts|] == ag && Started(env, e0, fa, p, draws, c0, ags[0])
    && forall i :: 0 <= i < |sts| ==> StepAt(env, p, draws, ags, sts, gs, i)
  }

  /** A step from the last learner extends the history by that step. */
  lemma HistorySnoc<E>(env: Environment.Env<E>, e0: E, fa: LinearFA, p: Params, draws: nat -> real, c0: Choice,
                       ag: Agent<E>, ags: seq<Agent<E>>, sts: seq<Stepped<E>>, gs: seq<map<int, real>>,
                       st: Stepped<E>)
    requires History(env, e0, fa, p, draws, c0, ag, ags, sts, gs) && Took(env, p, draws, ag, st)
    ensures History(env, e0, fa, p, draws, c0, st.agent, ags + [st.agent], sts + [st], gs + [st.gradient])
  {
    StepsSnoc(env, p, draws, ags, sts, gs, st);
    assert (ags + [st.agent])[0] == ags[0];
  }

  /** Appending a step from the last learner keeps every earlier step and adds the new one. */
  lemma StepsSnoc<E>(env: Environment.Env<E>, p: Params, draws: nat -> real, ags: seq<Agent<E>>,
                     sts: seq<Stepped<E>>, gs: seq<map<int, real>>, st: Stepped<E>)
    requires Steps(env, p, draws, ags, sts, gs) && Took(env, p, draws, ags[|sts|], st)
    ensures Steps(env, p, draws, ags + [st.agent], sts + [st], gs + [st.gradient])
  {
    forall i | 0 <= i < |sts| + 1 ensures StepAt(env, p, draws, ags + [st.agent], sts + [st], gs + [st.gradient], i) {
      if i < |sts| {
        StepAtKept(env, p, draws, ags, sts, gs, st, i);
      } else {
        StepAtLast(env, p, draws, ags, sts, gs, st);
      }
    }
  }

  /** Appending a step keeps every earlier step as it was. */
  lemma StepAtKept<E>(env: Environment.Env<E>, p: Params, draws: nat -> real, ags: seq<Agent<E>>,
                      sts: seq<Stepped<E>>, gs: seq<map<int, real>>, st: Stepped<E>, i: int)
    requires StepAt(env, p, draws, ags, sts, gs, i)
    ensures StepAt(env, p, draws, ags + [st.agent], sts + [st], gs + [st.gradient], i)
  {
    var ags', sts', gs' := ags + [st.agent], sts + [st], gs + [st.gradient];
    assert ags'[i] == ags[i] && ags'[i + 1] == ags[i + 1] && sts'[i] == sts[i] && gs'[i] == gs[i];
  }

  /** The appended step is the last one of the history. */
  lemma StepAtLast<E>(env: Environment.Env<E>, p: Params, draws: nat -> real, ags: seq<Agent<E>>,
                      sts: seq<Stepped<E>>, gs: seq<map<int, real>>, st: Stepped<E>)
    requires |ags| == |sts| + 1 && |gs| == |sts| && Took(env, p, draws, ags[|sts|], st)
    ensures StepAt(env, p, draws, ags + [st.agent], sts + [st], gs + [st.gradient], |sts|)
  {
    var ags', sts', gs' := ags + [st.agent], sts + [st], gs + [st.gradient];
    assert ags'[|sts|] == ags[|sts|] && ags'[|sts| + 1] == st.agent && sts'[|sts|] == st && gs'[|sts|] == st.gradient;
  }

  /**
   After any number of steps the traces are sound, at most `maxSteps`
   steps were taken when that is not negative, none when the episode
   started terminal or had no room, and replacing traces with a factor in
   [0, 1] stay in [0, 1].
   */
  lemma ProgressBounds<E>(env: Environment.Env<E>, e0: E, fa: LinearFA, p: Params, maxSteps: int, fuel: nat,
                          ag: Agent<E>, els: seq<Eligibility.Elig>, gs: seq<map<int, real>>, envs: seq<E>)
    requires Progress(env, e0, fa, p, maxSteps, fuel, ag, els, gs, envs)
    ensures Eligibility.Sound(ag.elig.traces, ag.elig.pruned, p.minLambda)
    ensures maxSteps >= 0 ==> ag.steps <= maxSteps
    ensures env.isTerminal(e0) || (maxSteps <= 0 && maxSteps != -1) ==>
              ag.steps == 0 && ag.episode == Episodes.Seeded(env.observe(e0))
    ensures p.replaceTraces && 0.0 <= Factor(p) <= 1.0 ==> Eligibility.UnitBounded(ag.elig.traces)
    ensures Trajectory(env, maxSteps, envs, ag.episode) && envs[0] == e0 && envs[|envs| - 1] == ag.env
    ensures ag.episode.states[0] == env.observe(e0)
  {
    Eligibility.RunSound(els, gs, p.replaceTraces, Factor(p), p.minLambda);
    if p.replaceTraces && 0.0 <= Factor(p) <= 1.0 {
      Eligibility.ReplacingBounded(els, gs, Factor(p), p.minLambda);
    }
  }

  /**
   Why a step from `ag` could not be taken: executing its action led to a
   state without applicable actions, or to one the tilings cannot
   quantise.
   */
  predicate Stuck<E>(env: Environment.Env<E>, ag: Agent<E>, error: Error) {
    var ex := env.execute(ag.env, ag.action);
    var acts := Environment.ApplicableActions(env, ex.env, ex.outcome.next);
    || (|acts| == 0 && error == NoApplicableAction)
    || (|acts| > 0 && !Tiles.Accepts(ag.fa.cp.tiles, ex.outcome.next.vec) && error == Unquantisable)
  }

  /** A failed step gets stuck: the only failures `Step` has are those `Stuck` names. */
  lemma StepStuck<E>(env: Environment.Env<E>, ag: Agent<E>, r: Result<Stepped<E>, Error>)
    requires var ex := env.execute(ag.env, ag.action);
             var acts := Environment.ApplicableActions(env, ex.env, ex.outcome.next);
             && (|acts| == 0 ==> r == Failure(NoApplicableAction))
             && (|acts| > 0 && !Tiles.Accepts(ag.fa.cp.tiles, ex.outcome.next.vec) ==> r == Failure(Unquantisable))
             && (|acts| > 0 && Tiles.Accepts(ag.fa.cp.tiles, ex.outcome.next.vec) ==> r.Success?)
    requires r.Failure?
    ensures Stuck(env, ag, r.error)
  {
  }

  /**
   One pass of the loop of `run_learning` while it goes on: a step that
   keeps the episode's progress and extends its history by one step taken
   as `Step` promises, or one that gets stuck.
   */
  method Advance<E>(env: Environment.Env<E>, e0: E, fa: LinearFA, p: Params, maxSteps: int, fuel: nat,
                    draws: nat -> real, ag: Agent<E>, ghost els: seq<Eligibility.Elig>,
                    ghost gs: seq<map<int, real>>, ghost envs: seq<E>, ghost c0: Choice,
                    ghost ags: seq<Agent<E>>, ghost sts: seq<Stepped<E>>)
    returns (r: Result<Agent<E>, Error>, ghost els': seq<Eligibility.Elig>, ghost gs': seq<map<int, real>>,
             ghost envs': seq<E>, ghost ags': seq<Agent<E>>, ghost sts': seq<Stepped<E>>)
    requires Progress(env, e0, fa, p, maxSteps, fuel, ag, els, gs, envs) && Uniform(draws)
    requires History(env, e0, fa, p, draws, c0, ag, ags, sts, gs)
    requires ag.steps < fuel && !env.isTerminal(ag.env) && Continues(ag.steps, maxSteps)
    ensures r.Success? ==> Progress(env, e0, fa, p, maxSteps, fuel, r.value, els', gs', envs')
    ensures r.Success? ==> History(env, e0, fa, p, draws, c0, r.value, ags', sts', gs')
    ensures r.Success? ==> r.value.steps == ag.steps + 1
    ensures r.Failure? ==> Stuck(env, ag, r.error)
  {
    var step := Step(env, ag, p, draws);
    if step.Failure? {
      StepStuck(env, ag, step);
      return Failure(step.error), els, gs, envs, ags, sts;
    }
    var st := step.value;
    ProgressStep(env, e0, fa, p, maxSteps, fuel, draws, ag, els, gs, envs, st);
    HistorySnoc(env, e0, fa, p, draws, c0, ag, ags, sts, gs, st);
    r, els', gs', envs' := Success(st.agent), els + [st.agent.elig], gs + [st.gradient], envs + [st.agent.env];
    ags', sts' := ags + [st.agent], sts + [st];
  }

  /**
   The start of `run_learning`: observe the first state, seed the episode
   with it and choose the first action epsilon-greedily, as `c0`. It fails
   exactly when that state has no applicable action or cannot be quantised.
   */
  method Begin<E>(env: Environment.Env<E>, e0: E, fa: LinearFA, p: Params, maxSteps: int, fuel: nat,
                  draws: nat -> real) returns (r: Result<Agent<E>, Error>, ghost c0: Choice)
    requires Approximator.Valid(fa.cp) && Uniform(draws)
    ensures var s0 := env.observe(e0);
            var acts := Environment.ApplicableActions(env, e0, s0);
            && (r.Failure? <==> |acts| == 0 || !Tiles.Accepts(fa.cp.tiles, s0.vec))
            && (|acts| == 0 ==> r == Failure(NoApplicableAction))
            && (|acts| > 0 && !Tiles.Accepts(fa.cp.tiles, s0.vec) ==> r == Failure(Unquantisable))
    ensures r.Success? ==> Progress(env, e0, fa, p, maxSteps, fuel, r.value, [Eligibility.Elig(map[], {})], [], [e0])
    ensures r.Success? ==> History(env, e0, fa, p, draws, c0, r.value, [r.value], [], [])
  {
    var s0 := env.observe(e0);
    var first := EGreedy(env, e0, fa, s0, draws, 0, p.epsilon);
    c0 := Choice(0, Actions.Action("", 0), fa, 0);
    if first.Failure? {
      return Failure(first.error), c0;
    }
    var c := first.value;
    c0 := c;
    var ag := Agent(e0, s0, c.action, c.fa, Eligibility.Elig(map[], {}), Episodes.Seeded(s0), c.cursor, 0);
    ProgressStart(env, e0, fa, p, maxSteps, fuel, draws, c, ag);
    r := Success(ag);
  }

  /**
   The loop of `run_learning` from a learner that already made progress:
   step until the budget, the environment or `fuel` stops it, or a step
   gets stuck. `ag'` is the learner after the last completed step.
   */
  method Drive<E>(env: Environment.Env<E>, e0: E, fa: LinearFA, p: Params, maxSteps: int, fuel: nat,
                  draws: nat -> real, ag: Agent<E>, ghost els: seq<Eligibility.Elig>,
                  ghost gs: seq<map<int, real>>, ghost envs: seq<E>, ghost c0: Choice,
                  ghost ags: seq<Agent<E>>, ghost sts: seq<Stepped<E>>)
    returns (r: Result<Agent<E>, Error>, ag': Agent<E>, ghost els': seq<Eligibility.Elig>,
             ghost gs': seq<map<int, real>>, ghost envs': seq<E>, ghost ags': seq<Agent<E>>,
             ghost sts': seq<Stepped<E>>)
    requires Progress(env, e0, fa, p, maxSteps, fuel, ag, els, gs, envs) && Uniform(draws)
    requires History(env, e0, fa, p, draws, c0, ag, ags, sts, gs)
    ensures Progress(env, e0, fa, p, maxSteps, fuel, ag', els', gs', envs')
    ensures History(env, e0, fa, p, draws, c0, ag', ags', sts', gs')
    ensures ag'.steps >= ag.steps
    ensures r.Success? ==> r.value == ag'
    ensures r.Success? ==> ag'.steps == fuel || env.isTerminal(ag'.env) || !Continues(ag'.steps, maxSteps)
    ensures r.Failure? ==>
              && ag'.steps < fuel && !env.isTerminal(ag'.env) && Continues(ag'.steps, maxSteps)
              && Stuck(env, ag', r.error)
  {
    ag', els', gs', envs', ags', sts' := ag, els, gs, envs, ags, sts;
    while ag'.steps < fuel && !env.isTerminal(ag'.env) && Continues(ag'.steps, maxSteps)
      invariant Progress(env, e0, fa, p, maxSteps, fuel, ag', els', gs', envs')
      invariant History(env, e0, fa, p, draws, c0, ag', ags', sts', gs')
      invariant ag'.steps >= ag.steps
      decreases fuel - ag'.steps
    {
      var next;
      ghost var els2, gs2, envs2, ags2, sts2;
      next, els2, gs2, envs2, ags2, sts2 := Advance(env, e0, fa, p, maxSteps, fuel, draws, ag', els', gs', envs',
                                                    c0, ags', sts');
      if next.Failure? {
        return Failure(next.error), ag', els', gs', envs', ags', sts';
      }
      ag', els', gs', envs', ags', sts' := next.value, els2, gs2, envs2, ags2, sts2;
    }
    r := Success(ag');
  }

  /**
   `run_learning`: observe the first state, seed the episode with it,
   choose the first action, then step until the environment is terminal or
   `maxSteps` steps were taken (-1: no bound). The model also stops after
   `fuel` steps. `last` is the learner after the last step completed, or
   none when the first state already has no applicable action or cannot be
   quantised; the run fails then, or when a step from `last` gets stuck.
   Otherwise it succeeds with `last`. Either way the learners `ags` and the
   steps `sts` between them form the episode's history: the first action is
   the epsilon-greedy pick from draw 0 on, and every step executed the
   action, chose the next one epsilon-greedily, and updated the weights and
   traces by the TD error. The episode records every execution, the traces
   are sound and the step count respects the bounds.
   */
  method RunLearning<E>(env: Environment.Env<E>, e0: E, fa: LinearFA, p: Params, maxSteps: int,
                        draws: nat -> real, fuel: nat)
    returns (r: Result<Agent<E>, Error>, last: Option<Agent<E>>,
             ghost els: seq<Eligibility.Elig>, ghost gs: seq<map<int, real>>, ghost envs: seq<E>,
             ghost c0: Choice, ghost ags: seq<Agent<E>>, ghost sts: seq<Stepped<E>>)
    requires Approximator.Valid(fa.cp) && Uniform(draws)
    ensures var s0 := env.observe(e0);
            var acts := Environment.ApplicableActions(env, e0, s0);
            && (last.None? <==> |acts| == 0 || !Tiles.Accepts(fa.cp.tiles, s0.vec))
            && (|acts| == 0 ==> r == Failure(NoApplicableAction))
            && (|acts| > 0 && !Tiles.Accepts(fa.cp.tiles, s0.vec) ==> r == Failure(Unquantisable))
    ensures r.Success? ==> last == Some(r.value)
    ensures r.Success? ==>
              r.value.steps == fuel || env.isTerminal(r.value.env) || !Continues(r.value.steps, maxSteps)
    ensures r.Failure? && last.Some? ==>
              && last.value.steps < fuel && !env.isTerminal(last.value.env) && Continues(last.value.steps, maxSteps)
              && Stuck(env, last.value, r.error)
    ensures last.Some? ==> Progress(env, e0, fa, p, maxSteps, fuel, last.value, els, gs, envs)
    ensures last.Some? ==>
              && Trajectory(env, maxSteps, envs, last.value.episode)
              && envs[0] == e0 && envs[|envs| - 1] == last.value.env
              && last.value.episode.states[0] == env.observe(e0)
    ensures last.Some? ==> History(env, e0, fa, p, draws, c0, last.value, ags, sts, gs)
    ensures last.Some? ==> Eligibility.Sound(last.value.elig.traces, last.value.elig.pruned, p.minLambda)
    ensures last.Some? && maxSteps >= 0 ==> last.value.steps <= maxSteps
    ensures last.Some? && (env.isTerminal(e0) || (maxSteps <= 0 && maxSteps != -1)) ==>
              last.value.steps == 0 && last.value.episode == Episodes.Seeded(env.observe(e0))
    ensures last.Some? && p.replaceTraces && 0.0 <= Factor(p) <= 1.0 ==>
              Eligibility.UnitBounded(last.value.elig.traces)
  {
    els, gs, envs := [Eligibility.Elig(map[], {})], [], [e0];
    var first;
    first, c0 := Begin(env, e0, fa, p, maxSteps, fuel, draws);
    ags, sts := [], [];
    if first.Failure? {
      return Failure(first.error), None, els, gs, envs, c0, ags, sts;
    }
    var ag';
    r, ag', els, gs, envs, ags, sts := Drive(env, e0, fa, p, maxSteps, fuel, draws, first.value, els, gs, envs,
                                             c0, [first.value], []);
    ProgressBounds(env, e0, fa, p, maxSteps, fuel, ag', els, gs, envs);
    last := Some(ag');
    assert last.value == ag';
  }
}

=== FILE: idalloc.dfy ===
/**
 Feature-id allocation on first sight. A table maps keys to ids; a counter
 supplied by the caller gives the next id (linearfa.cpp:26-36,
 tilecoding.cpp:82-94). Several tables may share one counter: the tile
 tables of all tilings share one, and so do the per-action remapping tables.
 */
module IdAlloc {

  /** The id looked up or minted, the table after the call, and the counter after it. */
  datatype Minted<K> = Minted(id: int, table: map<K, int>, next: int)

  /** Every stored id lies in [0, next) and no two keys share an id. */
  predicate FreshTable<K>(table: map<K, int>, next: int) {
    && next >= 0
    && (forall k :: k in table ==> 0 <= table[k] < next)
    && (forall k1, k2 :: k1 in table && k2 in table && table[k1] == table[k2] ==> k1 == k2)
  }

  /**
   Create or retrieve: a known key gives its stored id and changes nothing;
   a new key gets the current counter value, which is recorded, and the
   counter advances by one.
   */
  function GetOrCreate<K>(table: map<K, int>, key: K, next: int): (r: Minted<K>)
    ensures key in r.table && r.table[key] == r.id
    ensures r.table.Keys == table.Keys + {key}
    ensures forall k :: k in table ==> r.table[k] == table[k]
    ensures key in table ==> r.id == table[key] && r.table == table && r.next == next
    ensures key !in table ==> r.id == next && r.next == next + 1
    ensures FreshTable(table, next) ==> FreshTable(r.table, r.next) && r.id < r.next
  {
    if key in table then Minted(table[key], table, next)
    else Minted(next, table[key := next], next + 1)
  }

  /**
   A family of tables indexed by `I` sharing one counter: every id lies in
   [0, next), and no two entries, in the same table or in different ones,
   share an id.
   */
  predicate Fresh<I, K>(fam: map<I, map<K, int>>, next: int) {
    && next >= 0
    && (forall i, k :: i in fam && k in fam[i] ==> 0 <= fam[i][k] < next)
    && (forall i, j, k1, k2 {:trigger Owns(fam, i, k1), Owns(fam, j, k2)} ::
          (i in fam && j in fam && k1 in fam[i] && k2 in fam[j] && Owns(fam, i, k1) && Owns(fam, j, k2)
           && fam[i][k1] == fam[j][k2]) ==> i == j && k1 == k2)
  }

  /** The table of index `i` holds `key`. */
  predicate Owns<I, K>(fam: map<I, map<K, int>>, i: I, key: K) {
    i in fam && key in fam[i]
  }

  /** In a fresh family, two entries with the same id are the same entry. */
  lemma Unique<I, K>(fam: map<I, map<K, int>>, next: int, i: I, k1: K, j: I, k2: K)
    requires Fresh(fam, next) && i in fam && k1 in fam[i] && j in fam && k2 in fam[j]
    ensures fam[i][k1] == fam[j][k2] ==> i == j && k1 == k2
  {
    assert Owns(fam, i, k1) && Owns(fam, j, k2);
  }

  /** The table of index `i`, an empty one if there is none yet. */
  function TableOf<I, K>(fam: map<I, map<K, int>>, i: I): map<K, int> {
    if i in fam then fam[i] else map[]
  }

  /** Every entry of `fam` is still present, with the same id, in `fam'`. */
  predicate Extends<I, K>(fam: map<I, map<K, int>>, fam': map<I, map<K, int>>) {
    forall i, k :: i in fam && k in fam[i] ==> i in fam' && k in fam'[i] && fam'[i][k] == fam[i][k]
  }

  lemma ExtendsReflexive<I, K>(fam: map<I, map<K, int>>)
    ensures Extends(fam, fam)
  {
  }

  lemma ExtendsTransitive<I, K>(a: map<I, map<K, int>>, b: map<I, map<K, int>>, c: map<I, map<K, int>>)
    requires Extends(a, b) && Extends(b, c)
    ensures Extends(a, c)
  {
  }

  datatype FamilyMinted<I, K> = FamilyMinted(id: int, family: map<I, map<K, int>>, next: int)

  /**
   Create or retrieve `key` in the table of `i`, minting from the shared
   counter; a missing table is created empty first, as `std::map::operator[]`
   does. Freshness of the whole family is preserved, so ids minted for
   different indices never coincide.
   */
  function MintIn<I, K>(fam: map<I, map<K, int>>, i: I, key: K, next: int): (r: FamilyMinted<I, K>)
    ensures i in r.family && key in r.family[i] && r.family[i][key] == r.id
    ensures r.family.Keys == fam.Keys + {i}
    ensures r.family[i].Keys == TableOf(fam, i).Keys + {key}
    ensures forall j :: j in fam && j != i ==> r.family[j] == fam[j]
    ensures Extends(fam, r.family)
    ensures key in TableOf(fam, i) ==> r.id == fam[i][key] && r.next == next
    ensures i in fam && key in fam[i] ==> r.family == fam
    ensures key !in TableOf(fam, i) ==> r.id == next && r.next == next + 1
    ensures Fresh(fam, next) ==> Fresh(r.family, r.next) && 0 <= r.id < r.next
  {
    var m := GetOrCreate(TableOf(fam, i), key, next);
    var fam' := fam[i := m.table];
    assert Fresh(fam, next) ==> Fresh(fam', m.next) by {
      if Fresh(fam, next) && key !in TableOf(fam, i) {
        forall j, k | j in fam' && k in fam'[j] ensures 0 <= fam'[j][k] < m.next {
          if j == i && k == key {
          } else {
            assert j in fam && k in fam[j];
          }
        }
        forall j1, j2, k1, k2 | j1 in fam' && j2 in fam' && k1 in fam'[j1] && k2 in fam'[j2] && fam'[j1][k1] == fam'[j2][k2]
          ensures j1 == j2 && k1 == k2
        {
          if (j1, k1) != (i, key) && (j2, k2) != (i, key) {
            assert j1 in fam && k1 in fam[j1] && j2 in fam && k2 in fam[j2];
            Unique(fam, next, j1, k1, j2, k2);
          }
        }
        assert Owns(fam', i, key);
      } else if Fresh(fam, next) {
        assert fam' == fam;
      }
    }
    FamilyMinted(m.id, fam', m.next)
  }
}

=== FILE: linearfa.dfy ===
/**
 The cross-product feature remapping and the linear approximator
 (linearfa.cpp, linearfa.hpp). Tile ids of a state are remapped to
 (state, action) ids through one table per action number, all minting from
 one shared counter; the approximator keeps a weight per id, materialises
 the default weight lazily, and memoises the last queried pair.
 */
module Approximator {
  import opened Wrappers
  import IdAlloc
  import Tiles
  import States
  import Actions

  type StateFeature = Tiles.StateFeature

  // ---------------------------------------------------------------- CrossProductFeatures

  /** The tile coder, one remapping table per action number, and the shared counter. */
  datatype CrossProduct = CrossProduct(
    tiles: Tiles.TileCoding,
    actionTables: map<int, map<int, int>>,
    next: int)

  /** The tile coder is valid, and remapped ids are below the counter and distinct across all actions. */
  ghost predicate Valid(cp: CrossProduct) {
    Tiles.Valid(cp.tiles) && IdAlloc.Fresh(cp.actionTables, cp.next)
  }

  /** A new remapper over a tile coder: no remapped ids yet, counter at 0. */
  function NewCross(tiles: Tiles.TileCoding): (cp: CrossProduct)
    ensures Tiles.Valid(tiles) ==> Valid(cp)
    ensures cp.tiles == tiles && cp.next == 0
    ensures forall n :: IdAlloc.TableOf(cp.actionTables, n) == map[]
  {
    CrossProduct(tiles, map[], 0)
  }

  /** `cp'` keeps everything `cp` has minted, tile ids and remapped ids alike. */
  ghost predicate Grows(cp: CrossProduct, cp': CrossProduct) {
    && Tiles.Grows(cp.tiles, cp'.tiles)
    && IdAlloc.Extends(cp.actionTables, cp'.actionTables)
    && cp.next <= cp'.next
  }

  lemma GrowsTransitive(a: CrossProduct, b: CrossProduct, c: CrossProduct)
    requires Grows(a, b) && Grows(b, c)
    ensures Grows(a, c)
  {
    Tiles.GrowsTransitive(a.tiles, b.tiles, c.tiles);
    IdAlloc.ExtendsTransitive(a.actionTables, b.actionTables, c.actionTables);
  }

  datatype Remapped = Remapped(id: int, cp: CrossProduct)

  /**
   `action_feature(a, from)`: the table of `a`'s number (created empty when
   absent) gives `from` its id, minting from the shared counter on first
   sight; the tile coder and the other actions' tables are untouched.
   */
  function ActionFeature(cp: CrossProduct, a: Actions.Action, from: int): (r: Remapped)
    ensures r.cp.tiles == cp.tiles
    ensures from in IdAlloc.TableOf(r.cp.actionTables, a.num)
    ensures IdAlloc.TableOf(r.cp.actionTables, a.num)[from] == r.id
    ensures IdAlloc.Extends(cp.actionTables, r.cp.actionTables)
    ensures forall n :: n != a.num ==> IdAlloc.TableOf(r.cp.actionTables, n) == IdAlloc.TableOf(cp.actionTables, n)
    ensures from in IdAlloc.TableOf(cp.actionTables, a.num) ==> r.cp == cp && r.id == cp.actionTables[a.num][from]
    ensures from !in IdAlloc.TableOf(cp.actionTables, a.num) ==> r.id == cp.next && r.cp.next == cp.next + 1
    ensures Valid(cp) ==> Valid(r.cp) && 0 <= r.id < r.cp.next
  {
    var m := IdAlloc.MintIn(cp.actionTables, a.num, from, cp.next);
    Remapped(m.id, cp.(actionTables := m.family, next := m.next))
  }

  datatype CrossCoded = CrossCoded(features: seq<StateFeature>, cp: CrossProduct)

  /**
   The loop of `CrossProductFeatures::features` over the first `n` tile
   features: each keeps its value and has its id remapped for `a`.
   */
  function Remap(cp: CrossProduct, a: Actions.Action, sfs: seq<StateFeature>, n: int): (r: CrossCoded)
    requires Valid(cp) && 0 <= n <= |sfs|
    ensures Valid(r.cp) && Grows(cp, r.cp) && r.cp.tiles == cp.tiles
    ensures |r.features| == n
    ensures forall i :: 0 <= i < n ==> r.features[i].value == sfs[i].value
    ensures forall i :: 0 <= i < n ==>
              sfs[i].id in IdAlloc.TableOf(r.cp.actionTables, a.num)
              && IdAlloc.TableOf(r.cp.actionTables, a.num)[sfs[i].id] == r.features[i].id
    ensures forall m :: m != a.num ==> IdAlloc.TableOf(r.cp.actionTables, m) == IdAlloc.TableOf(cp.actionTables, m)
    ensures (forall i :: 0 <= i < n ==> sfs[i].id in IdAlloc.TableOf(cp.actionTables, a.num)) ==> r.cp == cp
    decreases n
  {
    if n == 0 then CrossCoded([], cp)
    else
      var r1 := Remap(cp, a, sfs, n - 1);
      var m := ActionFeature(r1.cp, a, sfs[n - 1].id);
      var r := CrossCoded(r1.features + [Tiles.StateFeature(m.id, sfs[n - 1].value)], m.cp);
      RemapOneMore(cp, a, sfs, n, r1, m, r);
      r
  }

  /** The pass over tile feature n - 1 extends what the passes over the earlier ones established. */
  lemma RemapOneMore(cp: CrossProduct, a: Actions.Action, sfs: seq<StateFeature>, n: int,
                     r1: CrossCoded, m: Remapped, r: CrossCoded)
    requires Valid(cp) && 0 < n <= |sfs|
    requires Valid(r1.cp) && Grows(cp, r1.cp) && r1.cp.tiles == cp.tiles
    requires |r1.features| == n - 1
    requires forall i :: 0 <= i < n - 1 ==> r1.features[i].value == sfs[i].value
    requires forall i :: 0 <= i < n - 1 ==>
               sfs[i].id in IdAlloc.TableOf(r1.cp.actionTables, a.num)
               && IdAlloc.TableOf(r1.cp.actionTables, a.num)[sfs[i].id] == r1.features[i].id
    requires forall k :: k != a.num ==> IdAlloc.TableOf(r1.cp.actionTables, k) == IdAlloc.TableOf(cp.actionTables, k)
    requires (forall i :: 0 <= i < n - 1 ==> sfs[i].id in IdAlloc.TableOf(cp.actionTables, a.num)) ==> r1.cp == cp
    requires m == ActionFeature(r1.cp, a, sfs[n - 1].id)
    requires r == CrossCoded(r1.features + [Tiles.StateFeature(m.id, sfs[n - 1].value)], m.cp)
    ensures Valid(r.cp) && Grows(cp, r.cp) && r.cp.tiles == cp.tiles
    ensures |r.features| == n
    ensures forall i :: 0 <= i < n ==> r.features[i].value == sfs[i].value
    ensures forall i :: 0 <= i < n ==>
              sfs[i].id in IdAlloc.TableOf(r.cp.actionTables, a.num)
              && IdAlloc.TableOf(r.cp.actionTables, a.num)[sfs[i].id] == r.features[i].id
    ensures forall k :: k != a.num ==> IdAlloc.TableOf(r.cp.actionTables, k) == IdAlloc.TableOf(cp.actionTables, k)
    ensures (forall i :: 0 <= i < n ==> sfs[i].id in IdAlloc.TableOf(cp.actionTables, a.num)) ==> r.cp == cp
  {
    IdAlloc.ExtendsTransitive(cp.actionTables, r1.cp.actionTables, m.cp.actionTables);
    RemapKeeps(r1, r, a, sfs, n - 1);
    forall i | 0 <= i < n
      ensures r.features[i].value == sfs[i].value
      ensures sfs[i].id in IdAlloc.TableOf(r.cp.actionTables, a.num)
              && IdAlloc.TableOf(r.cp.actionTables, a.num)[sfs[i].id] == r.features[i].id
    {
      if i == n - 1 {
        assert r.features[i] == Tiles.StateFeature(m.id, sfs[n - 1].value);
      } else {
        assert r.features[i] == r1.features[i];
      }
    }
  }

  /** A later pass keeps the features and table entries of the earlier ones. */
  lemma RemapKeeps(r1: CrossCoded, r: CrossCoded, a: Actions.Action, sfs: seq<StateFeature>, n: int)
    requires IdAlloc.Extends(r1.cp.actionTables, r.cp.actionTables)
    requires 0 <= n == |r1.features| <= |sfs| && n <= |r.features| && r.features[..n] == r1.features
    requires forall i :: 0 <= i < n ==>
               sfs[i].id in IdAlloc.TableOf(r1.cp.actionTables, a.num)
               && IdAlloc.TableOf(r1.cp.actionTables, a.num)[sfs[i].id] == r1.features[i].id
    ensures forall i :: 0 <= i < n ==> r.features[i] == r1.features[i]
    ensures forall i :: 0 <= i < n ==>
              sfs[i].id in IdAlloc.TableOf(r.cp.actionTables, a.num)
              && IdAlloc.TableOf(r.cp.actionTables, a.num)[sfs[i].id] == r.features[i].id
  {
    forall i | 0 <= i < n
      ensures r.features[i] == r1.features[i]
      ensures sfs[i].id in IdAlloc.TableOf(r.cp.actionTables, a.num)
              && IdAlloc.TableOf(r.cp.actionTables, a.num)[sfs[i].id] == r.features[i].id
    {
      assert r.features[i] == r.features[..n][i];
      assert a.num in r1.cp.actionTables;
    }
  }

  /**
   `features(s, a)`: the tile features of `s`, each with its id remapped
   through `a`'s table. One feature per tiling, each of value 1, with ids
   that are pairwise distinct and below the shared counter; other actions'
   tables are untouched.
   */
  function Features(cp: CrossProduct, s: States.State, a: Actions.Action): (r: CrossCoded)
    requires Valid(cp) && Tiles.Accepts(cp.tiles, s.vec)
    ensures Valid(r.cp) && Grows(cp, r.cp)
    ensures |r.features| == |cp.tiles.tilings|
    ensures forall i :: 0 <= i < |r.features| ==> r.features[i].value == 1.0
    ensures forall i, j :: 0 <= i < j < |r.features| ==> r.features[i].id != r.features[j].id
    ensures forall i :: 0 <= i < |r.features| ==> 0 <= r.features[i].id < r.cp.next
    ensures forall m :: m != a.num ==> IdAlloc.TableOf(r.cp.actionTables, m) == IdAlloc.TableOf(cp.actionTables, m)
  {
    var t := Tiles.Features(cp.tiles, s.vec);
    var r := Remap(cp.(tiles := t.coding), a, t.features, |t.features|);
    RemappedDistinct(r.cp, a, t.features, r.features);
    r
  }

  /** Distinct tile ids remapped through one table of a valid remapper stay distinct and below its counter. */
  lemma RemappedDistinct(cp: CrossProduct, a: Actions.Action, sfs: seq<StateFeature>, fs: seq<StateFeature>)
    requires Valid(cp) && |sfs| == |fs|
    requires forall i, j :: 0 <= i < j < |sfs| ==> sfs[i].id != sfs[j].id
    requires forall i :: 0 <= i < |sfs| ==>
               sfs[i].id in IdAlloc.TableOf(cp.actionTables, a.num)
               && IdAlloc.TableOf(cp.actionTables, a.num)[sfs[i].id] == fs[i].id
    ensures forall i, j :: 0 <= i < j < |fs| ==> fs[i].id != fs[j].id
    ensures forall i :: 0 <= i < |fs| ==> 0 <= fs[i].id < cp.next
  {
    var table := IdAlloc.TableOf(cp.actionTables, a.num);
    forall i | 0 <= i < |fs| ensures 0 <= fs[i].id < cp.next {
      assert sfs[i].id in table;
      assert a.num in cp.actionTables;
    }
    forall i, j | 0 <= i < j < |fs| ensures fs[i].id != fs[j].id {
      assert sfs[i].id in table && sfs[j].id in table;
      assert a.num in cp.actionTables;
      IdAlloc.Unique(cp.actionTables, cp.next, a.num, sfs[i].id, a.num, sfs[j].id);
    }
  }

  /** Every tile of `s` is known, and `a`'s table already remaps each of their ids. */
  ghost predicate Present(cp: CrossProduct, s: States.State, a: Actions.Action)
    requires Valid(cp) && Tiles.Accepts(cp.tiles, s.vec)
  {
    var ks := Tiles.Keys(cp.tiles, s.vec);
    && Tiles.Present(cp.tiles, ks)
    && forall i :: 0 <= i < |ks| ==> Tiles.Peek(cp.tiles, ks)[i].id in IdAlloc.TableOf(cp.actionTables, a.num)
  }

  /** The features of (s, a) read off the tables without minting. */
  function Peek(cp: CrossProduct, s: States.State, a: Actions.Action): (r: seq<StateFeature>)
    requires Valid(cp) && Tiles.Accepts(cp.tiles, s.vec) && Present(cp, s, a)
    ensures |r| == |cp.tiles.tilings|
  {
    var tp := Tiles.Peek(cp.tiles, Tiles.Keys(cp.tiles, s.vec));
    seq(|tp|, i requires 0 <= i < |tp| => Tiles.StateFeature(IdAlloc.TableOf(cp.actionTables, a.num)[tp[i].id], tp[i].value))
  }

  /** Growing the remapper keeps every (s, a) that was present, with the same features. */
  lemma PeekStable(cp: CrossProduct, cp': CrossProduct, s: States.State, a: Actions.Action)
    requires Valid(cp) && Valid(cp') && Grows(cp, cp') && Tiles.Accepts(cp.tiles, s.vec)
    ensures Tiles.Accepts(cp'.tiles, s.vec)
    ensures Present(cp, s, a) ==> Present(cp', s, a) && Peek(cp', s, a) == Peek(cp, s, a)
  {
    Tiles.PeekStable(cp.tiles, cp'.tiles, s.vec);
    if Present(cp, s, a) {
      var ks := Tiles.Keys(cp.tiles, s.vec);
      var tp := Tiles.Peek(cp.tiles, ks);
      assert tp == Tiles.Peek(cp'.tiles, ks);
      forall i | 0 <= i < |ks|
        ensures tp[i].id in IdAlloc.TableOf(cp'.actionTables, a.num)
        ensures IdAlloc.TableOf(cp'.actionTables, a.num)[tp[i].id] == IdAlloc.TableOf(cp.actionTables, a.num)[tp[i].id]
      {
        assert tp[i].id in IdAlloc.TableOf(cp.actionTables, a.num);
        assert a.num in cp.actionTables;
      }
      assert Peek(cp', s, a) == Peek(cp, s, a);
    }
  }

  /** After `features(s, a)`, the pair is present and reading it gives the features returned. */
  lemma FeaturesThenPresent(cp: CrossProduct, s: States.State, a: Actions.Action)
    requires Valid(cp) && Tiles.Accepts(cp.tiles, s.vec)
    ensures Tiles.Accepts(Features(cp, s, a).cp.tiles, s.vec)
    ensures Present(Features(cp, s, a).cp, s, a)
    ensures Peek(Features(cp, s, a).cp, s, a) == Features(cp, s, a).features
  {
    var t := Tiles.Features(cp.tiles, s.vec);
    var r := Features(cp, s, a);
    Tiles.FeaturesThenPresent(cp.tiles, s.vec);
    Tiles.PeekStable(t.coding, r.cp.tiles, s.vec);
    var ks := Tiles.Keys(cp.tiles, s.vec);
    assert Tiles.Peek(r.cp.tiles, ks) == t.features;
    assert Peek(r.cp, s, a) == r.features;
  }

  /** When (s, a) is present, `features` reads the tables and changes nothing. */
  lemma FeaturesWhenPresent(cp: CrossProduct, s: States.State, a: Actions.Action)
    requires Valid(cp) && Tiles.Accepts(cp.tiles, s.vec) && Present(cp, s, a)
    ensures Features(cp, s, a) == CrossCoded(Peek(cp, s, a), cp)
  {
    var ks := Tiles.Keys(cp.tiles, s.vec);
    Tiles.FeaturesWhenPresent(cp.tiles, s.vec);
    var t := Tiles.Features(cp.tiles, s.vec);
    assert t.coding == cp.tiles;
    assert cp.(tiles := t.coding) == cp;
    var r := Remap(cp, a, t.features, |t.features|);
    assert r.cp == cp;
    assert r.features == Peek(cp, s, a);
  }

  /** The same (state, action) pair gets the same ids again, and the remapper does not change. */
  lemma FeaturesRepeat(cp: CrossProduct, s: States.State, a: Actions.Action)
    requires Valid(cp) && Tiles.Accepts(cp.tiles, s.vec)
    ensures Tiles.Accepts(Features(cp, s, a).cp.tiles, s.vec)
    ensures Features(Features(cp, s, a).cp, s, a) == Features(cp, s, a)
  {
    FeaturesThenPresent(cp, s, a);
    FeaturesWhenPresent(Features(cp, s, a).cp, s, a);
  }

  /**
   Ids are disjoint across actions: the features of two present pairs whose
   actions have different numbers never share an id.
   */
  lemma ActionsDisjoint(cp: CrossProduct, s1: States.State, a1: Actions.Action, s2: States.State, a2: Actions.Action)
    requires Valid(cp) && Tiles.Accepts(cp.tiles, s1.vec) && Tiles.Accepts(cp.tiles, s2.vec)
    requires Present(cp, s1, a1) && Present(cp, s2, a2) && a1.num != a2.num
    ensures forall i, j :: 0 <= i < |cp.tiles.tilings| && 0 <= j < |cp.tiles.tilings| ==>
              Peek(cp, s1, a1)[i].id != Peek(cp, s2, a2)[j].id
  {
    var p1 := Peek(cp, s1, a1);
    var p2 := Peek(cp, s2, a2);
    var tp1 := Tiles.Peek(cp.tiles, Tiles.Keys(cp.tiles, s1.vec));
    var tp2 := Tiles.Peek(cp.tiles, Tiles.Keys(cp.tiles, s2.vec));
    forall i, j | 0 <= i < |cp.tiles.tilings| && 0 <= j < |cp.tiles.tilings| ensures p1[i].id != p2[j].id {
      assert tp1[i].id in cp.actionTables[a1.num];
      assert tp2[j].id in cp.actionTables[a2.num];
      IdAlloc.Unique(cp.actionTables, cp.next, a1.num, tp1[i].id, a2.num, tp2[j].id);
    }
  }

  /** `num_features`: the tile counter times the remapping counter. */
  function NumFeatures(cp: CrossProduct): int {
    Tiles.NumFeatures(cp.tiles) * cp.next
  }

  /** With at least one tiling, every id `features` hands out lies below `num_features` afterwards. */
  lemma NumFeaturesCovers(cp: CrossProduct, s: States.State, a: Actions.Action)
    requires Valid(cp) && Tiles.Accepts(cp.tiles, s.vec) && |cp.tiles.tilings| > 0
    ensures forall i :: 0 <= i < |Features(cp, s, a).features| ==>
              Features(cp, s, a).features[i].id < NumFeatures(Features(cp, s, a).cp)
  {
    var t := Tiles.Features(cp.tiles, s.vec);
    var r := Features(cp, s, a);
    assert 0 <= t.features[0].id < Tiles.NumFeatures(t.coding);
    assert r.cp.tiles == t.coding;
    forall i | 0 <= i < |r.features| ensures r.features[i].id < NumFeatures(r.cp) {
      MulAtLeast(r.cp.next, Tiles.NumFeatures(r.cp.tiles));
    }
  }

  lemma MulAtLeast(x: int, k: int)
    requires x >= 0 && k >= 1
    ensures x <= k * x
  {
  }

  // ---------------------------------------------------------------- LinearFA

  /** The pair the memo was last filled for. */
  datatype MemoKey = MemoKey(state: States.State, action: Actions.Action)

  /**
   The approximator: the remapper, the default weight, the weight table,
   and the single-slot memo of the last query (its features, value,
   gradient and pair; `None` before the first query).
   */
  datatype LinearFA = LinearFA(
    cp: CrossProduct,
    defaultWeight: real,
    weights: map<int, real>,
    features: seq<StateFeature>,
    value: real,
    gradient: map<int, real>,
    last: Option<MemoKey>)

  /** The weight an id has, or would receive on first use. */
  function WeightOf(weights: map<int, real>, defaultWeight: real, id: int): real {
    if id in weights then weights[id] else defaultWeight
  }

  /** The approximator with every weight starting at `defaultWeight`. */
  function NewApproxWith(tiles: Tiles.TileCoding, defaultWeight: real): (fa: LinearFA)
    ensures Tiles.Valid(tiles) ==> Valid(fa.cp)
    ensures fa.cp.tiles == tiles && fa.last == None
    ensures forall id :: WeightOf(fa.weights, fa.defaultWeight, id) == defaultWeight
  {
    LinearFA(NewCross(tiles), defaultWeight, map[], [], 0.0, map[], None)
  }

  /** The one-argument constructor: every weight starts at 0. */
  function NewApprox(tiles: Tiles.TileCoding): (fa: LinearFA)
    ensures Tiles.Valid(tiles) ==> Valid(fa.cp)
    ensures fa.cp.tiles == tiles && fa.last == None
    ensures forall id :: WeightOf(fa.weights, fa.defaultWeight, id) == 0.0
  {
    NewApproxWith(tiles, 0.0)
  }

  datatype Weighed = Weighed(w: real, fa: LinearFA)

  /**
   `get_weight(id)`: a stored weight is returned and nothing changes; an
   unseen id receives the default weight, which is returned.
   */
  function GetWeight(fa: LinearFA, id: int): (r: Weighed)
    ensures r.w == WeightOf(fa.weights, fa.defaultWeight, id)
    ensures id in r.fa.weights && r.fa.weights[id] == r.w
    ensures r.fa.weights.Keys == fa.weights.Keys + {id}
    ensures forall k :: k in fa.weights ==> r.fa.weights[k] == fa.weights[k]
    ensures r.fa == fa.(weights := r.fa.weights)
    ensures id in fa.weights ==> r.fa == fa
  {
    if id in fa.weights then Weighed(fa.weights[id], fa)
    else Weighed(fa.defaultWeight, fa.(weights := fa.weights[id := fa.defaultWeight]))
  }

  /** Asking twice for the same weight gives the same answer and changes nothing the second time. */
  lemma GetWeightIdempotent(fa: LinearFA, id: int)
    ensures GetWeight(GetWeight(fa, id).fa, id) == Weighed(GetWeight(fa, id).w, GetWeight(fa, id).fa)
  {
  }

  /** The ids of a feature list. */
  function Ids(fs: seq<StateFeature>): set<int> {
    set i | 0 <= i < |fs| :: fs[i].id
  }

  /** Every feature's id has a weight. */
  predicate Weighted(weights: map<int, real>, fs: seq<StateFeature>) {
    forall i :: 0 <= i < |fs| ==> fs[i].id in weights
  }

  /** The weighted sum: each feature's value times its weight. */
  function Dot(weights: map<int, real>, fs: seq<StateFeature>): real
    requires Weighted(weights, fs)
    decreases |fs|
  {
    if |fs| == 0 then 0.0 else fs[0].value * weights[fs[0].id] + Dot(weights, fs[1..])
  }

  /** The weighted sum reading absent ids as the default weight. */
  function DefaultDot(weights: map<int, real>, defaultWeight: real, fs: seq<StateFeature>): real
    decreases |fs|
  {
    if |fs| == 0 then 0.0
    else fs[0].value * WeightOf(weights, defaultWeight, fs[0].id) + DefaultDot(weights, defaultWeight, fs[1..])
  }

  /** Tables that agree on the features' ids give the same weighted sum. */
  lemma {:induction false} DotFrame(w: map<int, real>, w': map<int, real>, fs: seq<StateFeature>)
    requires Weighted(w, fs) && Weighted(w', fs)
    requires forall i :: 0 <= i < |fs| ==> w[fs[i].id] == w'[fs[i].id]
    ensures Dot(w, fs) == Dot(w', fs)
    decreases |fs|
  {
    if |fs| > 0 {
      DotFrame(w, w', fs[1..]);
    }
  }

  /** Inserting an id's own lookup value leaves every lookup, hence the default-reading sum, unchanged. */
  lemma {:induction false} DefaultDotInsert(w: map<int, real>, dw: real, id: int, fs: seq<StateFeature>)
    ensures DefaultDot(w[id := WeightOf(w, dw, id)], dw, fs) == DefaultDot(w, dw, fs)
    decreases |fs|
  {
    if |fs| > 0 {
      DefaultDotInsert(w, dw, id, fs[1..]);
    }
  }

  datatype Summed = Summed(sum: real, weights: map<int, real>)

  /**
   The loop of `evaluate`: for each feature in order, `get_weight` (which
   inserts the default for an unseen id) times the feature's value, summed.
   The sum equals the weighted sum over the table afterwards, and equally
   the sum reading absent ids as the default; the table gains exactly the
   features' ids, at the default weight.
   */
  function WeighAll(weights: map<int, real>, defaultWeight: real, fs: seq<StateFeature>): (r: Summed)
    ensures r.weights.Keys == weights.Keys + Ids(fs)
    ensures forall id :: id in weights ==> r.weights[id] == weights[id]
    ensures forall id :: id in r.weights && id !in weights ==> r.weights[id] == defaultWeight
    ensures Weighted(r.weights, fs) && r.sum == Dot(r.weights, fs)
    ensures r.sum == DefaultDot(weights, defaultWeight, fs)
    decreases |fs|
  {
    if |fs| == 0 then Summed(0.0, weights)
    else
      var w0 := WeightOf(weights, defaultWeight, fs[0].id);
      var w1 := weights[fs[0].id := w0];
      var rest := WeighAll(w1, defaultWeight, fs[1..]);
      var r := Summed(fs[0].value * w0 + rest.sum, rest.weights);
      WeighFirst(weights, defaultWeight, fs, w0, w1, rest, r);
      r
  }

  /** Weighing the first feature, then the rest over the extended table, weighs the whole list. */
  lemma WeighFirst(weights: map<int, real>, defaultWeight: real, fs: seq<StateFeature>, w0: real, w1: map<int, real>,
                    rest: Summed, r: Summed)
    requires |fs| > 0 && w0 == WeightOf(weights, defaultWeight, fs[0].id) && w1 == weights[fs[0].id := w0]
    requires rest.weights.Keys == w1.Keys + Ids(fs[1..])
    requires forall id :: id in w1 ==> rest.weights[id] == w1[id]
    requires forall id :: id in rest.weights && id !in w1 ==> rest.weights[id] == defaultWeight
    requires Weighted(rest.weights, fs[1..]) && rest.sum == Dot(rest.weights, fs[1..])
    requires rest.sum == DefaultDot(w1, defaultWeight, fs[1..])
    requires r == Summed(fs[0].value * w0 + rest.sum, rest.weights)
    ensures r.weights.Keys == weights.Keys + Ids(fs)
    ensures forall id :: id in weights ==> r.weights[id] == weights[id]
    ensures forall id :: id in r.weights && id !in weights ==> r.weights[id] == defaultWeight
    ensures Weighted(r.weights, fs) && r.sum == Dot(r.weights, fs)
    ensures r.sum == DefaultDot(weights, defaultWeight, fs)
  {
    var id0 := fs[0].id;
    DefaultDotInsert(weights, defaultWeight, id0, fs[1..]);
    IdsCons(fs);
    WeightedCons(rest.weights, fs);
    assert id0 in w1 && rest.weights[id0] == w0;
    DotCons(rest.weights, fs, w0);
    DefaultDotCons(weights, defaultWeight, fs, w0);
    forall id | id in r.weights && id !in weights ensures r.weights[id] == defaultWeight {
      if id == id0 {
        assert w0 == defaultWeight;
      }
    }
  }

  /** The weighted sum of a non-empty list: the first term, then the rest. */
  lemma DotCons(w: map<int, real>, fs: seq<StateFeature>, v0: real)
    requires |fs| > 0 && Weighted(w, fs) && w[fs[0].id] == v0
    ensures Dot(w, fs) == fs[0].value * v0 + Dot(w, fs[1..])
  {
  }

  /** The default-reading sum of a non-empty list: the first term, then the rest. */
  lemma DefaultDotCons(w: map<int, real>, dw: real, fs: seq<StateFeature>, v0: real)
    requires |fs| > 0 && WeightOf(w, dw, fs[0].id) == v0
    ensures DefaultDot(w, dw, fs) == fs[0].value * v0 + DefaultDot(w, dw, fs[1..])
  {
  }

  /** The ids of a non-empty list: the first one and those of the rest. */
  lemma IdsCons(fs: seq<StateFeature>)
    requires |fs| > 0
    ensures Ids(fs) == {fs[0].id} + Ids(fs[1..])
  {
    forall id | id in Ids(fs) ensures id in {fs[0].id} + Ids(fs[1..]) {
      var i :| 0 <= i < |fs| && fs[i].id == id;
      if i > 0 {
        assert fs[1..][i - 1].id == id;
      }
    }
    forall id | id in Ids(fs[1..]) ensures id in Ids(fs) {
      var i :| 0 <= i < |fs[1..]| && fs[1..][i].id == id;
      assert fs[i + 1].id == id;
    }
  }

  lemma WeightedCons(w: map<int, real>, fs: seq<StateFeature>)
    requires |fs| > 0 && fs[0].id in w && Weighted(w, fs[1..])
    ensures Weighted(w, fs)
  {
    forall i | 0 <= i < |fs| ensures fs[i].id in w {
      if i > 0 {
        assert fs[1..][i - 1] == fs[i];
      }
    }
  }

  datatype Evaluated = Evaluated(value: real, fa: LinearFA)

  /**
   `evaluate(s, a)`: the features of (s, a), then the sum of each value
   times `get_weight` of its id. The result is the weighted sum over the
   old table with absent ids read as the default weight; afterwards every
   feature id has a weight, old weights are unchanged, and the memo holds
   the pair, its features and value, with the gradient cleared.
   */
  function Evaluate(fa: LinearFA, s: States.State, a: Actions.Action): (r: Evaluated)
    requires Valid(fa.cp) && Tiles.Accepts(fa.cp.tiles, s.vec)
    ensures Valid(r.fa.cp) && Grown(fa, r.fa)
    ensures r.fa.features == Features(fa.cp, s, a).features
    ensures r.value == DefaultDot(fa.weights, fa.defaultWeight, r.fa.features)
    ensures Weighted(r.fa.weights, r.fa.features) && r.value == Dot(r.fa.weights, r.fa.features)
    ensures r.fa.weights.Keys == fa.weights.Keys + Ids(r.fa.features)
    ensures forall id :: id in r.fa.weights && id !in fa.weights ==> r.fa.weights[id] == fa.defaultWeight
    ensures r.fa.value == r.value && r.fa.gradient == map[] && r.fa.last == Some(MemoKey(s, a))
  {
    var c := Features(fa.cp, s, a);
    var w := WeighAll(fa.weights, fa.defaultWeight, c.features);
    Evaluated(w.sum, fa.(cp := c.cp, weights := w.weights, value := w.sum, gradient := map[],
                         features := c.features, last := Some(MemoKey(s, a))))
  }

  /** `fa'` keeps the remapper's ids, the default weight and every stored weight of `fa`. */
  ghost predicate Grown(fa: LinearFA, fa': LinearFA) {
    && Grows(fa.cp, fa'.cp)
    && fa'.defaultWeight == fa.defaultWeight
    && (forall id :: id in fa.weights ==> id in fa'.weights && fa'.weights[id] == fa.weights[id])
  }

  lemma GrownTransitive(a: LinearFA, b: LinearFA, c: LinearFA)
    requires Grown(a, b) && Grown(b, c)
    ensures Grown(a, c)
  {
    GrowsTransitive(a.cp, b.cp, c.cp);
  }

  /** (s, a) has been evaluated: its features are present and each has a weight. */
  ghost predicate Known(fa: LinearFA, s: States.State, a: Actions.Action)
    requires Valid(fa.cp) && Tiles.Accepts(fa.cp.tiles, s.vec)
  {
    Present(fa.cp, s, a) && Weighted(fa.weights, Peek(fa.cp, s, a))
  }

  /** The Q value of a known pair, read without changing anything. */
  ghost function QValue(fa: LinearFA, s: States.State, a: Actions.Action): real
    requires Valid(fa.cp) && Tiles.Accepts(fa.cp.tiles, s.vec) && Known(fa, s, a)
  {
    Dot(fa.weights, Peek(fa.cp, s, a))
  }

  /** After `evaluate(s, a)` the pair is known, its Q value is the value returned, and the memo holds its features. */
  lemma EvaluateThenKnown(fa: LinearFA, s: States.State, a: Actions.Action)
    requires Valid(fa.cp) && Tiles.Accepts(fa.cp.tiles, s.vec)
    ensures Tiles.Accepts(Evaluate(fa, s, a).fa.cp.tiles, s.vec)
    ensures Known(Evaluate(fa, s, a).fa, s, a)
    ensures QValue(Evaluate(fa, s, a).fa, s, a) == Evaluate(fa, s, a).value
    ensures Evaluate(fa, s, a).fa.features == Peek(Evaluate(fa, s, a).fa.cp, s, a)
  {
    FeaturesThenPresent(fa.cp, s, a);
  }

  /** Evaluating a known pair returns its Q value and leaves remapper and weights unchanged. */
  lemma EvaluateWhenKnown(fa: LinearFA, s: States.State, a: Actions.Action, r: Evaluated)
    requires Valid(fa.cp) && Tiles.Accepts(fa.cp.tiles, s.vec) && Known(fa, s, a)
    requires r == Evaluate(fa, s, a)
    ensures r.value == QValue(fa, s, a)
    ensures r.fa.cp == fa.cp && r.fa.weights == fa.weights
  {
    FeaturesWhenPresent(fa.cp, s, a);
    var fs := Peek(fa.cp, s, a);
    assert r.fa.features == fs && r.fa.cp == fa.cp;
    NothingNew(fa.weights, r.fa.weights, fs);
  }

  /** A table grown by exactly the ids of features that already had weights, keeping every weight, is unchanged. */
  lemma NothingNew(w: map<int, real>, w': map<int, real>, fs: seq<StateFeature>)
    requires Weighted(w, fs) && w'.Keys == w.Keys + Ids(fs)
    requires forall id :: id in w ==> id in w' && w'[id] == w[id]
    ensures w' == w
  {
    forall id | id in Ids(fs) ensures id in w {
      var i :| 0 <= i < |fs| && fs[i].id == id;
    }
    assert w'.Keys == w.Keys;
    assert forall id :: id in w' ==> w'[id] == w[id];
  }

  /** A known pair stays known, with the same Q value, as the approximator grows. */
  lemma KnownStable(fa: LinearFA, fa': LinearFA, s: States.State, a: Actions.Action)
    requires Valid(fa.cp) && Valid(fa'.cp) && Grown(fa, fa') && Tiles.Accepts(fa.cp.tiles, s.vec)
    ensures Tiles.Accepts(fa'.cp.tiles, s.vec)
    ensures Known(fa, s, a) ==> Known(fa', s, a) && QValue(fa', s, a) == QValue(fa, s, a)
  {
    PeekStable(fa.cp, fa'.cp, s, a);
    if Known(fa, s, a) {
      DotFrame(fa.weights, fa'.weights, Peek(fa.cp, s, a));
    }
  }

  datatype Graded = Graded(gradient: map<int, real>, fa: LinearFA)

  /** The gradient of a feature list: each id mapped to its feature's value, later features overwriting earlier ones. */
  function GradientOf(fs: seq<StateFeature>): (g: map<int, real>)
    ensures g.Keys == Ids(fs)
    decreases |fs|
  {
    if |fs| == 0 then map[]
    else
      var n := |fs| - 1;
      var g := GradientOf(fs[..n]);
      assert Ids(fs) == Ids(fs[..n]) + {fs[n].id} by {
        forall id | id in Ids(fs[..n]) ensures id in Ids(fs) {
          var i :| 0 <= i < n && fs[..n][i].id == id;
          assert fs[i].id == id;
        }
      }
      g[fs[n].id := fs[n].value]
  }

  /** With distinct ids, the gradient maps each feature's id to that feature's value. */
  lemma {:induction false} GradientOfDistinct(fs: seq<StateFeature>)
    requires forall i, j :: 0 <= i < j < |fs| ==> fs[i].id != fs[j].id
    ensures forall i :: 0 <= i < |fs| ==> GradientOf(fs)[fs[i].id] == fs[i].value
    decreases |fs|
  {
    if |fs| > 0 {
      var n := |fs| - 1;
      var front := fs[..n];
      GradientOfDistinct(front);
      var g := GradientOf(front);
      assert GradientOf(fs) == g[fs[n].id := fs[n].value];
      forall i | 0 <= i < n ensures g[fs[n].id := fs[n].value][fs[i].id] == fs[i].value {
        assert front[i] == fs[i];
      }
    }
  }

  /** The memo matches: the same state vector and an action of the same name. */
  predicate Hit(fa: LinearFA, s: States.State, a: Actions.Action) {
    fa.last.Some? && States.Same(fa.last.value.state, s) && Actions.Same(fa.last.value.action, a)
  }

  /**
   `gradient(s, a)`: on a memo hit with a non-empty cached gradient, that
   gradient, and nothing changes; on a hit with an empty one, the gradient
   of the cached features, which are not regenerated; on a miss, the
   gradient of freshly computed features. Except for the early return the
   memo then holds the pair, features and gradient; the weights are never
   touched.
   */
  function Gradient(fa: LinearFA, s: States.State, a: Actions.Action): (r: Graded)
    requires Valid(fa.cp) && (Hit(fa, s, a) || Tiles.Accepts(fa.cp.tiles, s.vec))
    ensures Valid(r.fa.cp) && Grown(fa, r.fa)
    ensures r.fa.weights == fa.weights && r.fa.value == fa.value
    ensures Hit(fa, s, a) && |fa.gradient| > 0 ==> r == Graded(fa.gradient, fa)
    ensures Hit(fa, s, a) && |fa.gradient| == 0 ==>
              r.fa.cp == fa.cp && r.fa.features == fa.features && r.gradient == GradientOf(fa.features)
    ensures !Hit(fa, s, a) ==>
              r.fa.cp == Features(fa.cp, s, a).cp && r.fa.features == Features(fa.cp, s, a).features
              && r.gradient == GradientOf(r.fa.features)
    ensures !(Hit(fa, s, a) && |fa.gradient| > 0) ==> r.fa.gradient == r.gradient && r.fa.last == Some(MemoKey(s, a))
  {
    if Hit(fa, s, a) && |fa.gradient| > 0 then Graded(fa.gradient, fa)
    else
      var c := if Hit(fa, s, a) then CrossCoded(fa.features, fa.cp) else Features(fa.cp, s, a);
      var g := GradientOf(c.features);
      Graded(g, fa.(cp := c.cp, gradient := g, last := Some(MemoKey(s, a)), features := c.features))
  }

  /**
   The memo is consistent: its pair is present, its features are that
   pair's, and its gradient is empty or the gradient of those features.
   */
  ghost predicate MemoSound(fa: LinearFA)
    requires Valid(fa.cp)
  {
    fa.last.Some? ==>
      && Tiles.Accepts(fa.cp.tiles, fa.last.value.state.vec)
      && Present(fa.cp, fa.last.value.state, fa.last.value.action)
      && fa.features == Peek(fa.cp, fa.last.value.state, fa.last.value.action)
      && (fa.gradient == map[] || fa.gradient == GradientOf(fa.features))
  }

  /** A new approximator has a sound memo, and `evaluate` leaves a sound one. */
  lemma EvaluateMemoSound(fa: LinearFA, s: States.State, a: Actions.Action)
    requires Valid(fa.cp) && Tiles.Accepts(fa.cp.tiles, s.vec)
    ensures MemoSound(Evaluate(fa, s, a).fa)
  {
    EvaluateThenKnown(fa, s, a);
  }

  /**
   With a sound memo, `gradient(s, a)` is the gradient of the features of
   (s, a) (each id mapped to 1) whenever a memo hit is for an action of the
   same number; the memo stays sound.
   */
  lemma GradientSound(fa: LinearFA, s: States.State, a: Actions.Action, r: Graded)
    requires Valid(fa.cp) && MemoSound(fa) && Tiles.Accepts(fa.cp.tiles, s.vec)
    requires Hit(fa, s, a) ==> fa.last.value.action.num == a.num
    requires r == Gradient(fa, s, a)
    ensures Tiles.Accepts(r.fa.cp.tiles, s.vec)
    ensures Present(r.fa.cp, s, a)
    ensures r.gradient == GradientOf(Peek(r.fa.cp, s, a))
    ensures r.gradient.Keys == Ids(Peek(r.fa.cp, s, a))
    ensures forall id :: id in r.gradient ==> r.gradient[id] == 1.0
    ensures MemoSound(r.fa)
  {
    if Hit(fa, s, a) {
      assert fa.last.value == MemoKey(s, a);
      assert r.fa.cp == fa.cp && r.fa.features == fa.features;
      assert r.gradient == GradientOf(fa.features);
    } else {
      FeaturesThenPresent(fa.cp, s, a);
      PeekIsFeatures(fa.cp, s, a, r.fa.cp, r.fa.features);
    }
    GradientOfFeatures(r.fa.cp, s, a, r.gradient);
  }

  /** After `features` on a pair not yet present, reading the pair gives the features returned. */
  lemma PeekIsFeatures(cp: CrossProduct, s: States.State, a: Actions.Action, cp': CrossProduct, fs: seq<StateFeature>)
    requires Valid(cp) && Tiles.Accepts(cp.tiles, s.vec)
    requires cp' == Features(cp, s, a).cp && fs == Features(cp, s, a).features
    ensures Valid(cp') && Tiles.Accepts(cp'.tiles, s.vec) && Present(cp', s, a) && Peek(cp', s, a) == fs
  {
    FeaturesThenPresent(cp, s, a);
  }

  /** The gradient of a present pair's features maps exactly their ids, each to 1. */
  lemma GradientOfFeatures(cp: CrossProduct, s: States.State, a: Actions.Action, g: map<int, real>)
    requires Valid(cp) && Tiles.Accepts(cp.tiles, s.vec) && Present(cp, s, a)
    requires g == GradientOf(Peek(cp, s, a))
    ensures g.Keys == Ids(Peek(cp, s, a))
    ensures forall id :: id in g ==> g[id] == 1.0
  {
    var fs := Peek(cp, s, a);
    FeaturesWhenPresent(cp, s, a);
    var f := Features(cp, s, a);
    assert f.features == fs;
    GradientOfUnit(fs, g);
  }

  /** Distinct ids, each of value 1, give a gradient of 1 at every id. */
  lemma GradientOfUnit(fs: seq<StateFeature>, g: map<int, real>)
    requires forall i, j :: 0 <= i < j < |fs| ==> fs[i].id != fs[j].id
    requires forall i :: 0 <= i < |fs| ==> fs[i].value == 1.0
    requires g == GradientOf(fs)
    ensures forall id :: id in g ==> g[id] == 1.0
  {
    GradientOfDistinct(fs);
    forall id | id in g ensures g[id] == 1.0 {
      var i :| 0 <= i < |fs| && fs[i].id == id;
    }
  }

  /**
   The memo compares actions by name while ids are keyed by number: after
   `evaluate(s, a1)`, `gradient(s, a2)` for an action of the same name but
   another number returns `a1`'s gradient, whose ids are all outside the
   features `a2` would get, and remaps nothing for `a2`.
   */
  lemma MemoNameQuirk(fa: LinearFA, s: States.State, a1: Actions.Action, a2: Actions.Action, e: LinearFA, g: Graded)
    requires Valid(fa.cp) && Tiles.Accepts(fa.cp.tiles, s.vec)
    requires a1.name == a2.name && a1.num != a2.num
    requires e == Evaluate(fa, s, a1).fa && g == Gradient(e, s, a2)
    ensures Hit(e, s, a2)
    ensures g.gradient == GradientOf(e.features)
    ensures g.fa.cp == e.cp
    ensures Tiles.Accepts(e.cp.tiles, s.vec)
    ensures forall id :: id in g.gradient ==> id !in Ids(Features(e.cp, s, a2).features)
  {
    EvaluateThenKnown(fa, s, a1);
    QuirkGradient(e, s, a1, a2, g);
  }

  /** The gradient half of the quirk, from what `evaluate(s, a1)` leaves in the memo. */
  lemma QuirkGradient(e: LinearFA, s: States.State, a1: Actions.Action, a2: Actions.Action, g: Graded)
    requires Valid(e.cp) && Tiles.Accepts(e.cp.tiles, s.vec) && Present(e.cp, s, a1)
    requires a1.name == a2.name && a1.num != a2.num
    requires e.last == Some(MemoKey(s, a1)) && e.gradient == map[] && e.features == Peek(e.cp, s, a1)
    requires g == Gradient(e, s, a2)
    ensures Hit(e, s, a2)
    ensures g.gradient == GradientOf(e.features)
    ensures g.fa.cp == e.cp
    ensures forall id :: id in g.gradient ==> id !in Ids(Features(e.cp, s, a2).features)
  {
    assert Hit(e, s, a2);
    OtherActionDisjoint(e.cp, s, a1, a2);
  }

  /** The ids of a present pair are outside the features of the same state under an action of another number. */
  lemma OtherActionDisjoint(cp: CrossProduct, s: States.State, a1: Actions.Action, a2: Actions.Action)
    requires Valid(cp) && Tiles.Accepts(cp.tiles, s.vec) && Present(cp, s, a1) && a1.num != a2.num
    ensures Ids(Peek(cp, s, a1)) !! Ids(Features(cp, s, a2).features)
  {
    var f2 := Features(cp, s, a2);
    FeaturesThenPresent(cp, s, a2);
    PeekStable(cp, f2.cp, s, a1);
    ActionsDisjoint(f2.cp, s, a1, s, a2);
    var p1 := Peek(cp, s, a1);
    var p2 := Peek(f2.cp, s, a2);
    forall id | id in Ids(p1) ensures id !in Ids(f2.features) {
      var i :| 0 <= i < |p1| && p1[i].id == id;
      assert Peek(f2.cp, s, a1)[i].id == id;
    }
  }

  /** `num_param`: the number of weights stored. */
  function NumParam(fa: LinearFA): nat {
    |fa.weights|
  }

  /**
   `reset_params`: every weight is forgotten, so the next `get_weight` of
   any id gives the default; remapper, default weight and memo are kept.
   */
  function ResetParams(fa: LinearFA): (r: LinearFA)
    ensures NumParam(r) == 0
    ensures r == fa.(weights := r.weights)
    ensures forall id :: GetWeight(r, id).w == fa.defaultWeight
  {
    fa.(weights := map[])
  }
}

=== FILE: state.dfy ===
/**
 An environment state, seen through its real-vector view. Two states are
 equal when their vectors are equal (state.hpp:40-42); printing writes the
 components separated by commas (state.hpp:45-51).
 */
module States {
  import Text

  /** A state is identified with the vector its `to_vec` returns. */
  datatype State = State(vec: seq<real>)

  /** State equality: the two vectors have the same length and the same entries. */
  predicate Same(a: State, b: State) {
    a.vec == b.vec
  }

  /** Vector equality is an equivalence relation and coincides with model equality. */
  lemma SameIsEquivalence(a: State, b: State, c: State)
    ensures Same(a, a)
    ensures Same(a, b) <==> Same(b, a)
    ensures Same(a, b) && Same(b, c) ==> Same(a, c)
    ensures Same(a, b) <==> a == b
  {
  }

  /** The printed form of each component, `show` standing for the stream's number format. */
  function Components(s: State, show: real -> string): (r: seq<string>)
    ensures |r| == |s.vec|
    ensures forall i :: 0 <= i < |r| ==> r[i] == show(s.vec[i])
  {
    seq(|s.vec|, i requires 0 <= i < |s.vec| => show(s.vec[i]))
  }

  /** The printed state: components joined by commas, no trailing comma; needs a non-empty vector. */
  function Format(s: State, show: real -> string): string
    requires |s.vec| > 0
  {
    Text.Join(Components(s, show), ',')
  }

  /** Reading the printed state back field by field yields one field per component. */
  lemma FormatFields(s: State, show: real -> string)
    requires |s.vec| > 0
    requires forall x :: ',' !in show(x)
    ensures Text.Split(Format(s, show), ',') == Components(s, show)
    ensures |Text.Split(Format(s, show), ',')| == |s.vec|
  {
    var parts := Components(s, show);
    forall i | 0 <= i < |parts| ensures ',' !in parts[i] {
      var x := s.vec[i];
      assert ',' !in show(x);
    }
    Text.SplitJoin(parts, ',');
  }

  /** The printed state contains a character other than the comma only if some component does. */
  lemma FormatAvoids(s: State, show: real -> string, c: char)
    requires |s.vec| > 0
    requires c != ','
    requires forall x :: c !in show(x)
    ensures c !in Format(s, show)
  {
    var parts := Components(s, show);
    forall i | 0 <= i < |parts| ensures c !in parts[i] {
      var x := s.vec[i];
      assert c !in show(x);
    }
    Text.JoinAvoids(parts, ',', c);
  }
}

=== FILE: text.dfy ===
/**
 Separator-joined text, as produced by the stream printers of states and
 environment outcomes: the parts are written with one separator between
 consecutive parts and none after the last.
 */
module Text {

  /** True iff no part contains the separator character. */
  predicate NoSeparator(parts: seq<string>, sep: char) {
    forall i :: 0 <= i < |parts| ==> sep !in parts[i]
  }

  /** The parts joined by `sep`, without a trailing separator. */
  function Join(parts: seq<string>, sep: char): string
    requires |parts| > 0
  {
    if |parts| == 1 then parts[0] else parts[0] + [sep] + Join(parts[1..], sep)
  }

  /** Splits `s` at every occurrence of `sep`; the reference reading of joined text. */
  function Split(s: string, sep: char): (r: seq<string>)
    ensures |r| > 0
    decreases |s|
  {
    if |s| == 0 then [""]
    else
      var rest := Split(s[1..], sep);
      if s[0] == sep then [""] + rest
      else [[s[0]] + rest[0]] + rest[1..]
  }

  /** A separator-free piece followed by a separator starts a new field. */
  lemma {:induction false} SplitPiece(p: string, sep: char, rest: string)
    requires sep !in p
    ensures Split(p + [sep] + rest, sep) == [p] + Split(rest, sep)
    decreases |p|
  {
    if |p| == 0 {
      assert p + [sep] + rest == [sep] + rest;
      assert ([sep] + rest)[1..] == rest;
    } else {
      var s := p + [sep] + rest;
      assert s[0] == p[0];
      assert s[1..] == p[1..] + [sep] + rest;
      SplitPiece(p[1..], sep, rest);
      assert [p[0]] + p[1..] == p;
    }
  }

  /** A separator-free string is a single field. */
  lemma {:induction false} SplitSingle(p: string, sep: char)
    requires sep !in p
    ensures Split(p, sep) == [p]
    decreases |p|
  {
    if |p| > 0 {
      SplitSingle(p[1..], sep);
      assert [p[0]] + p[1..] == p;
    }
  }

  /** Joining and splitting again recovers the parts when none contains the separator. */
  lemma {:induction false} SplitJoin(parts: seq<string>, sep: char)
    requires |parts| > 0
    requires NoSeparator(parts, sep)
    ensures Split(Join(parts, sep), sep) == parts
    decreases |parts|
  {
    if |parts| == 1 {
      SplitSingle(parts[0], sep);
    } else {
      SplitJoin(parts[1..], sep);
      SplitPiece(parts[0], sep, Join(parts[1..], sep));
      assert [parts[0]] + parts[1..] == parts;
    }
  }

  /** The joined text ends with the last part: there is no trailing separator. */
  lemma {:induction false} JoinEndsWithLast(parts: seq<string>, sep: char)
    requires |parts| > 0
    ensures |Join(parts, sep)| >= |parts[|parts| - 1]|
    ensures Join(parts, sep)[|Join(parts, sep)| - |parts[|parts| - 1]|..] == parts[|parts| - 1]
    decreases |parts|
  {
    if |parts| > 1 {
      JoinEndsWithLast(parts[1..], sep);
      var tail := Join(parts[1..], sep);
      var last := parts[|parts| - 1];
      assert parts[1..][|parts[1..]| - 1] == last;
      var whole := parts[0] + [sep] + tail;
      assert whole[|whole| - |last|..] == tail[|tail| - |last|..];
    }
  }

  /** A character other than the separator occurs in the joined text only if it occurs in a part. */
  lemma {:induction false} JoinAvoids(parts: seq<string>, sep: char, c: char)
    requires |parts| > 0
    requires c != sep
    requires NoSeparator(parts, c)
    ensures c !in Join(parts, sep)
    decreases |parts|
  {
    if |parts| > 1 {
      JoinAvoids(parts[1..], sep, c);
      assert c !in parts[0];
      assert Join(parts, sep) == parts[0] + [sep] + Join(parts[1..], sep);
    }
  }
}

=== FILE: tilecoding.dfy ===
/**
 Tile coding (tilecoding.cpp, tilecoding.hpp): several offset grids
 ("tilings") quantise a real vector; each tiling has a table from tiles to
 feature ids, and all tables mint ids from one shared counter.
 */
module Tiles {
  import IdAlloc

  /** A feature id and its influence; tile coding always produces influence 1. */
  datatype StateFeature = StateFeature(id: int, value: real)

  /** A grid cell: its coordinates and a hash of the active ones. */
  datatype Tile = Tile(coords: seq<int>, hash: int)

  /** Cell widths, the tiling's offset, and which dimensions take part. */
  datatype Tiling = Tiling(widths: seq<real>, offset: seq<real>, mask: seq<bool>)

  /**
   How a tile table identifies a tile. `ByHash` is what the source's
   `std::map<Tile, int>` does, since `Tile::operator<` compares hashes only;
   `ByCoords` identifies tiles by their coordinates, as `Tile::operator==`
   intends.
   */
  datatype KeyMode = ByHash | ByCoords

  datatype TileKey = HashKey(h: int) | CoordKey(c: seq<int>)

  /**
   The tile coder: its tilings, one tile table per tiling (indexed by the
   tiling's position) and the shared next feature id.
   */
  datatype TileCoding = TileCoding(
    mode: KeyMode,
    tilings: seq<Tiling>,
    tables: map<int, map<TileKey, int>>,
    next: int)

  // ---------------------------------------------------------------- Tile

  /** The hash: the left fold h := 31 * h + coords[i] from 0, over masked positions only. */
  function HashOf(coords: seq<int>, mask: seq<bool>): int
    requires |coords| <= |mask|
    decreases |coords|
  {
    if |coords| == 0 then 0
    else
      var h := HashOf(coords[..|coords| - 1], mask);
      if mask[|coords| - 1] then 31 * h + coords[|coords| - 1] else h
  }

  /** The hash reads the masked coordinates only. */
  lemma {:induction false} HashIgnoresUnmasked(c1: seq<int>, c2: seq<int>, mask: seq<bool>)
    requires |c1| == |c2| <= |mask|
    requires forall i :: 0 <= i < |c1| && mask[i] ==> c1[i] == c2[i]
    ensures HashOf(c1, mask) == HashOf(c2, mask)
    decreases |c1|
  {
    if |c1| > 0 {
      var n := |c1| - 1;
      HashIgnoresUnmasked(c1[..n], c2[..n], mask);
    }
  }

  /** With no active dimension the hash is 0, whatever the coordinates. */
  lemma {:induction false} HashOfInactive(coords: seq<int>, mask: seq<bool>)
    requires |coords| <= |mask|
    requires forall i :: 0 <= i < |coords| ==> !mask[i]
    ensures HashOf(coords, mask) == 0
    decreases |coords|
  {
    if |coords| > 0 {
      HashOfInactive(coords[..|coords| - 1], mask);
    }
  }

  /** Distinct coordinate vectors can share a hash: [0, 31] and [1, 0] both hash to 31. */
  lemma HashCollision()
    ensures HashOf([0, 31], [true, true]) == HashOf([1, 0], [true, true]) == 31
  {
    assert [0, 31][..1] == [0];
    assert [1, 0][..1] == [1];
    assert [0][..0] == [] && [1][..0] == [];
  }

  /** `Tile::operator<`: compares hashes only. */
  predicate TileLess(a: Tile, b: Tile) {
    a.hash < b.hash
  }

  /** `Tile::operator==`: equal length, then equal entries; the hash is not consulted. */
  method TilesEqual(a: Tile, b: Tile) returns (eq: bool)
    ensures eq <==> a.coords == b.coords
  {
    if |a.coords| != |b.coords| {
      return false;
    }
    var i := 0;
    while i < |a.coords|
      invariant 0 <= i <= |a.coords|
      invariant a.coords[..i] == b.coords[..i]
    {
      if a.coords[i] != b.coords[i] {
        return false;
      }
      i := i + 1;
    }
    assert a.coords == a.coords[..i] && b.coords == b.coords[..i];
    return true;
  }

  /** The key under which a table files a tile. */
  function KeyOf(mode: KeyMode, t: Tile): TileKey {
    match mode
    case ByHash => HashKey(t.hash)
    case ByCoords => CoordKey(t.coords)
  }

  /**
   Under the source's keying, two tiles are one key exactly when neither is
   `<` the other, i.e. when their hashes agree; under coordinate keying,
   exactly when `==` holds.
   */
  lemma KeyIdentity(a: Tile, b: Tile)
    ensures KeyOf(ByHash, a) == KeyOf(ByHash, b) <==> !TileLess(a, b) && !TileLess(b, a)
    ensures KeyOf(ByCoords, a) == KeyOf(ByCoords, b) <==> a.coords == b.coords
  {
  }

  // ---------------------------------------------------------------- Tiling

  /** Widths, offset and mask have one entry per dimension; active widths are non-zero. */
  predicate WellFormed(t: Tiling) {
    && |t.widths| == |t.offset| == |t.mask|
    && (forall i :: 0 <= i < |t.mask| && t.mask[i] ==> t.widths[i] != 0.0)
  }

  /** The two-argument constructor: every dimension active. */
  function AllActive(widths: seq<real>, offset: seq<real>): (t: Tiling)
    ensures t.widths == widths && t.offset == offset
    ensures |t.mask| == |widths|
    ensures forall i :: 0 <= i < |t.mask| ==> t.mask[i]
  {
    Tiling(widths, offset, seq(|widths|, i => true))
  }

  /** The tiling can quantise an input of `n` components without reading past its vectors. */
  predicate Covers(t: Tiling, n: int) {
    && n <= |t.mask| && n <= |t.offset| && n <= |t.widths|
    && (forall i :: 0 <= i < n && t.mask[i] ==> t.widths[i] != 0.0)
  }

  /** The coordinate of `x` on a grid of width `w` shifted by `o`. */
  function Coordinate(x: real, o: real, w: real): int
    requires w != 0.0
  {
    ((x - o) / w).Floor
  }

  /** The cell of a coordinate contains the quantised value. */
  lemma CellContains(x: real, o: real, w: real)
    requires w != 0.0
    ensures w > 0.0 ==> o + Coordinate(x, o, w) as real * w <= x < o + (Coordinate(x, o, w) + 1) as real * w
    ensures w < 0.0 ==> o + (Coordinate(x, o, w) + 1) as real * w < x <= o + Coordinate(x, o, w) as real * w
  {
    var q := (x - o) / w;
    var k := Coordinate(x, o, w);
    assert k == q.Floor;
    Edges(x - o, q, w, k as real, (k + 1) as real);
  }

  /** Scaling lo <= d / w < hi back by w. */
  lemma Edges(d: real, q: real, w: real, lo: real, hi: real)
    requires w != 0.0 && q == d / w && lo <= q < hi
    ensures w > 0.0 ==> lo * w <= d < hi * w
    ensures w < 0.0 ==> hi * w < d <= lo * w
  {
    assert d == q * w;
    if w > 0.0 {
      MulLe(lo, q, w);
      MulPos(q, hi, w);
    } else {
      MulGe(lo, q, w);
      MulNeg(q, hi, w);
    }
  }

  lemma MulLe(a: real, b: real, w: real)
    requires a <= b && w > 0.0
    ensures a * w <= b * w
  {
  }

  lemma MulGe(a: real, b: real, w: real)
    requires a <= b && w < 0.0
    ensures b * w <= a * w
  {
  }

  lemma MulPos(a: real, b: real, w: real)
    requires a < b && w > 0.0
    ensures a * w < b * w
  {
  }

  lemma MulNeg(a: real, b: real, w: real)
    requires a < b && w < 0.0
    ensures b * w < a * w
  {
  }

  /**
   `get_tile`: one coordinate per input component; an active dimension gets
   the index of its grid cell, an inactive one gets 0.
   */
  function GetTile(t: Tiling, input: seq<real>): (r: Tile)
    requires Covers(t, |input|)
    ensures |r.coords| == |input|
  {
    var coords := seq(|input|, i requires 0 <= i < |input| =>
                        if t.mask[i] then Coordinate(input[i], t.offset[i], t.widths[i]) else 0);
    Tile(coords, HashOf(coords, t.mask))
  }

  /**
   The tile's cells contain the input: on an active dimension of positive
   width w, offset + c * w <= x < offset + (c + 1) * w (mirrored for a
   negative width); an inactive dimension's coordinate is 0; the hash is
   that of the coordinates under the tiling's mask.
   */
  lemma GetTileCells(t: Tiling, input: seq<real>)
    requires Covers(t, |input|)
    ensures forall i :: 0 <= i < |input| && !t.mask[i] ==> GetTile(t, input).coords[i] == 0
    ensures forall i :: 0 <= i < |input| && t.mask[i] && t.widths[i] > 0.0 ==>
              t.offset[i] + GetTile(t, input).coords[i] as real * t.widths[i] <= input[i]
              < t.offset[i] + (GetTile(t, input).coords[i] + 1) as real * t.widths[i]
    ensures forall i :: 0 <= i < |input| && t.mask[i] && t.widths[i] < 0.0 ==>
              t.offset[i] + (GetTile(t, input).coords[i] + 1) as real * t.widths[i] < input[i]
              <= t.offset[i] + GetTile(t, input).coords[i] as real * t.widths[i]
    ensures GetTile(t, input).hash == HashOf(GetTile(t, input).coords, t.mask)
  {
    var coords := GetTile(t, input).coords;
    forall i | 0 <= i < |input| && t.mask[i]
      ensures t.widths[i] > 0.0 ==>
                t.offset[i] + coords[i] as real * t.widths[i] <= input[i]
                < t.offset[i] + (coords[i] + 1) as real * t.widths[i]
      ensures t.widths[i] < 0.0 ==>
                t.offset[i] + (coords[i] + 1) as real * t.widths[i] < input[i]
                <= t.offset[i] + coords[i] as real * t.widths[i]
    {
      assert coords[i] == Coordinate(input[i], t.offset[i], t.widths[i]);
      CellContains(input[i], t.offset[i], t.widths[i]);
    }
  }

  /** Inputs that agree on the active dimensions fall into the same tile. */
  lemma GetTileIgnoresInactive(t: Tiling, x: seq<real>, y: seq<real>)
    requires |x| == |y| && Covers(t, |x|)
    requires forall i :: 0 <= i < |x| && t.mask[i] ==> x[i] == y[i]
    ensures GetTile(t, x) == GetTile(t, y)
  {
    var a := GetTile(t, x);
    var b := GetTile(t, y);
    assert a.coords == b.coords;
  }

  // ---------------------------------------------------------------- TileCoding

  /**
   The coder's invariant: one table per tiling, at the tiling's position;
   well-formed tilings; and ids that are below the counter and pairwise
   distinct across all tables.
   */
  ghost predicate Valid(tc: TileCoding) {
    && (forall i :: i in tc.tables <==> 0 <= i < |tc.tilings|)
    && (forall i :: 0 <= i < |tc.tilings| ==> WellFormed(tc.tilings[i]))
    && IdAlloc.Fresh(tc.tables, tc.next)
  }

  /** A new coder: no tilings, counter at 0. */
  function New(mode: KeyMode): (tc: TileCoding)
    ensures Valid(tc) && tc.mode == mode
    ensures |tc.tilings| == 0 && NumFeatures(tc) == 0
  {
    TileCoding(mode, [], map[], 0)
  }

  /** `num_features`: the counter, an upper bound on every id handed out. */
  function NumFeatures(tc: TileCoding): int {
    tc.next
  }

  /** Every stored id lies below `num_features`, and distinct entries hold distinct ids. */
  lemma NumFeaturesBound(tc: TileCoding, i: int, j: int, k1: TileKey, k2: TileKey)
    requires Valid(tc)
    requires 0 <= i < |tc.tilings| && 0 <= j < |tc.tilings|
    requires k1 in tc.tables[i] && k2 in tc.tables[j]
    ensures 0 <= tc.tables[i][k1] < NumFeatures(tc)
    ensures (i, k1) != (j, k2) ==> tc.tables[i][k1] != tc.tables[j][k2]
  {
    IdAlloc.Unique(tc.tables, tc.next, i, k1, j, k2);
  }

  /** The number of active entries of a mask. */
  function ActiveCount(mask: seq<bool>): nat
    decreases |mask|
  {
    if |mask| == 0 then 0 else (if mask[0] then 1 else 0) + ActiveCount(mask[1..])
  }

  /**
   `rand_offset`: one value per mask dimension; `u` holds the uniform draws
   in [0, 1), one per active dimension, consumed in dimension order. An
   active dimension's offset is its draw scaled by its width, an inactive
   one's is 0 and takes no draw.
   */
  function RandOffset(mask: seq<bool>, widths: seq<real>, u: seq<real>): (r: seq<real>)
    requires |widths| >= |mask| && |u| == ActiveCount(mask)
    requires forall i :: 0 <= i < |u| ==> 0.0 <= u[i] < 1.0
    ensures |r| == |mask|
    ensures forall i :: 0 <= i < |mask| && !mask[i] ==> r[i] == 0.0
    ensures forall i :: 0 <= i < |mask| && mask[i] && widths[i] > 0.0 ==> 0.0 <= r[i] < widths[i]
    ensures forall i :: 0 <= i < |mask| && mask[i] && widths[i] < 0.0 ==> widths[i] < r[i] <= 0.0
  {
    var r := seq(|mask|, i requires 0 <= i < |mask| =>
                   if mask[i] then (RankBelow(mask, i); u[ActiveCount(mask[..i])] * widths[i]) else 0.0);
    forall i | 0 <= i < |mask| && mask[i]
      ensures widths[i] > 0.0 ==> 0.0 <= r[i] < widths[i]
      ensures widths[i] < 0.0 ==> widths[i] < r[i] <= 0.0
    {
      RankBelow(mask, i);
      var d := u[ActiveCount(mask[..i])];
      assert r[i] == d * widths[i];
      ScaledDraw(d, widths[i]);
    }
    r
  }

  /** An active dimension's draw index, the count of active dimensions before it, is a valid index. */
  lemma RankBelow(mask: seq<bool>, i: int)
    requires 0 <= i < |mask| && mask[i]
    ensures ActiveCount(mask[..i]) < ActiveCount(mask)
  {
    DrawsInOrder(mask, i, |mask|);
    assert mask[..|mask|] == mask;
  }

  /**
   The draws go one to one to the active dimensions, in order: the count of
   active dimensions before a position grows past every active dimension,
   so a later active dimension takes a later draw and none shares one.
   */
  lemma {:induction false} DrawsInOrder(mask: seq<bool>, i: int, j: int)
    requires 0 <= i < j <= |mask| && mask[i]
    ensures ActiveCount(mask[..i]) < ActiveCount(mask[..j])
    decreases i
  {
    if i == 0 {
      assert mask[..j][1..] == mask[1..j];
    } else {
      DrawsInOrder(mask[1..], i - 1, j - 1);
      assert mask[..i][1..] == mask[1..][..i - 1];
      assert mask[..j][1..] == mask[1..][..j - 1];
    }
  }

  lemma ScaledDraw(u: real, w: real)
    requires 0.0 <= u < 1.0
    ensures w > 0.0 ==> 0.0 <= u * w < w
    ensures w < 0.0 ==> w < u * w <= 0.0
  {
    if w > 0.0 {
      assert u * w < 1.0 * w;
    } else if w < 0.0 {
      assert 1.0 * w < u * w;
    }
  }

  /** The draws for `count` new tilings: one vector of uniforms in [0, 1) per tiling, one per active dimension. */
  predicate DrawsFor(draws: seq<seq<real>>, count: int, dims: int) {
    && |draws| == (if count < 0 then 0 else count)
    && (forall k :: 0 <= k < |draws| ==> |draws[k]| == dims)
    && (forall k, i :: 0 <= k < |draws| && 0 <= i < |draws[k]| ==> 0.0 <= draws[k][i] < 1.0)
  }

  /** The masks and widths `add_tiling` accepts: one width per mask entry, non-zero where active. */
  predicate Shape(mask: seq<bool>, widths: seq<real>) {
    && |widths| == |mask|
    && (forall i :: 0 <= i < |mask| && mask[i] ==> widths[i] != 0.0)
  }

  /**
   `add_tiling(mask, widths, count)`: appends `count` tilings with the given
   mask and widths and a drawn offset each, and one empty table per new
   tiling; existing tilings, tables and the counter are untouched.
   */
  function AddTiling(tc: TileCoding, mask: seq<bool>, widths: seq<real>, count: int,
                     draws: seq<seq<real>>): (r: TileCoding)
    requires Valid(tc) && Shape(mask, widths) && DrawsFor(draws, count, ActiveCount(mask))
    ensures Valid(r) && r.mode == tc.mode && r.next == tc.next
    ensures |r.tilings| == |tc.tilings| + |draws|
    ensures r.tilings[..|tc.tilings|] == tc.tilings
    ensures forall k :: 0 <= k < |draws| ==>
              r.tilings[|tc.tilings| + k] == Tiling(widths, RandOffset(mask, widths, draws[k]), mask)
    ensures forall i :: 0 <= i < |tc.tilings| ==> r.tables[i] == tc.tables[i]
    ensures forall i :: |tc.tilings| <= i < |r.tilings| ==> r.tables[i] == map[]
    decreases |draws|
  {
    if |draws| == 0 then tc
    else
      var n := |tc.tilings|;
      var tiling := Tiling(widths, RandOffset(mask, widths, draws[0]), mask);
      var tc1 := tc.(tilings := tc.tilings + [tiling], tables := tc.tables[n := map[]]);
      AddOneValid(tc, tiling);
      var r := AddTiling(tc1, mask, widths, count - 1, draws[1..]);
      AddTilingRest(tc, mask, widths, count, draws, tc1, r);
      r
  }

  /** Appending a well-formed tiling with an empty table keeps the coder valid. */
  lemma AddOneValid(tc: TileCoding, tiling: Tiling)
    requires Valid(tc) && WellFormed(tiling)
    ensures Valid(tc.(tilings := tc.tilings + [tiling], tables := tc.tables[|tc.tilings| := map[]]))
  {
    var n := |tc.tilings|;
    var tc1 := tc.(tilings := tc.tilings + [tiling], tables := tc.tables[n := map[]]);
    forall i, k | i in tc1.tables && k in tc1.tables[i] ensures i in tc.tables && k in tc.tables[i] {
    }
    forall i, j, k1, k2 | i in tc1.tables && j in tc1.tables && k1 in tc1.tables[i] && k2 in tc1.tables[j]
      ensures tc1.tables[i][k1] == tc1.tables[j][k2] ==> i == j && k1 == k2
    {
      IdAlloc.Unique(tc.tables, tc.next, i, k1, j, k2);
    }
    assert forall i :: 0 <= i < |tc1.tilings| ==> WellFormed(tc1.tilings[i]);
  }

  /** The remaining draws, added after the first new tiling, give what all of them promise. */
  lemma AddTilingRest(tc: TileCoding, mask: seq<bool>, widths: seq<real>, count: int, draws: seq<seq<real>>,
                      tc1: TileCoding, r: TileCoding)
    requires Valid(tc) && Shape(mask, widths) && DrawsFor(draws, count, ActiveCount(mask)) && |draws| > 0
    requires tc1 == tc.(tilings := tc.tilings + [Tiling(widths, RandOffset(mask, widths, draws[0]), mask)],
                        tables := tc.tables[|tc.tilings| := map[]])
    requires Valid(tc1) && DrawsFor(draws[1..], count - 1, ActiveCount(mask))
    requires Valid(r) && r.mode == tc1.mode && r.next == tc1.next
    requires |r.tilings| == |tc1.tilings| + |draws[1..]|
    requires r.tilings[..|tc1.tilings|] == tc1.tilings
    requires forall k :: 0 <= k < |draws[1..]| ==>
               r.tilings[|tc1.tilings| + k] == Tiling(widths, RandOffset(mask, widths, draws[1..][k]), mask)
    requires forall i :: 0 <= i < |tc1.tilings| ==> r.tables[i] == tc1.tables[i]
    requires forall i :: |tc1.tilings| <= i < |r.tilings| ==> r.tables[i] == map[]
    ensures Valid(r) && r.mode == tc.mode && r.next == tc.next
    ensures |r.tilings| == |tc.tilings| + |draws|
    ensures r.tilings[..|tc.tilings|] == tc.tilings
    ensures forall k :: 0 <= k < |draws| ==>
              r.tilings[|tc.tilings| + k] == Tiling(widths, RandOffset(mask, widths, draws[k]), mask)
    ensures forall i :: 0 <= i < |tc.tilings| ==> r.tables[i] == tc.tables[i]
    ensures forall i :: |tc.tilings| <= i < |r.tilings| ==> r.tables[i] == map[]
  {
    var n := |tc.tilings|;
    assert r.tilings[..n] == r.tilings[..n + 1][..n];
    forall k | 0 <= k < |draws|
      ensures r.tilings[n + k] == Tiling(widths, RandOffset(mask, widths, draws[k]), mask)
    {
      if k == 0 {
        assert r.tilings[n] == r.tilings[..n + 1][n];
      } else {
        assert draws[1..][k - 1] == draws[k];
      }
    }
    forall i | 0 <= i < n ensures r.tables[i] == tc.tables[i] {
      assert r.tables[i] == tc1.tables[i];
    }
  }

  /** Every tiling can quantise an input of this length. */
  predicate Accepts(tc: TileCoding, input: seq<real>) {
    forall i :: 0 <= i < |tc.tilings| ==> Covers(tc.tilings[i], |input|)
  }

  /** The key of the tile `input` falls into in tiling `i`. */
  function Key(tc: TileCoding, i: int, input: seq<real>): TileKey
    requires 0 <= i < |tc.tilings| && Covers(tc.tilings[i], |input|)
  {
    KeyOf(tc.mode, GetTile(tc.tilings[i], input))
  }

  /** The keys of the input's tiles, one per tiling, in tiling order. */
  function Keys(tc: TileCoding, input: seq<real>): (ks: seq<TileKey>)
    requires Accepts(tc, input)
    ensures |ks| == |tc.tilings|
    ensures forall i :: 0 <= i < |ks| ==> ks[i] == Key(tc, i, input)
  {
    seq(|tc.tilings|, i requires 0 <= i < |tc.tilings| => Key(tc, i, input))
  }

  /** The number of tilings among the first `n` whose table lacks its key. */
  function Missing(tc: TileCoding, ks: seq<TileKey>, n: int): nat
    requires Valid(tc) && |ks| == |tc.tilings| && 0 <= n <= |ks|
    decreases n
  {
    if n == 0 then 0
    else Missing(tc, ks, n - 1) + (if ks[n - 1] in tc.tables[n - 1] then 0 else 1)
  }

  /** `tc'` has the same tilings and keying, keeps every table entry, and its counter has not gone back. */
  predicate Grows(tc: TileCoding, tc': TileCoding) {
    && tc'.mode == tc.mode
    && tc'.tilings == tc.tilings
    && IdAlloc.Extends(tc.tables, tc'.tables)
    && tc.next <= tc'.next
  }

  lemma GrowsTransitive(a: TileCoding, b: TileCoding, c: TileCoding)
    requires Grows(a, b) && Grows(b, c)
    ensures Grows(a, c)
  {
  }

  datatype Coded = Coded(features: seq<StateFeature>, coding: TileCoding)

  /** One pass of the `features` loop: tiling `i` looks `key` up in its table, minting when absent. */
  function Step(c: Coded, i: int, key: TileKey): (r: Coded)
    requires Valid(c.coding) && 0 <= i < |c.coding.tilings|
    ensures Valid(r.coding) && Grows(c.coding, r.coding)
    ensures |r.features| == |c.features| + 1 && r.features[..|c.features|] == c.features
    ensures r.features[|c.features|].value == 1.0
    ensures key in r.coding.tables[i] && r.coding.tables[i][key] == r.features[|c.features|].id
    ensures forall j :: 0 <= j < |c.coding.tilings| && j != i ==> r.coding.tables[j] == c.coding.tables[j]
    ensures r.coding.next == c.coding.next + (if key in c.coding.tables[i] then 0 else 1)
    ensures key !in c.coding.tables[i] ==> r.features[|c.features|].id == c.coding.next
    ensures key in c.coding.tables[i] ==> r.features[|c.features|].id == c.coding.tables[i][key] && r.coding == c.coding
  {
    var m := IdAlloc.MintIn(c.coding.tables, i, key, c.coding.next);
    var r := Coded(c.features + [StateFeature(m.id, 1.0)], c.coding.(tables := m.family, next := m.next));
    assert r.features[..|c.features|] == c.features;
    r
  }

  /** A later pass keeps the features and table entries of the earlier ones. */
  lemma MintAllKeeps(r1: Coded, r: Coded, ks: seq<TileKey>, n: int)
    requires Valid(r1.coding) && Valid(r.coding) && Grows(r1.coding, r.coding)
    requires |ks| == |r1.coding.tilings| && 0 <= n == |r1.features| <= |ks| && n <= |r.features|
    requires r.features[..n] == r1.features
    requires forall i :: 0 <= i < n ==> ks[i] in r1.coding.tables[i] && r1.coding.tables[i][ks[i]] == r1.features[i].id
    ensures forall i :: 0 <= i < n ==> ks[i] in r.coding.tables[i] && r.coding.tables[i][ks[i]] == r.features[i].id
    ensures forall i :: 0 <= i < n ==> r.features[i] == r1.features[i]
  {
    forall i | 0 <= i < n
      ensures ks[i] in r.coding.tables[i] && r.coding.tables[i][ks[i]] == r.features[i].id
      ensures r.features[i] == r1.features[i]
    {
      assert r.features[i] == r.features[..n][i];
      assert i in r1.coding.tables && ks[i] in r1.coding.tables[i];
    }
  }

  /**
   The loop of `features` over the first `n` tilings: tiling `i` looks its
   key up in its own table, minting from the shared counter when absent.
   */
  function MintAll(tc: TileCoding, ks: seq<TileKey>, n: int): (r: Coded)
    requires Valid(tc) && |ks| == |tc.tilings| && 0 <= n <= |ks|
    ensures Valid(r.coding) && Grows(tc, r.coding)
    ensures |r.features| == n
    ensures forall i :: 0 <= i < n ==> r.features[i].value == 1.0
    ensures forall i :: 0 <= i < n ==> ks[i] in r.coding.tables[i] && r.coding.tables[i][ks[i]] == r.features[i].id
    ensures forall i :: n <= i < |ks| ==> r.coding.tables[i] == tc.tables[i]
    ensures r.coding.next == tc.next + Missing(tc, ks, n)
    decreases n
  {
    if n == 0 then Coded([], tc)
    else
      var r1 := MintAll(tc, ks, n - 1);
      var r := Step(r1, n - 1, ks[n - 1]);
      MintOneMore(tc, ks, n, r1, r);
      r
  }

  /** The pass over tiling n - 1 extends what the passes over the earlier tilings established. */
  lemma MintOneMore(tc: TileCoding, ks: seq<TileKey>, n: int, r1: Coded, r: Coded)
    requires Valid(tc) && |ks| == |tc.tilings| && 0 < n <= |ks|
    requires Valid(r1.coding) && Grows(tc, r1.coding) && |r1.features| == n - 1
    requires forall i :: 0 <= i < n - 1 ==> r1.features[i].value == 1.0
    requires forall i :: 0 <= i < n - 1 ==> ks[i] in r1.coding.tables[i] && r1.coding.tables[i][ks[i]] == r1.features[i].id
    requires forall i :: n - 1 <= i < |ks| ==> r1.coding.tables[i] == tc.tables[i]
    requires r1.coding.next == tc.next + Missing(tc, ks, n - 1)
    requires r == Step(r1, n - 1, ks[n - 1])
    ensures Valid(r.coding) && Grows(tc, r.coding)
    ensures |r.features| == n
    ensures forall i :: 0 <= i < n ==> r.features[i].value == 1.0
    ensures forall i :: 0 <= i < n ==> ks[i] in r.coding.tables[i] && r.coding.tables[i][ks[i]] == r.features[i].id
    ensures forall i :: n <= i < |ks| ==> r.coding.tables[i] == tc.tables[i]
    ensures r.coding.next == tc.next + Missing(tc, ks, n)
  {
    GrowsTransitive(tc, r1.coding, r.coding);
    MintAllKeeps(r1, r, ks, n - 1);
    forall i | 0 <= i < n
      ensures r.features[i].value == 1.0
      ensures ks[i] in r.coding.tables[i] && r.coding.tables[i][ks[i]] == r.features[i].id
    {
      if i < n - 1 {
        assert r.features[i] == r1.features[i];
      }
    }
  }

  /** Features read off a valid coder's tables, one per tiling, have distinct ids below the counter. */
  lemma StoredIdsDistinct(tc: TileCoding, ks: seq<TileKey>, fs: seq<StateFeature>)
    requires Valid(tc) && |ks| == |tc.tilings| == |fs|
    requires forall i :: 0 <= i < |ks| ==> ks[i] in tc.tables[i] && tc.tables[i][ks[i]] == fs[i].id
    ensures forall i, j :: 0 <= i < j < |fs| ==> fs[i].id != fs[j].id
    ensures forall i :: 0 <= i < |fs| ==> 0 <= fs[i].id < NumFeatures(tc)
  {
    forall i, j | 0 <= i < j < |fs| ensures fs[i].id != fs[j].id {
      NumFeaturesBound(tc, i, j, ks[i], ks[j]);
    }
    forall i | 0 <= i < |fs| ensures 0 <= fs[i].id < NumFeatures(tc) {
      NumFeaturesBound(tc, i, i, ks[i], ks[i]);
    }
  }

  /**
   `features(s)`: exactly one feature per tiling, in tiling order, each of
   value 1; the ids are those the tables hold for the input's tiles after
   the call, pairwise distinct and below `num_features`; the counter grows
   by the number of tiles seen for the first time.
   */
  function Features(tc: TileCoding, input: seq<real>): (r: Coded)
    requires Valid(tc) && Accepts(tc, input)
    ensures Valid(r.coding) && Grows(tc, r.coding)
    ensures |r.features| == |tc.tilings|
    ensures forall i :: 0 <= i < |tc.tilings| ==> r.features[i].value == 1.0
    ensures forall i :: 0 <= i < |tc.tilings| ==>
              Keys(tc, input)[i] in r.coding.tables[i] && r.coding.tables[i][Keys(tc, input)[i]] == r.features[i].id
    ensures forall i, j :: 0 <= i < j < |r.features| ==> r.features[i].id != r.features[j].id
    ensures forall i :: 0 <= i < |r.features| ==> 0 <= r.features[i].id < NumFeatures(r.coding)
    ensures NumFeatures(r.coding) == NumFeatures(tc) + Missing(tc, Keys(tc, input), |tc.tilings|)
  {
    var ks := Keys(tc, input);
    var r := MintAll(tc, ks, |tc.tilings|);
    StoredIdsDistinct(r.coding, ks, r.features);
    r
  }

  /** Every tiling's table already holds its key. */
  predicate Present(tc: TileCoding, ks: seq<TileKey>)
    requires Valid(tc) && |ks| == |tc.tilings|
  {
    forall i :: 0 <= i < |ks| ==> ks[i] in tc.tables[i]
  }

  /** The ids the tables hold for the keys, read without minting. */
  function Peek(tc: TileCoding, ks: seq<TileKey>): (r: seq<StateFeature>)
    requires Valid(tc) && |ks| == |tc.tilings| && Present(tc, ks)
    ensures |r| == |ks|
    ensures forall i :: 0 <= i < |ks| ==> r[i] == StateFeature(tc.tables[i][ks[i]], 1.0)
  {
    seq(|ks|, i requires 0 <= i < |ks| => StateFeature(tc.tables[i][ks[i]], 1.0))
  }

  /** Growing the coder keeps the input's keys, their presence and the ids read. */
  lemma PeekStable(tc: TileCoding, tc': TileCoding, input: seq<real>)
    requires Valid(tc) && Valid(tc') && Accepts(tc, input) && Grows(tc, tc')
    ensures Accepts(tc', input) && Keys(tc', input) == Keys(tc, input)
    ensures Present(tc, Keys(tc, input)) ==>
              Present(tc', Keys(tc, input)) && Peek(tc', Keys(tc, input)) == Peek(tc, Keys(tc, input))
  {
    assert Keys(tc', input) == Keys(tc, input);
  }

  /** After `features`, every tile of the input is present and reading them gives the returned features. */
  lemma FeaturesThenPresent(tc: TileCoding, input: seq<real>)
    requires Valid(tc) && Accepts(tc, input)
    ensures Accepts(Features(tc, input).coding, input)
    ensures Keys(Features(tc, input).coding, input) == Keys(tc, input)
    ensures Present(Features(tc, input).coding, Keys(tc, input))
    ensures Peek(Features(tc, input).coding, Keys(tc, input)) == Features(tc, input).features
  {
    PeekStable(tc, Features(tc, input).coding, input);
  }

  /** A pass whose key is present reads its id and changes nothing. */
  lemma StepPresent(c: Coded, i: int, key: TileKey)
    requires Valid(c.coding) && 0 <= i < |c.coding.tilings| && key in c.coding.tables[i]
    ensures Step(c, i, key) == Coded(c.features + [StateFeature(c.coding.tables[i][key], 1.0)], c.coding)
  {
    var m := IdAlloc.MintIn(c.coding.tables, i, key, c.coding.next);
    assert m.family == c.coding.tables && m.next == c.coding.next;
  }

  /** When every key is present, the first `n` features are read off the tables and nothing changes. */
  lemma {:induction false} MintAllPresent(tc: TileCoding, ks: seq<TileKey>, n: int)
    requires Valid(tc) && |ks| == |tc.tilings| && Present(tc, ks) && 0 <= n <= |ks|
    ensures MintAll(tc, ks, n) == Coded(Peek(tc, ks)[..n], tc)
    decreases n
  {
    if n > 0 {
      var p := Peek(tc, ks);
      MintAllPresent(tc, ks, n - 1);
      MintAllLast(tc, ks, n);
      StepPresent(Coded(p[..n - 1], tc), n - 1, ks[n - 1]);
      PrefixSnoc(p, n);
    }
  }

  /** The last pass of the loop over the first n tilings. */
  lemma MintAllLast(tc: TileCoding, ks: seq<TileKey>, n: int)
    requires Valid(tc) && |ks| == |tc.tilings| && 0 < n <= |ks|
    ensures MintAll(tc, ks, n) == Step(MintAll(tc, ks, n - 1), n - 1, ks[n - 1])
  {
  }

  lemma PrefixSnoc<T>(p: seq<T>, n: int)
    requires 0 < n <= |p|
    ensures p[..n] == p[..n - 1] + [p[n - 1]]
  {
  }

  /** When every tile of the input is present, `features` reads the tables and changes nothing. */
  lemma FeaturesWhenPresent(tc: TileCoding, input: seq<real>)
    requires Valid(tc) && Accepts(tc, input) && Present(tc, Keys(tc, input))
    ensures Features(tc, input) == Coded(Peek(tc, Keys(tc, input)), tc)
  {
    var ks := Keys(tc, input);
    MintAllPresent(tc, ks, |ks|);
    assert Peek(tc, ks)[..|ks|] == Peek(tc, ks);
  }

  /** Repeating the query returns the same features and leaves the coder, and its counter, unchanged. */
  lemma FeaturesRepeat(tc: TileCoding, input: seq<real>)
    requires Valid(tc) && Accepts(tc, input)
    ensures Features(Features(tc, input).coding, input) == Features(tc, input)
  {
    var r := Features(tc, input);
    FeaturesThenPresent(tc, input);
    FeaturesWhenPresent(r.coding, input);
  }

  /**
   Querying `x` and then `y`: in tiling `i` the two queries receive the same
   id exactly when their tiles have the same key.
   */
  lemma SecondQuery(tc: TileCoding, x: seq<real>, y: seq<real>, i: int)
    requires Valid(tc) && Accepts(tc, x) && Accepts(tc, y) && 0 <= i < |tc.tilings|
    ensures Accepts(Features(tc, x).coding, y)
    ensures Features(Features(tc, x).coding, y).features[i].id == Features(tc, x).features[i].id
            <==> Key(tc, i, x) == Key(tc, i, y)
  {
    var r1 := Features(tc, x);
    PeekStable(tc, r1.coding, y);
    var r2 := Features(r1.coding, y);
    var kx := Keys(tc, x)[i];
    var ky := Keys(tc, y)[i];
    assert r2.coding.tables[i][kx] == r1.features[i].id;
    assert r2.coding.tables[i][ky] == r2.features[i].id;
    IdAlloc.Unique(r2.coding.tables, r2.coding.next, i, kx, i, ky);
  }

  /**
   As written: with hash keying, two inputs whose tiles in tiling `i` have
   the same hash get the same id there, even when the tiles' coordinates
   differ.
   */
  lemma HashKeyingMergesTiles(tc: TileCoding, x: seq<real>, y: seq<real>, i: int)
    requires Valid(tc) && tc.mode == ByHash && Accepts(tc, x) && Accepts(tc, y) && 0 <= i < |tc.tilings|
    requires GetTile(tc.tilings[i], x).hash == GetTile(tc.tilings[i], y).hash
    ensures Accepts(Features(tc, x).coding, y)
    ensures Features(Features(tc, x).coding, y).features[i].id == Features(tc, x).features[i].id
  {
    SecondQuery(tc, x, y, i);
  }

  /** A concrete pair of inputs whose unit-grid tiles differ but collide under the hash. */
  lemma CollidingInputs()
    ensures GetTile(Tiling([1.0, 1.0], [0.0, 0.0], [true, true]), [0.5, 31.5]).coords == [0, 31]
    ensures GetTile(Tiling([1.0, 1.0], [0.0, 0.0], [true, true]), [1.5, 0.5]).coords == [1, 0]
    ensures GetTile(Tiling([1.0, 1.0], [0.0, 0.0], [true, true]), [0.5, 31.5]).hash
         == GetTile(Tiling([1.0, 1.0], [0.0, 0.0], [true, true]), [1.5, 0.5]).hash
  {
    var t := Tiling([1.0, 1.0], [0.0, 0.0], [true, true]);
    assert Coordinate(0.5, 0.0, 1.0) == 0;
    assert Coordinate(31.5, 0.0, 1.0) == 31;
    assert Coordinate(1.5, 0.0, 1.0) == 1;
    assert GetTile(t, [0.5, 31.5]).coords == [0, 31];
    assert GetTile(t, [1.5, 0.5]).coords == [1, 0];
    HashCollision();
  }

  /**
   Corrected: with coordinate keying, two inputs whose tiles in tiling `i`
   have different coordinates always get different ids there.
   */
  lemma CoordKeyingSeparatesTiles(tc: TileCoding, x: seq<real>, y: seq<real>, i: int)
    requires Valid(tc) && tc.mode == ByCoords && Accepts(tc, x) && Accepts(tc, y) && 0 <= i < |tc.tilings|
    requires GetTile(tc.tilings[i], x).coords != GetTile(tc.tilings[i], y).coords
    ensures Accepts(Features(tc, x).coding, y)
    ensures Features(Features(tc, x).coding, y).features[i].id != Features(tc, x).features[i].id
  {
    SecondQuery(tc, x, y, i);
  }
}

=== FILE: wrappers.dfy ===
/** Failure-compatible wrappers shared by the model. */
module Wrappers {

  /** An optional value; used for the approximator's memo before its first fill. */
  datatype Option<+T> = None | Some(value: T)

  /** Either a value or the reason no value could be produced. */
  datatype Result<+T, +E> = Success(value: T) | Failure(error: E) {
    predicate IsFailure() {
      Failure?
    }

    function PropagateFailure<U>(): Result<U, E>
      requires Failure?
    {
      Failure(error)
    }

    function Extract(): T
      requires Success?
    {
      value
    }
  }
}
